=== FILE: README.md ===
# Sprint dashboard metrics, modelled in Dafny

`app.py` is a sprint dashboard built over a project-management database of
projects, cycles (sprints), issues, cycle memberships, assignees, labels,
states, estimate points, issue versions and issue activities. Every figure on
the page is computed by a parameterised SQL query. This project models those
queries as pure Dafny functions over an immutable database value, and proves
what each figure means.

The model covers:

- the sprint KPIs: planned and delivered issues, and estimated and delivered
  points;
- the rolled-over task count;
- the two per-member averages: delivered tasks and delivered points;
- the lead-time and cycle-time averages;
- the per-member table;
- the label-category breakdown;
- the alert counters;
- the three issue lenses: selected sprints, current sprint and backlog, with
  their row filters;
- the fallback to the three most recently started sprints.

Module layout, one concept per file:

| module | file | what it holds |
|---|---|---|
| `Base` | `base.dfy` | `Option`/`Result`, sequence and set helpers, sums and means |
| `Text` | `text.dfy` | `LOWER`, `TRIM`, Python's `strip()`, `CONCAT_WS`/`STRING_AGG`, code-point order |
| `Sorting` | `sorting.dfy` | insertion sort with a total comparator (the `ORDER BY`s) |
| `Store` | `store.dfy` | the tables, the membership join, UTC day numbers |
| `Filters` | `filters.dfy` | the optional assignee/label/state filters and the common scope |
| `Estimation` | `estimation.dfy` | the `COALESCE(i.point, ep.key, NULLIF(ep.value,'')::int[, 0])` chain |
| `Delivery` | `delivery.dfy` | "delivered inside the sprint window" |
| `SprintMetrics` | `sprint_metrics.dfy` | `compute_sprint_metrics` |
| `Rollover` | `rollover.dfy` | `compute_rolled_tasks_count` |
| `Productivity` | `productivity.dfy` | `compute_productivity_avg_per_member`, `compute_points_avg_per_member` |
| `TimeMetrics` | `time_metrics.dfy` | `compute_time_metrics_for_cycles` |
| `MemberMetrics` | `member_metrics.dfy` | `compute_member_metrics_for_cycles` |
| `Labels` | `labels.dfy` | `compute_label_breakdown_for_cycles` |
| `Selection` | `selection.dfy` | the current-sprint window and the default sprint selection |
| `Alerts` | `alerts.dfy` | the alert text and both alert counters |
| `Rows` | `rows.dfy` | `load_issues_for_cycles`, `..._for_current_sprint`, `load_backlog_issues`, the page's row filters |

Modelling conventions:

- **Tables.** Entity tables are maps keyed by id. Association and history
  tables are sequences, so a duplicated row is visible to `SUM`, as in SQL.
- **Time.** Instants are integer seconds and dates are day numbers, with
  `DayOf(t) = t / 86400`.
- **Failed casts.** A query that evaluates `NULLIF(ep.value,'')::int` on a
  non-numeric text aborts. The model returns `Fail(CastFailure)` exactly when
  some row the expression is evaluated on has such a text.
- **Wrappers.** `get_df` does not catch errors, so a failing query is a
  `Fail`. The wrappers that catch a conversion error and answer 0 return
  `Ok(0)`. `compute_time_metrics_for_cycles` catches everything; its query has
  no cast, so it never fails.

## Model

| member | source | states |
|---|---|---|
| Store.DayOf | app.py:451-452 | `::date` in UTC: the day number brackets the instant (day start <= t < next day start) |
| Store.JoinLinks | app.py:159-161 | a joined row exists exactly for a membership whose cycle and issue exist, carrying those very records (inner joins drop dangling links) |
| Estimation.ParseInt4 | app.py:154 | the `::int` cast only yields values inside the 32-bit range and never succeeds on the empty text |
| Estimation.ParseShowInt | app.py:154 | the cast reads back the decimal text of every int4 value: parse(show(n)) == n |
| Estimation.ShowNatValue | app.py:154 | the decimal digits of n denote n (the inverse half of the cast round trip) |
| Estimation.ResolveEstimate | app.py:650 | an explicit issue point wins, then the scale key, then the value text the cast reads; it fails exactly when there is no point, no key, and a non-empty value text the cast rejects; with no scale entry or an empty text it is NULL |
| Estimation.EffectivePoints | app.py:154-158 | point, then key, then the number the cast reads from a non-empty text, else 0; fails exactly when there is no point, no key, and a non-empty text the cast rejects |
| Estimation.EffectivePointsPrecedence | app.py:154 | point, then key, then the numeric value text, then 0: each link of the COALESCE decides when the earlier ones are NULL |
| Estimation.StrayCharFails | app.py:154 | the cast rejects any text holding a character that is not a blank, a sign or a digit |
| Estimation.NonNumericTextFails | app.py:154 | a value text holding such a character (a letter, say) makes the point expression abort instead of counting as 0 |
| Estimation.PointsOr0 | app.py:532 | on a resolvable issue the total points function agrees with the defaulted chain |
| Delivery.UndeliveredAsWritten | app.py:222-226 | the rollover's three-way "not delivered" test is exactly the negation of the delivery test (no completion, before start, or after end) |
| Delivery.OpenIssueNeverDelivered | app.py:150-153 | an issue without a completion time is never delivered; one with a completion time is delivered in an unbounded sprint |
| Delivery.DeliveryIsPerCycle | app.py:150-153 | the same completion can be delivered in one sprint's window and not in another's |
| Delivery.WiderWindowKeepsDelivery | app.py:150-153 | a delivery stays a delivery in any window that contains the original one |
| Filters.ScopeRows | app.py:117-142 | a membership row is in scope iff it is live, of a selected cycle and of the project, and its issue passes every supplied filter |
| Filters.WidenedFilterAdmits | app.py:123-142 | an issue that passes a filter passes any wider filter and the empty filter (omitted filters add no condition) |
| Filters.ScopeMonotone | app.py:117-163 | selecting more cycles or widening the filters never removes a row from the scope |
| SprintMetrics.DeliveredWithinPlanned | app.py:149-153 | the delivered issues of a sprint are a subset of its planned issues, so "entregues" <= "estimadas" |
| SprintMetrics.RowForPoints | app.py:154-158 | a sprint's aggregate sums the effective points over its in-scope rows, and over those of them delivered in its window, one term per row |
| SprintMetrics.ComputeSprintMetrics | app.py:107-166 | empty selection gives no rows; fails iff a scope row's estimate does not cast; one row per sprint with planned issues and none other, each with the sprint's own name and start, its distinct planned and delivered counts, and its estimated and delivered points summed per scope row; rows ordered by start (NULLS FIRST) then name |
| SprintMetrics.PointsDeliveredWithinEstimated | app.py:154-158 | with non-negative estimates, 0 <= delivered points <= estimated points in every row |
| Rollover.RolledCount | app.py:179-242 | exactly the number of distinct rolled issues (each counted once); 0 without cycles; never more than the distinct base issues; 0 exactly when no base row is both undelivered and re-planned later |
| Rollover.RolledIff | app.py:212-236 | an issue is rolled iff some live-cycle, live-issue, dated membership in a selected cycle leaves it undelivered and a later-starting live membership of the project exists |
| Rollover.DeletedLinkStillInBase | app.py:184-190 | the base does not check `ci.deleted_at`, so a removed membership still counts toward the rollover |
| Rollover.DeletedLinkNotLater | app.py:233 | a removed membership never serves as the later sprint |
| Rollover.RolledMonotone | app.py:184-236 | more cycles or wider filters never lower the rolled count |
| Rollover.RolledIntoLaterSprint | app.py:222-236 | an undelivered base issue with a later live membership is counted |
| Productivity.CreditRows | app.py:282-303 | the credited assignments are exactly the live assignments of delivered issues whose assignee passes the assignee filter |
| Productivity.Credited | app.py:303 | GROUP BY assignee: each credited assignee appears once, and only credited assignees appear |
| Productivity.MeanTasks | app.py:297-303 | `AVG(cnt)` over the groups: times the number of distinct assignees it is the sum of their distinct task counts; between 1 and the delivered issues |
| Productivity.AvgTasksPerMember | app.py:253-311 | 0.0 without cycles or credited rows; otherwise the average over the distinct credited assignees of their distinct delivered tasks (average times assignees equals the sum), between 1 and the number of delivered issues |
| Productivity.TaskCountBounds | app.py:297-303 | the mean of per-assignee distinct task counts lies in [1, delivered] when any row exists, 0 otherwise |
| Productivity.GroupsAreAllowedAssignees | app.py:282-303 | every averaged assignee passes the filter and has at least one delivered task, all among the delivered set |
| Productivity.SingleAssigneeAverage | app.py:282-303 | filtering on one assignee makes the average that assignee's delivered task count |
| Productivity.NoCreditNoAverage | app.py:297-311 | with no live assignment of a delivered issue the average is 0.0 |
| Productivity.DeliveredSetMonotone | app.py:258-280 | more cycles or wider label/state filters never shrink the delivered set |
| Productivity.MeanPoints | app.py:365-373 | `AVG(points_sum)` over the groups: times the number of distinct assignees it is the sum of their summed points |
| Productivity.AvgPointsPerMember | app.py:322-381 | 0.0 without cycles; fails iff a credited row's estimate does not cast; 0.0 when nothing is credited; otherwise the average over the distinct credited assignees of their points summed per assignee row |
| Productivity.SingleAssigneePoints | app.py:365-373 | filtering on one assignee makes the average that assignee's summed points |
| Productivity.PointsAverageNonNegative | app.py:365-367 | non-negative estimates give a non-negative points average |
| TimeMetrics.EarliestVersionStart | app.py:439-443 | the MIN over live dated versions: present iff one exists, attained, and below every such start date |
| TimeMetrics.StartOfWorkPrecedence | app.py:452 | start of work is the earliest version start, else the issue's start date, else the commit day |
| TimeMetrics.TimeRows | app.py:454-456 | the averaged rows are exactly the scope rows delivered inside their sprint window |
| TimeMetrics.ComputeTimeMetrics | app.py:396-470 | (0, 0) without cycles or deliveries; otherwise each average times the number of delivered rows is the sum of that row's lead (resp. cycle) days; the cycle average never exceeds the lead average when work starts after creation; non-negative lead days give a non-negative lead average |
| TimeMetrics.CycleWithinLead | app.py:451-452 | per-row cycle days <= lead days lifts to the averages |
| TimeMetrics.LeadNonNegative | app.py:451 | non-negative lead days give a non-negative average |
| TimeMetrics.SameDayLeadIsZero | app.py:451 | an issue completed on its creation day has lead time 0 (date subtraction, not elapsed time) |
| MemberMetrics.BaseRows | app.py:490-536 | the base rows are exactly the live, filtered scope rows of the selected cycles |
| MemberMetrics.Credits | app.py:510-542 | each base row is credited to exactly its live, filter-passing assignees |
| MemberMetrics.DevKeys | app.py:572 | GROUP BY dev name: every credited name once, nothing else |
| MemberMetrics.RowForDevPoints | app.py:552-560 | a group's "Pontos entregues" sums the points of its delivered credits and "Pontos médios por issue" is their average |
| MemberMetrics.MemberTableFacts | app.py:534-573 | the ordered group rows carry distinct dev names, each a name some credit shows, with its realised count, its summed and averaged delivered points, and a row for every credit's name |
| MemberMetrics.ComputeMemberMetrics | app.py:481-573 | empty selection gives no rows; fails iff a credited row's estimate does not cast; one row per distinct dev name some credit shows and none other, each "Realizado" equal to that name's distinct delivered issues, "Pontos entregues" the sum and the average the mean of the points of that name's delivered credits (both 0 when nothing is realised); ordered by points desc, realised desc, name |
| MemberMetrics.RealizedIsDevDeliveries | app.py:546-550 | "Realizado" counts the distinct issues delivered inside their window and credited to that name |
| MemberMetrics.NothingRealizedNoPoints | app.py:551-560 | a name with no delivery has 0 points and a 0 average (COALESCE of an empty FILTER) |
| MemberMetrics.MemberPointsNonNegative | app.py:551-560 | non-negative estimates give non-negative points and averages in every row |
| MemberMetrics.SameNameOneGroup | app.py:539-572 | two users with the same display name share one row |
| Labels.CategoryNamesDistinct | app.py:937-956 | the five category texts are pairwise distinct, so grouping by text is grouping by category |
| Labels.ClassifyPrecedence | app.py:931-957 | each category holds iff its test holds and every earlier test fails (unplanned, GLPI bug, bug, feature, other) |
| Labels.UnlabelledByType | app.py:946-956 | an issue with no labels is classified by its type name alone |
| Labels.DeletedLabelStillNamed | app.py:913-919 | the label aggregation does not check `l.deleted_at`: deleting a label leaves every label text unchanged |
| Labels.RealizedWithinPlanned | app.py:965-970 | realised issues of a (sprint, category) never outnumber the planned ones |
| Labels.ComputeLabelBreakdown | app.py:864-973 | empty selection gives no rows; one row per (sprint, category) with planned issues and none other, each with its distinct planned and delivered counts; ordered by sprint, name, category |
| Labels.CategoriesDisjoint | app.py:931-957 | no issue is planned under two categories of one sprint |
| Labels.CategoriesCoverSprint | app.py:911-958 | the union of a sprint's five categories is exactly the sprint's planned issues (empty when the project row is missing) |
| Labels.CategoriesPartitionSprint | app.py:958-972 | the category counts of a sprint add up to the sprint's "estimadas" KPI |
| Selection.CurrentRows | app.py:685-694 | the current-sprint rows are the live project rows whose cycle window holds now |
| Selection.CurrentRowsAreActiveScope | app.py:692-694 | the current-sprint queries are the cycle queries run on the cycles active now: the same rows in the same order |
| Selection.DefaultCycles | app.py:1133-1141 | the user's choice when non-empty; otherwise min(3, started) distinct started cycles, latest first, no unchosen cycle starting later than a chosen one |
| Alerts.PlaceholderIgnoresCase | app.py:655 | for every priority text, lowering it first does not change whether it is a placeholder |
| Alerts.PlaceholderIgnoresLeadingSpace | app.py:655 | for every priority text, a leading space does not change whether it is a placeholder |
| Alerts.PlaceholderIgnoresTrailingSpace | app.py:655 | for every priority text, a trailing space does not change whether it is a placeholder |
| Alerts.PaddedNoneIsPlaceholder | app.py:655 | "  None " is a placeholder priority after LOWER and TRIM |
| Alerts.UpperCaseNaoDefinidaIsPlaceholder | app.py:655 | "NÃO DEFINIDA" is a placeholder priority after LOWER |
| Alerts.RealPriorityIsNotPlaceholder | app.py:655 | a real priority and a NULL priority raise no alert |
| Alerts.AlertTextCases | app.py:652-657 | the alert text is empty iff neither alert holds, and otherwise is one alert text or both joined by ", " |
| Alerts.AlertTextNeverBlank | app.py:652-657 | a non-empty alert text survives Python's strip(), so the "Com alerta" filter sees it |
| Alerts.CountAlerts | app.py:1069-1075 | fails iff a row's estimate does not cast; otherwise exactly the number of distinct alerting issues, so at most the distinct issues, and 0 iff no row alerts |
| Alerts.AlertsForCycles | app.py:1040-1081 | 0 without cycles; otherwise the count of distinct alerting scope issues, failing iff an estimate does not cast |
| Alerts.AlertsForCurrentSprint | app.py:985-1030 | the number of distinct alerting current-sprint issues, failing iff an estimate does not cast |
| Alerts.CurrentSprintAlertsAreActiveCycles | app.py:985-1024 | the current-sprint counter equals the cycles counter on the cycles active now |
| Alerts.AlertsMonotone | app.py:1042-1066 | more cycles or wider filters never hide an alerting issue |
| Rows.FirstDay | app.py:628 | `MIN(created_at)::date`: none iff no instants, else an attained lower bound of the days |
| Rows.StartedOnPrecedence | app.py:624-648 | "Iniciada em" is NULL outside started/completed; otherwise the first started-state activity day, else the first started version, else the issue start date |
| Rows.SprintRowColumns | app.py:650-663 | a row carries its issue, the undefaulted estimate (explicit point first), an empty alert text iff no alert, and "Entregue"/"Não entregue" iff delivered or not |
| Rows.IssueRowLeTransitive | app.py:675-676 | the lens order (start NULLS FIRST, sprint name, issue id) is transitive |
| Rows.SprintLens | app.py:618-677 | fails iff a row's estimate does not cast; the output is a rearrangement of the rows' detail rows (same multiset, one per scope row), ordered by sprint start (NULLS FIRST), name, issue |
| Rows.CycleLens | app.py:585-586 | no rows without a selection; otherwise the lens over the scope |
| Rows.CurrentLensIsActiveCycles | app.py:681-776 | the current-sprint lens is the cycles lens on the cycles active now |
| Rows.ChoiceTextFilters | app.py:1556-1562 | only "Entregue", "Não entregue" and "Com alerta" filter the sprint tables, and only "Com alerta" the backlog (app.py:1626-1628); "Todas" and every other saved text leave the rows untouched |
| Rows.FilterKeepsOrder | app.py:1556-1562 | masking rows that are in the lens order leaves them in that order |
| Rows.FilterRows | app.py:1556-1562 | the row filter keeps exactly the rows its choice accepts, each as often as it occurs, in their order (a sorted lens stays sorted); "Todas" keeps all rows in place |
| Rows.AlertChoiceIsAlert | app.py:1561-1562 | "Com alerta" keeps a row iff its issue raises an alert |
| Rows.AlertRowsMatchCounter | app.py:1561-1562 | the distinct issues of the "Com alerta" rows number exactly the alert counter of the same scope |
| Rows.DeliveryChoicesPartition | app.py:1557-1560 | "Entregue" and "Não entregue" split the rows: their sizes add up to the whole |
| Rows.SprintLensDeliveryTexts | app.py:658-663 | every lens row is either "Entregue" or "Não entregue" |
| Rows.BacklogIdList | app.py:786-852 | the backlog ids: each a live project issue whose state is in the backlog group and that passes the filters, every such issue listed, in strictly descending id order |
| Rows.BacklogLens | app.py:780-853 | fails iff a backlog issue's estimate does not cast; exactly the backlog issues, each once, in descending id order, each row that issue's columns, with no start day |
| Rows.FilterBacklog | app.py:1626-1628 | the backlog filter keeps every row except under "Com alerta", where it keeps the rows with a non-blank alert text, each as often as it occurs; descending id order survives |
| Rows.BacklogAlertChoiceIsAlert | app.py:1627-1628 | a backlog row is kept by "Com alerta" iff its issue raises an alert |
| Text.LexLeTotal | app.py:166 | the name order used to break ties is total |
| Text.LexLeAntisymmetric | app.py:166 | two names ordered both ways are equal |
| Text.PyStripEmpty | app.py:1562 | strip() gives "" iff every character is whitespace |

## Left out

- Connection handling and `get_df`'s cursor code are not part of this model; a query
  is a pure function of the database value. Caching is left out too.
- The Streamlit layout, KPI cards, charts, session state and radio buttons
  are out of scope. The filters take the saved filter text through
  `Rows.ChoiceOf`; reading and storing that text in the session state is
  left out.
- `load_workspaces`, `load_projects`, `load_states`, `load_labels` and
  `load_workspace_users` only feed the pickers and are not modelled.
  `load_cycles` is modelled only as the set of listed cycles the default
  selection ranks. The page maps sprint names to ids through a dict, so two
  sprints with one name collapse. That mapping is not modelled: selections
  are sets of ids.
- The per-member lead and cycle time columns (app.py:561-570) use
  floating-point epoch arithmetic and are not modelled. Display rounding is
  not modelled either.
- The label regular expressions and ILIKE patterns are parameters of the
  model. Only the order of the CASE branches and their NULL behaviour are
  modelled.
- `NOW()` is a parameter. The `::date` casts assume the UTC time zone.
- String order is by code point. The database collation may order accented
  names differently.
- `LOWER` maps ASCII and Latin-1 capitals only. `TRIM` strips spaces only,
  as PostgreSQL's default does.
- `STRING_AGG` and `CONCAT_WS` concatenate in row order. The database gives
  no order for `STRING_AGG`.
- Ties left by an `ORDER BY` are unspecified in SQL. The contracts state
  sortedness and the exact row contents, not one tie order.
- MemberMetrics.ComputeMemberMetrics: the model assumes PostgreSQL applies an
  aggregate's FILTER before evaluating its argument. A failing cast
  therefore only aborts when it is on a credited row. The `point` column is
  computed in the `base` CTE (app.py:532), so a database that evaluates it
  eagerly could fail on more rows.
- Alerts.CountAlerts: the alert predicate sits in the WHERE clause next to
  the scope conditions. The model assumes the cast is evaluated on the scope
  rows only. A planner may evaluate it on other rows first.
- Estimation.EffectivePoints: the model makes a non-numeric estimate text
  abort the query, because that is what the cast does. It does not read the
  text as 0.
- Rollover.RolledCount: the `except` branch that answers 0 when the result
  does not convert to an integer has no counterpart, because a count is
  always a natural number.
- Labels.ComputeLabelBreakdown: cycle ids are natural numbers, so ordering
  by `c.cycle_id` orders numerically. UUIDs would order by their text.
- Rows.SprintLens / Rows.BacklogLens: issue ids are natural numbers ordered
  numerically. They stand for the database's own order on `i.id` in
  `ORDER BY ..., i.id` (app.py:676, app.py:775) and `ORDER BY i.id DESC`
  (app.py:852). Ids that are UUIDs order by their text, not by age.
- Productivity.AvgTasksPerMember, Productivity.AvgPointsPerMember,
  TimeMetrics.ComputeTimeMetrics, MemberMetrics.ComputeMemberMetrics: every
  `AVG` is exact here (real arithmetic). Rounding of the database's numeric
  or `double precision` averages (app.py:556) and of the `float()`
  conversions (app.py:308, 378, 466-467) is not modelled.
- Estimation.ParseInt4: the cast follows the integer input syntax of
  PostgreSQL before version 16: optional blanks and sign, then decimal
  digits. Version 16 also reads `1_000` and the `0x`, `0o` and `0b`
  prefixes; the model rejects those texts as cast failures.

=== FILE: alerts.dfy ===
/** Hygiene alerts: an issue without a usable estimate or with a placeholder
    priority. The alert text of the detail rows and the two alert counters
    (`compute_alerts_counts_for_cycles`, `..._for_current_sprint`). */
module Alerts {
  import opened Base
  import opened Text
  import opened Store
  import opened Filters
  import opened Estimation
  import opened Selection

  /** The priority texts that mean "no priority", after TRIM(LOWER(...)). */
  const PlaceholderPriorities: set<string> :=
    {"", "none", "sem prioridade", "nao definida", "não definida", "undefined"}

  /** The estimate chain without its final 0 default is NULL or 0. */
  predicate MissingEstimate(e: Option<int>)
  {
    e.None? || e == Some(0)
  }

  /** A NULL priority is not an alert: the IN test on NULL is NULL. */
  predicate PlaceholderPriority(p: Option<string>)
  {
    p.Some? && Trim(Lower(p.value)) in PlaceholderPriorities
  }

  /** The alert condition of an issue whose estimate chain resolves. */
  predicate IsAlert(db: Db, issue: Issue)
  {
    || (EstimateOf(db, issue).Ok? && MissingEstimate(EstimateOf(db, issue).value))
    || PlaceholderPriority(issue.priority)
  }

  /** Case does not matter: LOWER runs before the comparison. */
  lemma PlaceholderIgnoresCase(s: string)
    ensures PlaceholderPriority(Some(Lower(s))) == PlaceholderPriority(Some(s))
  {
    LowerIdempotent(s);
  }

  /** A leading space does not matter: TRIM drops it. */
  lemma PlaceholderIgnoresLeadingSpace(s: string)
    ensures PlaceholderPriority(Some(" " + s)) == PlaceholderPriority(Some(s))
  {
    assert Lower(" " + s) == " " + Lower(s);
    TrimLeadingSpace(Lower(s));
  }

  /** A trailing space does not matter: TRIM drops it. */
  lemma PlaceholderIgnoresTrailingSpace(s: string)
    ensures PlaceholderPriority(Some(s + " ")) == PlaceholderPriority(Some(s))
  {
    assert Lower(s + " ") == Lower(s) + " ";
    TrimTrailingSpace(Lower(s));
  }

  /** For example, a padded, capitalised "None" is a placeholder. */
  lemma PaddedNoneIsPlaceholder()
    ensures PlaceholderPriority(Some("  None "))
  {
    var t := Lower("  None ");
    assert t == "  none ";
    assert LeadingBlanks(t, IsSpace) == 2;
    assert TrimLeft(t, IsSpace) == "none ";
    assert TrailingBlanks("none ", IsSpace) == 1;
    assert Trim(t) == "none";
    assert "none" in PlaceholderPriorities;
  }

  /** For example, an upper-case "NÃO DEFINIDA" is a placeholder. */
  lemma UpperCaseNaoDefinidaIsPlaceholder()
    ensures PlaceholderPriority(Some("NÃO DEFINIDA"))
  {
    var t := Lower("NÃO DEFINIDA");
    assert t == "não definida";
    assert LeadingBlanks(t, IsSpace) == 0;
    assert TrailingBlanks(t, IsSpace) == 0;
    assert Trim(t) == "não definida";
    assert "não definida" in PlaceholderPriorities;
  }

  lemma RealPriorityIsNotPlaceholder()
    ensures !PlaceholderPriority(Some("High"))
    ensures !PlaceholderPriority(None)
  {
    var t := Lower("High");
    assert t == "high";
    assert LeadingBlanks(t, IsSpace) == 0;
    assert TrailingBlanks(t, IsSpace) == 0;
  }

  const NoEstimateAlert: string := "⚠️ Sem estimativa"
  const NoPriorityAlert: string := "⚠️ Sem prioridade"

  /** The "Alertas" column: CONCAT_WS(', ', ...) of the two alert texts,
      NULL arguments skipped. */
  function AlertText(e: Option<int>, priority: Option<string>): string
  {
    Join((if MissingEstimate(e) then [NoEstimateAlert] else [])
         + (if PlaceholderPriority(priority) then [NoPriorityAlert] else []), ", ")
  }

  /** The four shapes of the alert text; in particular it is empty exactly
      when neither condition holds. */
  lemma AlertTextCases(e: Option<int>, priority: Option<string>)
    ensures AlertText(e, priority) == "" <==> !MissingEstimate(e) && !PlaceholderPriority(priority)
    ensures MissingEstimate(e) && !PlaceholderPriority(priority) ==> AlertText(e, priority) == NoEstimateAlert
    ensures !MissingEstimate(e) && PlaceholderPriority(priority) ==> AlertText(e, priority) == NoPriorityAlert
    ensures MissingEstimate(e) && PlaceholderPriority(priority) ==>
      AlertText(e, priority) == NoEstimateAlert + ", " + NoPriorityAlert
  {
    if MissingEstimate(e) && PlaceholderPriority(priority) {
      var parts := [NoEstimateAlert, NoPriorityAlert];
      assert parts[1..] == [NoPriorityAlert];
      assert Join(parts, ", ") == NoEstimateAlert + ", " + Join([NoPriorityAlert], ", ");
    }
  }

  /** A non-empty alert text starts with the warning sign, so it is never
      blank to Python's strip(). */
  lemma AlertTextNeverBlank(e: Option<int>, priority: Option<string>)
    ensures AlertText(e, priority) != "" ==> PyStrip(AlertText(e, priority)) != ""
  {
    AlertTextCases(e, priority);
    var t := AlertText(e, priority);
    if MissingEstimate(e) {
      assert t[..|NoEstimateAlert|] == NoEstimateAlert;
      assert t[0] == NoEstimateAlert[0];
      WarningSignNotBlank(t);
    } else if PlaceholderPriority(priority) {
      assert t == NoPriorityAlert;
      WarningSignNotBlank(t);
    }
  }

  /** A text that starts with the warning sign survives strip(). */
  lemma WarningSignNotBlank(t: string)
    requires |t| > 0 && t[0] == '⚠'
    ensures PyStrip(t) != ""
  {
    PyStripEmpty(t);
    assert !IsPyWhitespace(t[0]);
  }

  // ---- the counters --------------------------------------------------------

  /** COUNT(DISTINCT i.id) over the alerting rows. */
  function AlertIssues(db: Db, rows: seq<Member>): set<IssueId>
  {
    set m | m in rows && IsAlert(db, m.issue) :: m.link.issue
  }

  /** The distinct issues of the rows. */
  function IssuesIn(rows: seq<Member>): set<IssueId>
  {
    set m | m in rows :: m.link.issue
  }

  /** The count over the given rows; the estimate chain is evaluated on each
      of them, so one text that does not cast aborts the query. */
  function CountAlerts(db: Db, rows: seq<Member>): (r: Result<nat>)
    ensures r.Fail? <==> ScopeHasCastFailure(db, rows)
    ensures r.Ok? ==> r.value == |AlertIssues(db, rows)|
    ensures r.Ok? ==> r.value <= |IssuesIn(rows)|
    ensures r.Ok? ==> (r.value == 0 <==> forall m :: m in rows ==> !IsAlert(db, m.issue))
  {
    if ScopeHasCastFailure(db, rows) then Fail(CastFailure)
    else
      SubsetCard(AlertIssues(db, rows), IssuesIn(rows));
      NoAlertIssues(db, rows);
      Ok(|AlertIssues(db, rows)|)
  }

  lemma NoAlertIssues(db: Db, rows: seq<Member>)
    ensures AlertIssues(db, rows) == {} <==> forall m :: m in rows ==> !IsAlert(db, m.issue)
  {
    forall m | m in rows && IsAlert(db, m.issue)
      ensures m.link.issue in AlertIssues(db, rows)
    {
    }
  }

  /** `compute_alerts_counts_for_cycles`: 0 without selected cycles, else the
      distinct alerting issues of the scope. */
  function AlertsForCycles(db: Db, cycleIds: set<CycleId>, project: ProjectId, f: Filter): (r: Result<nat>)
    ensures cycleIds == {} ==> r == Ok(0)
    ensures r.Fail? <==> cycleIds != {} && ScopeHasCastFailure(db, ScopeRows(db, cycleIds, project, f))
    ensures r.Ok? ==> r.value == |AlertIssues(db, ScopeRows(db, cycleIds, project, f))|
    ensures r.Ok? ==> r.value <= |IssuesIn(ScopeRows(db, cycleIds, project, f))|
    ensures r.Ok? ==> (r.value == 0 <==> forall m :: m in ScopeRows(db, cycleIds, project, f) ==> !IsAlert(db, m.issue))
  {
    if cycleIds == {} then
      assert ScopeRows(db, cycleIds, project, f) == [] by {
        NoMemberEmpty(ScopeRows(db, cycleIds, project, f));
      }
      assert AlertIssues(db, ScopeRows(db, cycleIds, project, f)) == {};
      Ok(0)
    else CountAlerts(db, ScopeRows(db, cycleIds, project, f))
  }

  /** `compute_alerts_counts_for_current_sprint`, with the clock a parameter. */
  function AlertsForCurrentSprint(db: Db, project: ProjectId, f: Filter, now: Instant): (r: Result<nat>)
    ensures r.Fail? <==> ScopeHasCastFailure(db, CurrentRows(db, project, f, now))
    ensures r.Ok? ==> r.value == |AlertIssues(db, CurrentRows(db, project, f, now))|
    ensures r.Ok? ==> r.value <= |IssuesIn(CurrentRows(db, project, f, now))|
  {
    CountAlerts(db, CurrentRows(db, project, f, now))
  }

  /** The current-sprint counter is the cycles counter on the cycles running
      at `now` (both are 0 when none is running). */
  lemma CurrentSprintAlertsAreActiveCycles(db: Db, project: ProjectId, f: Filter, now: Instant)
    ensures AlertsForCurrentSprint(db, project, f, now) == AlertsForCycles(db, ActiveCycles(db, now), project, f)
  {
    CurrentRowsAreActiveScope(db, project, f, now);
    if ActiveCycles(db, now) == {} {
      var rows := CurrentRows(db, project, f, now);
      NoMemberEmpty(rows);
      assert AlertIssues(db, rows) == {};
    }
  }

  /** Selecting more cycles or widening the filter never hides an alert. */
  lemma AlertsMonotone(db: Db, cs: set<CycleId>, ds: set<CycleId>, project: ProjectId, f: Filter, g: Filter)
    requires cs <= ds
    requires Widens(f, g)
    ensures AlertIssues(db, ScopeRows(db, cs, project, f)) <= AlertIssues(db, ScopeRows(db, ds, project, g))
    ensures AlertsForCycles(db, cs, project, f).Ok? && AlertsForCycles(db, ds, project, g).Ok? ==>
      AlertsForCycles(db, cs, project, f).value <= AlertsForCycles(db, ds, project, g).value
  {
    var a := AlertIssues(db, ScopeRows(db, cs, project, f));
    var b := AlertIssues(db, ScopeRows(db, ds, project, g));
    forall id | id in a
      ensures id in b
    {
      var m :| m in ScopeRows(db, cs, project, f) && IsAlert(db, m.issue) && m.link.issue == id;
      ScopeMonotone(db, cs, ds, project, f, g, m);
    }
    SubsetCard(a, b);
  }
}

=== FILE: base.dfy ===
/** SQL-flavoured building blocks shared by every aggregate: nullable values,
    query outcomes, and the relational operations (selection, projection,
    SUM, AVG, COUNT DISTINCT) over in-memory relations. */
module Base {

  /** A nullable column value: `None` plays the role of SQL NULL. */
  datatype Option<+T> = None | Some(value: T)

  /** The only run-time failure the metric queries can hit: the database
      refusing to cast a non-numeric estimate text to `int`. */
  datatype QueryError = CastFailure

  /** Outcome of one query: its value, or the error that aborted it. */
  datatype Result<+T> = Ok(value: T) | Fail(error: QueryError)

  /** Relational selection: the rows of `s` satisfying `p`, in order. */
  function Where<T(!new)>(s: seq<T>, p: T -> bool): (r: seq<T>)
    ensures |r| <= |s|
    ensures forall x :: x in r <==> x in s && p(x)
  {
    if |s| == 0 then [] else (if p(s[0]) then [s[0]] else []) + Where(s[1..], p)
  }

  /** Relational projection, keeping duplicates. */
  function MapSeq<A, B>(s: seq<A>, f: A -> B): (r: seq<B>)
    ensures |r| == |s|
    ensures forall k :: 0 <= k < |s| ==> r[k] == f(s[k])
  {
    seq(|s|, k requires 0 <= k < |s| => f(s[k]))
  }

  /** A sequence is empty exactly when nothing is in it. */
  lemma NoMemberEmpty<T>(s: seq<T>)
    ensures s == [] <==> forall x :: x !in s
  {
    if |s| > 0 {
      assert s[0] in s;
    }
  }

  /** The elements of a sequence, as a set. */
  function Elems<T>(s: seq<T>): set<T>
  {
    set x | x in s
  }

  /** A duplicate-free sequence has as many elements as its set. */
  lemma {:induction false} NoDupCard<T>(s: seq<T>)
    requires NoDup(s)
    ensures |Elems(s)| == |s|
  {
    if |s| > 0 {
      assert NoDup(s[1..]);
      NoDupCard(s[1..]);
      assert Elems(s) == {s[0]} + Elems(s[1..]);
      assert s[0] !in s[1..];
    }
  }

  /** SUM(f(row)) over a relation; 0 on the empty relation (the queries wrap
      their sums in COALESCE(..., 0)). */
  function SumOf<T>(s: seq<T>, f: T -> int): int
  {
    if |s| == 0 then 0 else f(s[0]) + SumOf(s[1..], f)
  }

  function SumReal(s: seq<real>): real
  {
    if |s| == 0 then 0.0 else s[0] + SumReal(s[1..])
  }

  /** COALESCE(AVG(x), 0): the arithmetic mean, 0 when there is no row. */
  function Mean(s: seq<real>): real
  {
    if |s| == 0 then 0.0 else SumReal(s) / (|s| as real)
  }

  predicate NoDup<T(==)>(s: seq<T>)
  {
    forall i, j :: 0 <= i < j < |s| ==> s[i] != s[j]
  }

  /** The distinct values of `s` (the grouping keys of a GROUP BY). */
  function Distinct<T(==,!new)>(s: seq<T>): (r: seq<T>)
    ensures NoDup(r)
    ensures forall x :: x in r <==> x in s
    ensures |r| <= |s|
  {
    if |s| == 0 then []
    else
      var rest := Distinct(s[1..]);
      if s[0] in rest then rest else [s[0]] + rest
  }

  /** A subset is never larger than its superset. */
  lemma {:induction false} SubsetCard<T>(a: set<T>, b: set<T>)
    requires a <= b
    ensures |a| <= |b|
  {
    if a != {} {
      var x :| x in a;
      SubsetCard(a - {x}, b - {x});
    }
  }

  /** Every value in a selection of `s` is summed in `s` too, so with
      non-negative summands the selection's sum is bounded by the whole. */
  lemma {:induction false} SumWhereLe<T(!new)>(s: seq<T>, p: T -> bool, f: T -> int)
    requires forall x :: x in s ==> f(x) >= 0
    ensures 0 <= SumOf(Where(s, p), f) <= SumOf(s, f)
  {
    if |s| > 0 {
      SumWhereLe(s[1..], p, f);
      assert Where(s, p) == (if p(s[0]) then [s[0]] else []) + Where(s[1..], p);
      SumAppend((if p(s[0]) then [s[0]] else []), Where(s[1..], p), f);
    }
  }

  lemma {:induction false} SumAppend<T>(a: seq<T>, b: seq<T>, f: T -> int)
    ensures SumOf(a + b, f) == SumOf(a, f) + SumOf(b, f)
  {
    if |a| > 0 {
      assert (a + b)[0] == a[0];
      assert (a + b)[1..] == a[1..] + b;
      SumAppend(a[1..], b, f);
    } else {
      assert a + b == b;
    }
  }

  /** Splitting a relation by a predicate and its negation partitions its sum. */
  lemma {:induction false} SumSplit<T(!new)>(s: seq<T>, p: T -> bool, f: T -> int)
    ensures SumOf(Where(s, p), f) + SumOf(Where(s, x => !p(x)), f) == SumOf(s, f)
  {
    if |s| > 0 {
      SumSplit(s[1..], p, f);
      SumAppend((if p(s[0]) then [s[0]] else []), Where(s[1..], p), f);
      SumAppend((if !p(s[0]) then [s[0]] else []), Where(s[1..], x => !p(x)), f);
    }
  }

  /** Sums over a relation only depend on the summand at the relation's rows. */
  lemma {:induction false} SumCongruent<T>(s: seq<T>, f: T -> int, g: T -> int)
    requires forall x :: x in s ==> f(x) == g(x)
    ensures SumOf(s, f) == SumOf(s, g)
  {
    if |s| > 0 {
      SumCongruent(s[1..], f, g);
    }
  }

  lemma {:induction false} SumRealBounds(s: seq<real>, lo: real, hi: real)
    requires forall k :: 0 <= k < |s| ==> lo <= s[k] <= hi
    ensures (|s| as real) * lo <= SumReal(s) <= (|s| as real) * hi
  {
    if |s| > 0 {
      SumRealBounds(s[1..], lo, hi);
    }
  }

  lemma {:induction false} SumRealNonNegative(s: seq<real>)
    requires forall k :: 0 <= k < |s| ==> 0.0 <= s[k]
    ensures 0.0 <= SumReal(s)
  {
    if |s| > 0 {
      SumRealNonNegative(s[1..]);
    }
  }

  /** An average of non-negative values is non-negative. */
  lemma MeanNonNegative(s: seq<real>)
    requires forall k :: 0 <= k < |s| ==> 0.0 <= s[k]
    ensures 0.0 <= Mean(s)
  {
    SumRealNonNegative(s);
    if |s| > 0 {
      DivMonotone(0.0, SumReal(s), |s| as real);
    }
  }

  /** An average of values that all lie in [lo, hi] lies in [lo, hi]. */
  lemma MeanBounds(s: seq<real>, lo: real, hi: real)
    requires |s| > 0
    requires forall k :: 0 <= k < |s| ==> lo <= s[k] <= hi
    ensures lo <= Mean(s) <= hi
  {
    var n := |s| as real;
    SumRealBounds(s, lo, hi);
    assert n * lo <= SumReal(s) <= n * hi;
    DivMonotone(n * lo, SumReal(s), n);
    DivMonotone(SumReal(s), n * hi, n);
    assert (n * lo) / n == lo;
    assert (n * hi) / n == hi;
  }

  lemma DivMonotone(a: real, b: real, n: real)
    requires n > 0.0 && a <= b
    ensures a / n <= b / n
  {
    assert b / n - a / n == (b - a) / n;
  }

  /** Pointwise-ordered samples of the same length have ordered sums. */
  lemma {:induction false} SumRealMonotone(s: seq<real>, t: seq<real>)
    requires |s| == |t|
    requires forall k :: 0 <= k < |s| ==> s[k] <= t[k]
    ensures SumReal(s) <= SumReal(t)
  {
    if |s| > 0 {
      SumRealMonotone(s[1..], t[1..]);
    }
  }

  /** ... and therefore ordered averages. */
  lemma MeanMonotone(s: seq<real>, t: seq<real>)
    requires |s| == |t|
    requires forall k :: 0 <= k < |s| ==> s[k] <= t[k]
    ensures Mean(s) <= Mean(t)
  {
    SumRealMonotone(s, t);
    if |s| > 0 {
      DivMonotone(SumReal(s), SumReal(t), |s| as real);
    }
  }

  /** MIN(x) over a column: NULL on the empty relation. */
  function MinOf(xs: seq<int>): (r: Option<int>)
    ensures r.None? <==> xs == []
    ensures r.Some? ==> r.value in xs && forall x :: x in xs ==> r.value <= x
  {
    if |xs| == 0 then None
    else
      var rest := MinOf(xs[1..]);
      assert forall x :: x in xs ==> x == xs[0] || x in xs[1..];
      if rest.None? || xs[0] <= rest.value then Some(xs[0]) else rest
  }

  /** Every non-empty finite set of naturals has a largest element. */
  lemma {:induction false} MaxExists(s: set<nat>)
    requires s != {}
    ensures exists x :: x in s && forall y :: y in s ==> y <= x
    decreases |s|
  {
    var z :| z in s;
    var rest := s - {z};
    assert forall y :: y in s ==> y == z || y in rest;
    if rest != {} {
      MaxExists(rest);
      var m :| m in rest && forall y :: y in rest ==> y <= m;
      if z <= m {
        assert m in s && forall y :: y in s ==> y <= m;
      } else {
        assert z in s && forall y :: y in s ==> y <= z;
      }
    } else {
      assert z in s && forall y :: y in s ==> y <= z;
    }
  }

  /** The largest element of a non-empty set of naturals. */
  function MaxOf(s: set<nat>): (m: nat)
    requires s != {}
    ensures m in s && forall y :: y in s ==> y <= m
  {
    MaxExists(s);
    var x :| x in s && forall y :: y in s ==> y <= x;
    x
  }

  /** The ids of a set, largest first (`ORDER BY id DESC`). */
  function IdsDescending(s: set<nat>): (r: seq<nat>)
    ensures forall x :: x in r <==> x in s
    ensures forall i, j :: 0 <= i < j < |r| ==> r[i] > r[j]
    decreases |s|
  {
    if s == {} then []
    else
      var x := MaxOf(s);
      var rest := IdsDescending(s - {x});
      assert forall y :: y in rest ==> y < x;
      [x] + rest
  }

  /** Selections by predicates that agree on the rows are the same. */
  lemma {:induction false} WhereCongruent<T(!new)>(s: seq<T>, p: T -> bool, q: T -> bool)
    requires forall x :: x in s ==> (p(x) <==> q(x))
    ensures Where(s, p) == Where(s, q)
  {
    if |s| > 0 {
      assert forall x :: x in s[1..] ==> x in s;
      WhereCongruent(s[1..], p, q);
    }
  }

  /** Selection distributes over concatenation. */
  lemma {:induction false} WhereAppend<T(!new)>(a: seq<T>, b: seq<T>, p: T -> bool)
    ensures Where(a + b, p) == Where(a, p) + Where(b, p)
  {
    if |a| == 0 {
      assert a + b == b;
    } else {
      var head := if p(a[0]) then [a[0]] else [];
      assert (a + b)[0] == a[0];
      assert (a + b)[1..] == a[1..] + b;
      calc {
        Where(a + b, p);
        head + Where(a[1..] + b, p);
        { WhereAppend(a[1..], b, p); }
        head + (Where(a[1..], p) + Where(b, p));
        (head + Where(a[1..], p)) + Where(b, p);
        Where(a, p) + Where(b, p);
      }
    }
  }

  /** A selection that keeps every row is the identity. */
  lemma {:induction false} WhereAll<T(!new)>(s: seq<T>, p: T -> bool)
    requires forall x :: x in s ==> p(x)
    ensures Where(s, p) == s
  {
    if |s| > 0 {
      assert forall x :: x in s[1..] ==> x in s;
      WhereAll(s[1..], p);
      assert s == [s[0]] + s[1..];
    }
  }

  /** Selection keeps each kept row as often as it occurs and drops the
      rest entirely. */
  lemma {:induction false} WhereMultiset<T(!new)>(s: seq<T>, p: T -> bool)
    ensures forall x :: multiset(Where(s, p))[x] == if p(x) then multiset(s)[x] else 0
  {
    if |s| > 0 {
      WhereMultiset(s[1..], p);
      var head := if p(s[0]) then [s[0]] else [];
      assert Where(s, p) == head + Where(s[1..], p);
      assert s == [s[0]] + s[1..];
      assert multiset(s) == multiset([s[0]]) + multiset(s[1..]);
      assert multiset(Where(s, p)) == multiset(head) + multiset(Where(s[1..], p));
    }
  }

  /** Selection keeps the rows in their order: a relation that holds
      between every earlier and later row still holds after selecting. */
  lemma {:induction false} WherePairwise<T(!new)>(s: seq<T>, p: T -> bool, rel: (T, T) -> bool)
    requires forall i, j :: 0 <= i < j < |s| ==> rel(s[i], s[j])
    ensures forall i, j :: 0 <= i < j < |Where(s, p)| ==> rel(Where(s, p)[i], Where(s, p)[j])
  {
    if |s| > 0 {
      var rest := s[1..];
      assert forall i, j :: 0 <= i < j < |rest| ==> rel(rest[i], rest[j]) by {
        forall i, j | 0 <= i < j < |rest|
          ensures rel(rest[i], rest[j])
        {
          assert rest[i] == s[i + 1] && rest[j] == s[j + 1];
        }
      }
      WherePairwise(rest, p, rel);
      var head := if p(s[0]) then [s[0]] else [];
      var w := Where(s, p);
      var wr := Where(rest, p);
      assert w == head + wr;
      forall i, j | 0 <= i < j < |w|
        ensures rel(w[i], w[j])
      {
        if |head| == 1 && i == 0 {
          assert w[j] == wr[j - 1];
          assert wr[j - 1] in rest;
          var m :| 0 <= m < |rest| && rest[m] == wr[j - 1];
          assert s[m + 1] == rest[m];
        } else {
          assert w[i] == wr[i - |head|] && w[j] == wr[j - |head|];
        }
      }
    }
  }

  /** Two selections in a row are one selection by both predicates. */
  lemma {:induction false} WhereWhere<T(!new)>(s: seq<T>, p: T -> bool, q: T -> bool, both: T -> bool)
    requires forall x :: both(x) <==> p(x) && q(x)
    ensures Where(Where(s, p), q) == Where(s, both)
  {
    if |s| > 0 {
      WhereWhere(s[1..], p, q, both);
      var head := if p(s[0]) then [s[0]] else [];
      assert Where(s, p) == head + Where(s[1..], p);
      WhereAppend(head, Where(s[1..], p), q);
      assert Where(head, q) == if both(s[0]) then [s[0]] else [];
    }
  }

  /** The sum of `g` over the members of a finite set of ids: the reference
      meaning of an aggregate taken once per distinct group key. */
  function SetSum(s: set<nat>, g: nat -> real): real
    decreases |s|
  {
    if s == {} then 0.0
    else
      var m := MaxOf(s);
      g(m) + SetSum(s - {m}, g)
  }

  /** Any member can be taken out of a set sum first. */
  lemma {:induction false} SetSumRemove(s: set<nat>, g: nat -> real, x: nat)
    requires x in s
    ensures SetSum(s, g) == g(x) + SetSum(s - {x}, g)
    decreases |s|
  {
    var m := MaxOf(s);
    if x != m {
      SetSumRemove(s - {m}, g, x);
      SetSumRemove(s - {x}, g, m);
      assert s - {m} - {x} == s - {x} - {m};
    }
  }

  /** Summing a per-key sample over a duplicate-free listing of the keys is
      the set sum over the keys. */
  lemma {:induction false} SumRealOverKeys(keys: seq<nat>, g: nat -> real, sample: seq<real>)
    requires NoDup(keys)
    requires |sample| == |keys|
    requires forall k :: 0 <= k < |keys| ==> sample[k] == g(keys[k])
    ensures SumReal(sample) == SetSum(Elems(keys), g)
  {
    if |keys| > 0 {
      var rest := keys[1..];
      assert NoDup(rest);
      SumRealOverKeys(rest, g, sample[1..]);
      assert keys[0] !in rest;
      assert Elems(keys) - {keys[0]} == Elems(rest);
      SetSumRemove(Elems(keys), g, keys[0]);
    } else {
      assert Elems(keys) == {};
    }
  }

  /** A sample of integer summands, one per row, sums to the integer SUM. */
  lemma {:induction false} SumRealOfInts<T>(rows: seq<T>, g: T -> int, sample: seq<real>)
    requires |sample| == |rows|
    requires forall k :: 0 <= k < |rows| ==> sample[k] == g(rows[k]) as real
    ensures SumReal(sample) == SumOf(rows, g) as real
  {
    if |rows| > 0 {
      SumRealOfInts(rows[1..], g, sample[1..]);
    }
  }

  /** The average of one sample is that sample. */
  lemma MeanOfOne(s: seq<real>)
    requires |s| == 1
    ensures Mean(s) == s[0]
  {
    assert SumReal(s) == s[0] + SumReal(s[1..]);
  }

  /** A non-empty average times the number of samples is their sum. */
  lemma MeanTimesCount(s: seq<real>)
    requires |s| > 0
    ensures Mean(s) * (|s| as real) == SumReal(s)
  {
  }

  /** `r` is `AVG(g(row))` over `rows`: `r` times the number of rows is the
      integer `SUM` (vacuous without rows, where `COALESCE` gives 0). */
  predicate AverageOf<T>(r: real, rows: seq<T>, g: T -> int)
  {
    rows != [] ==> r * (|rows| as real) == SumOf(rows, g) as real
  }

  /** The mean of a per-row integer sample is the row average. */
  lemma MeanOfInts<T>(rows: seq<T>, g: T -> int, sample: seq<real>)
    requires |sample| == |rows|
    requires forall k :: 0 <= k < |rows| ==> sample[k] == g(rows[k]) as real
    ensures AverageOf(Mean(sample), rows, g)
  {
    SumRealOfInts(rows, g, sample);
    if rows != [] {
      MeanTimesCount(sample);
    }
  }

  /** The average of a per-key sample over a duplicate-free, non-empty
      listing of the keys, times the number of keys, is the set sum. */
  lemma MeanOverKeys(keys: seq<nat>, g: nat -> real, sample: seq<real>)
    requires NoDup(keys) && |keys| > 0
    requires |sample| == |keys|
    requires forall k :: 0 <= k < |keys| ==> sample[k] == g(keys[k])
    ensures Mean(sample) * (|Elems(keys)| as real) == SetSum(Elems(keys), g)
  {
    NoDupCard(keys);
    SumRealOverKeys(keys, g, sample);
    MeanTimesCount(sample);
  }
}

=== FILE: delivery.dfy ===
/** "Delivered within the cycle window", the predicate every query writes out
    inline, and its negation as the rollover query spells it. */
module Delivery {
  import opened Base
  import opened Store

  /** `completed_at IS NOT NULL AND (start IS NULL OR completed_at >= start)
      AND (end IS NULL OR completed_at <= end)`. A NULL bound leaves that side
      of the window open. */
  predicate DeliveredIn(completedAt: Option<Instant>, c: Cycle)
  {
    && completedAt.Some?
    && (c.start.None? || completedAt.value >= c.start.value)
    && (c.end.None? || completedAt.value <= c.end.value)
  }

  /** The rollover query's test for "not delivered in the base cycle":
      never completed, completed before the start, or completed after the
      end. It is exactly the negation of `DeliveredIn`. */
  predicate UndeliveredAsWritten(completedAt: Option<Instant>, c: Cycle): (r: bool)
    ensures r <==> !DeliveredIn(completedAt, c)
  {
    || completedAt.None?
    || (c.start.Some? && completedAt.value < c.start.value)
    || (c.end.Some? && completedAt.value > c.end.value)
  }

  /** An open issue is delivered in no cycle, whatever its bounds; a completed
      issue is delivered in a cycle with no bounds at all. */
  lemma OpenIssueNeverDelivered(c: Cycle, t: Instant)
    ensures !DeliveredIn(None, c)
    ensures c.start.None? && c.end.None? ==> DeliveredIn(Some(t), c)
  {
  }

  /** Delivery is judged per (issue, cycle) pair: the same completion is
      inside one sprint's window and outside the next one's. */
  lemma DeliveryIsPerCycle(name: string, p: ProjectId)
    ensures DeliveredIn(Some(5), Cycle(name, p, Some(0), Some(10), false))
    ensures !DeliveredIn(Some(5), Cycle(name, p, Some(20), Some(30), false))
  {
  }

  /** Widening a window keeps every delivery in it. */
  lemma WiderWindowKeepsDelivery(t: Option<Instant>, c: Cycle, d: Cycle)
    requires DeliveredIn(t, c)
    requires d.start.None? || (c.start.Some? && d.start.value <= c.start.value)
    requires d.end.None? || (c.end.Some? && c.end.value <= d.end.value)
    ensures DeliveredIn(t, d)
  {
  }
}

=== FILE: estimation.dfy ===
/** The estimate resolver `COALESCE(i.point, ep.key, NULLIF(ep.value, '')::int, 0)`
    used by every points aggregate, and the same chain without the final 0
    (the "Estimativa" column and the missing-estimate alert). */
module Estimation {
  import opened Base
  import opened Text
  import opened Store

  const Int4Min: int := -2147483648
  const Int4Max: int := 2147483647

  /** The blanks PostgreSQL's integer input skips around a number. */
  predicate IsCSpace(c: char)
  {
    c == ' ' || '\t' <= c <= '\r'
  }

  predicate IsDigit(c: char)
  {
    '0' <= c <= '9'
  }

  predicate AllDigits(s: string)
  {
    forall k :: 0 <= k < |s| ==> IsDigit(s[k])
  }

  /** The value of a run of decimal digits, most significant first. */
  function DigitsValue(s: string): nat
    requires AllDigits(s)
  {
    if |s| == 0 then 0
    else DigitsValue(s[..|s| - 1]) * 10 + (s[|s| - 1] as int - '0' as int)
  }

  /** The text-to-int4 cast: optional surrounding blanks, an optional sign, at
      least one decimal digit, and a value within the 32-bit range. None is
      the cast's "invalid input syntax" / "out of range" error. */
  function ParseInt4(s: string): (r: Option<int>)
    ensures r.Some? ==> Int4Min <= r.value <= Int4Max
    ensures s == "" ==> r.None?
  {
    var body := TrimRight(TrimLeft(s, IsCSpace), IsCSpace);
    var signed := |body| > 0 && (body[0] == '-' || body[0] == '+');
    var digits := if signed then body[1..] else body;
    if |digits| == 0 || !AllDigits(digits) then None
    else
      var n: int := if |body| > 0 && body[0] == '-' then -(DigitsValue(digits) as int) else DigitsValue(digits);
      if Int4Min <= n <= Int4Max then Some(n) else None
  }

  /** Decimal rendering of a natural number, without leading zeros. */
  function ShowNat(n: nat): (s: string)
    ensures |s| > 0 && AllDigits(s)
  {
    var d := ['0' + (n % 10) as char];
    if n < 10 then d else ShowNat(n / 10) + d
  }

  /** Decimal rendering of an integer, with a leading '-' when negative. */
  function ShowInt(n: int): string
  {
    if n < 0 then "-" + ShowNat(-n) else ShowNat(n)
  }

  lemma {:induction false} ShowNatValue(n: nat)
    ensures DigitsValue(ShowNat(n)) == n
  {
    var s := ShowNat(n);
    if n >= 10 {
      ShowNatValue(n / 10);
      assert s[..|s| - 1] == ShowNat(n / 10);
    }
  }

  /** Round trip: the cast reads back every 32-bit integer from its decimal
      text, so a numeric estimate text always resolves to its number. */
  lemma ParseShowInt(n: int)
    requires Int4Min <= n <= Int4Max
    ensures ParseInt4(ShowInt(n)) == Some(n)
  {
    var s := ShowInt(n);
    ShowNatValue(if n < 0 then -n else n);
    assert !IsCSpace(s[0]);
    assert !IsCSpace(s[|s| - 1]);
    assert TrimLeft(s, IsCSpace) == s;
    assert TrimRight(s, IsCSpace) == s;
    if n < 0 {
      assert s[1..] == ShowNat(-n);
    }
  }

  /** The estimate chain without the final default: direct point, then the
      estimate-scale key, then the scale's text value cast to int, where only
      the empty text counts as missing. COALESCE stops at the first non-NULL
      argument, so the cast is attempted only when point and key are both
      NULL; text the cast rejects aborts the query. */
  function ResolveEstimate(issue: Issue, ep: Option<EstimatePoint>): (r: Result<Option<int>>)
    ensures issue.point.Some? ==> r == Ok(issue.point)
    ensures issue.point.None? && ep.Some? && ep.value.key.Some? ==> r == Ok(ep.value.key)
    ensures TextEstimate(issue, ep) && ParseInt4(ep.value.value.value).Some? ==>
              r == Ok(ParseInt4(ep.value.value.value))
    ensures r.Fail? <==> TextEstimate(issue, ep) && ParseInt4(ep.value.value.value).None?
    ensures issue.point.None? && (ep.None? || (ep.value.key.None? && ep.value.value in {None, Some("")})) ==>
              r == Ok(None)
  {
    if issue.point.Some? then Ok(issue.point)
    else if ep.Some? && ep.value.key.Some? then Ok(ep.value.key)
    else if ep.Some? && ep.value.value.Some? && ep.value.value.value != "" then
      match ParseInt4(ep.value.value.value)
      case Some(n) => Ok(Some(n))
      case None => Fail(CastFailure)
    else Ok(None)
  }

  /** The chain reaches the cast: no point, a scale entry without a key, and
      a non-empty text value. */
  predicate TextEstimate(issue: Issue, ep: Option<EstimatePoint>)
  {
    issue.point.None? && ep.Some? && ep.value.key.None? && ep.value.value.Some? && ep.value.value.value != ""
  }

  /** The full chain `COALESCE(..., 0)`: never NULL. An explicit point wins
      over the scale entry, the scale key over the scale text, text the cast
      reads resolves to its number and text it rejects aborts, and no
      estimate at all (or empty text) resolves to 0. */
  function EffectivePoints(issue: Issue, ep: Option<EstimatePoint>): (r: Result<int>)
    ensures issue.point.Some? ==> r == Ok(issue.point.value)
    ensures issue.point.None? && ep.Some? && ep.value.key.Some? ==> r == Ok(ep.value.key.value)
    ensures TextEstimate(issue, ep) && ParseInt4(ep.value.value.value).Some? ==>
              r == Ok(ParseInt4(ep.value.value.value).value)
    ensures r.Fail? <==> TextEstimate(issue, ep) && ParseInt4(ep.value.value.value).None?
    ensures issue.point.None? && (ep.None? || (ep.value.key.None? && ep.value.value in {None, Some("")})) ==>
              r == Ok(0)
  {
    match ResolveEstimate(issue, ep)
    case Ok(Some(n)) => Ok(n)
    case Ok(None) => Ok(0)
    case Fail(e) => Fail(e)
  }

  /** The resolver's order: an explicit point wins over the scale entry; the
      scale key wins over the scale text; numeric text resolves to its number;
      empty text (or no scale entry at all) resolves to 0. */
  lemma EffectivePointsPrecedence(issue: Issue, ep: Option<EstimatePoint>, n: int)
    ensures issue.point.Some? ==> EffectivePoints(issue, ep) == Ok(issue.point.value)
    ensures issue.point.None? && ep.Some? && ep.value.key.Some? ==>
              EffectivePoints(issue, ep) == Ok(ep.value.key.value)
    ensures && issue.point.None? && ep.Some? && ep.value.key.None? && ep.value.value == Some(ShowInt(n))
            && Int4Min <= n <= Int4Max
            ==> EffectivePoints(issue, ep) == Ok(n)
    ensures issue.point.None? && (ep.None? || (ep.value.key.None? && ep.value.value in {None, Some("")})) ==>
              EffectivePoints(issue, ep) == Ok(0)
  {
    if Int4Min <= n <= Int4Max {
      ParseShowInt(n);
      assert ShowInt(n) != "" by { assert |ShowInt(n)| > 0; }
    }
  }

  /** The characters a number's text may hold: blanks, a sign, digits. */
  predicate NumberChar(c: char)
  {
    IsCSpace(c) || IsDigit(c) || c == '-' || c == '+'
  }

  /** A character outside blanks, signs and digits anywhere in the text
      makes the cast fail. */
  lemma StrayCharFails(t: string, k: nat)
    requires k < |t| && !NumberChar(t[k])
    ensures ParseInt4(t).None?
  {
    var a := LeadingBlanks(t, IsCSpace);
    var left := TrimLeft(t, IsCSpace);
    var b := TrailingBlanks(left, IsCSpace);
    var body := TrimRight(left, IsCSpace);
    assert a <= k;
    assert left[k - a] == t[k];
    assert k - a < |left| - b;
    assert body[k - a] == t[k];
    var signed := |body| > 0 && (body[0] == '-' || body[0] == '+');
    var digits := if signed then body[1..] else body;
    var j := if signed then k - a - 1 else k - a;
    assert 0 <= j < |digits| && digits[j] == t[k];
  }

  /** Text that is not a number is not read as 0: it aborts the query. */
  lemma NonNumericTextFails(issue: Issue, ep: EstimatePoint, k: nat)
    requires issue.point.None? && ep.key.None? && ep.value.Some?
    requires k < |ep.value.value| && !NumberChar(ep.value.value[k])
    ensures EffectivePoints(issue, Some(ep)) == Fail(CastFailure)
  {
    StrayCharFails(ep.value.value, k);
  }

  // The chain evaluated against the database's estimate-point table.

  function EstimateOf(db: Db, issue: Issue): Result<Option<int>>
  {
    ResolveEstimate(issue, EstimatePointOf(db, issue))
  }

  function PointsOf(db: Db, issue: Issue): Result<int>
  {
    EffectivePoints(issue, EstimatePointOf(db, issue))
  }

  /** The estimate of an issue whose chain does not abort. */
  predicate Resolvable(db: Db, issue: Issue)
  {
    EstimateOf(db, issue).Ok?
  }

  /** Points of an issue, read where the chain is known to succeed. */
  function PointsOr0(db: Db, issue: Issue): (p: int)
    ensures Resolvable(db, issue) ==> PointsOf(db, issue) == Ok(p)
  {
    match PointsOf(db, issue)
    case Ok(p) => p
    case Fail(_) => 0
  }

  /** Some row's estimate text cannot be cast: a query that evaluates the
      estimate chain on these rows aborts. */
  predicate ScopeHasCastFailure(db: Db, rows: seq<Member>)
  {
    exists m :: m in rows && !Resolvable(db, m.issue)
  }
}

=== FILE: filters.dfy ===
/** The filter model shared by every aggregate: the optional assignee, label
    and state lists, and the row scope (selected cycles of the project, soft
    deletes excluded) the cycle-scoped queries start from. */
module Filters {
  import opened Base
  import opened Store

  /** The optional filter lists. An empty set is "no restriction", exactly as
      an empty or absent list is on the page. */
  datatype Filter = Filter(assignees: set<UserId>, labels: set<LabelId>, states: set<StateId>)

  const NoFilter: Filter := Filter({}, {}, {})

  /** EXISTS a live issue_assignees row of the issue naming one of `users`. */
  predicate HasAssigneeIn(db: Db, id: IssueId, users: set<UserId>)
  {
    exists ia :: ia in db.issueAssignees && ia.issue == id && !ia.deleted && ia.assignee in users
  }

  /** EXISTS a live issue_labels row of the issue naming one of `labels`. */
  predicate HasLabelIn(db: Db, id: IssueId, labels: set<LabelId>)
  {
    exists il :: il in db.issueLabels && il.issue == id && !il.deleted && il.labelId in labels
  }

  predicate AssigneeOk(db: Db, id: IssueId, f: Filter)
  {
    f.assignees == {} || HasAssigneeIn(db, id, f.assignees)
  }

  predicate LabelOk(db: Db, id: IssueId, f: Filter)
  {
    f.labels == {} || HasLabelIn(db, id, f.labels)
  }

  /** `i.state_id IN (...)`: an issue without a state never matches a list. */
  predicate StateOk(issue: Issue, f: Filter)
  {
    f.states == {} || (issue.state.Some? && issue.state.value in f.states)
  }

  /** The three filters combined conjunctively. */
  predicate Passes(db: Db, id: IssueId, issue: Issue, f: Filter)
  {
    AssigneeOk(db, id, f) && LabelOk(db, id, f) && StateOk(issue, f)
  }

  /** `ia.assignee_id IN (...)` on an assignee row, where the assignee list
      filters the rows credited rather than the issues. */
  predicate AssigneeAllowed(a: UserId, f: Filter)
  {
    f.assignees == {} || a in f.assignees
  }

  /** The issue-level part of the filter (labels and states), used where the
      assignee list is applied later, on the assignee rows. */
  predicate PassesTask(db: Db, id: IssueId, issue: Issue, f: Filter)
  {
    LabelOk(db, id, f) && StateOk(issue, f)
  }

  /** None of the three joined rows is soft-deleted. */
  predicate Live(m: Member)
  {
    !m.link.deleted && !m.cycle.deleted && !m.issue.deleted
  }

  /** `ci.cycle_id IN (...) AND ci.project_id = %s`. */
  predicate InCycles(m: Member, cycleIds: set<CycleId>, project: ProjectId)
  {
    m.link.cycle in cycleIds && m.link.project == project
  }

  /** The WHERE clause shared by the cycle-scoped queries. */
  predicate InScope(db: Db, m: Member, cycleIds: set<CycleId>, project: ProjectId, f: Filter)
  {
    InCycles(m, cycleIds, project) && Live(m) && Passes(db, m.link.issue, m.issue, f)
  }

  /** The membership rows a cycle-scoped query aggregates. */
  function ScopeRows(db: Db, cycleIds: set<CycleId>, project: ProjectId, f: Filter): (r: seq<Member>)
    ensures forall m :: m in r <==> m in Members(db) && InScope(db, m, cycleIds, project, f)
  {
    Where(Members(db), m => InScope(db, m, cycleIds, project, f))
  }

  /** `g` restricts no more than `f` does: in every dimension `g` is either
      unrestricted or a superset of a (non-empty) list of `f`. */
  predicate Widens(f: Filter, g: Filter)
  {
    && (g.assignees == {} || (f.assignees != {} && f.assignees <= g.assignees))
    && (g.labels == {} || (f.labels != {} && f.labels <= g.labels))
    && (g.states == {} || (f.states != {} && f.states <= g.states))
  }

  /** The filter is conjunctive and each list is an existence/membership
      test, so widening a filter can only admit more issues; the empty filter
      admits every issue. */
  lemma WidenedFilterAdmits(db: Db, id: IssueId, issue: Issue, f: Filter, g: Filter)
    requires Widens(f, g)
    requires Passes(db, id, issue, f)
    ensures Passes(db, id, issue, g)
    ensures Passes(db, id, issue, NoFilter)
  {
    if g.assignees != {} {
      var ia :| ia in db.issueAssignees && ia.issue == id && !ia.deleted && ia.assignee in f.assignees;
      assert ia.assignee in g.assignees;
    }
    if g.labels != {} {
      var il :| il in db.issueLabels && il.issue == id && !il.deleted && il.labelId in f.labels;
      assert il.labelId in g.labels;
    }
  }

  /** Scope rows under a filter are scope rows under any wider filter and
      under a wider cycle selection. */
  lemma ScopeMonotone(db: Db, cs: set<CycleId>, ds: set<CycleId>, project: ProjectId, f: Filter, g: Filter, m: Member)
    requires cs <= ds
    requires Widens(f, g)
    requires m in ScopeRows(db, cs, project, f)
    ensures m in ScopeRows(db, ds, project, g)
  {
    WidenedFilterAdmits(db, m.link.issue, m.issue, f, g);
  }
}

=== FILE: labels.dfy ===
/** The label-category breakdown (`compute_label_breakdown_for_cycles`):
    every in-scope issue of a cycle falls into exactly one category, decided
    by the first test that matches, and each (cycle, category) pair reports
    its planned and delivered issue counts. The regular-expression tests are
    parameters; only their order is modelled. */
module Labels {
  import opened Base
  import opened Text
  import opened Store
  import opened Filters
  import opened Delivery
  import opened Sorting
  import SprintMetrics

  datatype Category = Unplanned | BugGlpi | Bug | Feature | Other

  /** The `label_cat` text of each category. */
  function CategoryName(c: Category): string
  {
    match c
    case Unplanned => "Não planejada"
    case BugGlpi => "Bug GLPI"
    case Bug => "Bug"
    case Feature => "Feature"
    case Other => "Outros"
  }

  lemma CategoryNamesDistinct(a: Category, b: Category)
    ensures CategoryName(a) == CategoryName(b) ==> a == b
  {
    if a != b {
      assert CategoryName(a)[..1] != CategoryName(b)[..1] || |CategoryName(a)| != |CategoryName(b)|;
    }
  }

  /** The label tests of each WHEN branch, each a function of the issue's
      aggregated (lower-cased) label text and the lower-cased project
      identifier. */
  datatype Patterns = Patterns(
    unplanned: (string, string) -> bool,
    bugGlpi: (string, string) -> bool,
    bug: (string, string) -> bool,
    feature: (string, string) -> bool)

  /** A label test on a NULL label text is NULL, which is not true. */
  predicate LabelTest(test: (string, string) -> bool, labels: Option<string>, prefix: string)
  {
    labels.Some? && test(labels.value, prefix)
  }

  /** The CASE expression: the first branch that holds wins. The issue type
      name takes part only in the Bug and Feature branches. */
  function Classify(labels: Option<string>, typeName: Option<string>, prefix: string, pats: Patterns): Category
  {
    if LabelTest(pats.unplanned, labels, prefix) then Unplanned
    else if LabelTest(pats.bugGlpi, labels, prefix) then BugGlpi
    else if LabelTest(pats.bug, labels, prefix) || typeName == Some("bug") then Bug
    else if LabelTest(pats.feature, labels, prefix) || typeName == Some("feature") then Feature
    else Other
  }

  /** First match wins, in the order Não planejada, Bug GLPI, Bug, Feature,
      Outros, each stated both ways. */
  lemma ClassifyPrecedence(labels: Option<string>, typeName: Option<string>, prefix: string, pats: Patterns)
    ensures Classify(labels, typeName, prefix, pats) == Unplanned <==> LabelTest(pats.unplanned, labels, prefix)
    ensures Classify(labels, typeName, prefix, pats) == BugGlpi <==>
      !LabelTest(pats.unplanned, labels, prefix) && LabelTest(pats.bugGlpi, labels, prefix)
    ensures Classify(labels, typeName, prefix, pats) == Bug <==>
      && !LabelTest(pats.unplanned, labels, prefix) && !LabelTest(pats.bugGlpi, labels, prefix)
      && (LabelTest(pats.bug, labels, prefix) || typeName == Some("bug"))
    ensures Classify(labels, typeName, prefix, pats) == Feature <==>
      && !LabelTest(pats.unplanned, labels, prefix) && !LabelTest(pats.bugGlpi, labels, prefix)
      && !LabelTest(pats.bug, labels, prefix) && typeName != Some("bug")
      && (LabelTest(pats.feature, labels, prefix) || typeName == Some("feature"))
    ensures Classify(labels, typeName, prefix, pats) == Other <==>
      && !LabelTest(pats.unplanned, labels, prefix) && !LabelTest(pats.bugGlpi, labels, prefix)
      && !LabelTest(pats.bug, labels, prefix) && !LabelTest(pats.feature, labels, prefix)
      && typeName != Some("bug") && typeName != Some("feature")
  {
  }

  /** An issue without labels is classified by its type name alone. */
  lemma UnlabelledByType(typeName: Option<string>, prefix: string, pats: Patterns)
    ensures Classify(None, typeName, prefix, pats) ==
      (if typeName == Some("bug") then Bug else if typeName == Some("feature") then Feature else Other)
  {
  }

  // ---- the label text of an issue --------------------------------------

  /** The lower-cased names of the labels on the live label rows of issue
      `id`, in row order. The label's own soft-delete marker is not checked;
      a row whose label is missing drops out of the inner join. */
  function LabelNames(ils: seq<IssueLabel>, labels: map<LabelId, Label>, id: IssueId): (r: seq<string>)
    ensures |r| <= |ils|
  {
    if |ils| == 0 then []
    else
      var il := ils[0];
      var rest := LabelNames(ils[1..], labels, id);
      if il.issue == id && !il.deleted && il.labelId in labels then [Lower(labels[il.labelId].name)] + rest
      else rest
  }

  /** `labels_map.labels`: the names joined by ',', or NULL when the issue
      has no label row in the join. */
  function LabelsText(db: Db, id: IssueId): Option<string>
  {
    var names := LabelNames(db.issueLabels, db.labels, id);
    if names == [] then None else Some(Join(names, ","))
  }

  /** Soft-deleting a label does not change any label text: the labels join
      does not look at the label's deletion marker. */
  lemma {:induction false} DeletedLabelStillNamed(ils: seq<IssueLabel>, labels: map<LabelId, Label>, id: IssueId, l: LabelId)
    requires l in labels
    ensures LabelNames(ils, labels[l := labels[l].(deleted := true)], id) == LabelNames(ils, labels, id)
  {
    if |ils| > 0 {
      DeletedLabelStillNamed(ils[1..], labels, id, l);
    }
  }

  /** `LOWER(it.name)` of the issue's type, via a LEFT JOIN (NULL when the
      issue has no type). Type deletion is not checked. */
  function TypeName(db: Db, issue: Issue): Option<string>
  {
    if issue.issueType.Some? && issue.issueType.value in db.issueTypes
    then Some(Lower(db.issueTypes[issue.issueType.value].name))
    else None
  }

  /** `LOWER(p.identifier)` of the project. */
  function Prefix(db: Db, project: ProjectId): string
  {
    if project in db.projects then Lower(db.projects[project].identifier) else ""
  }

  function CategoryOf(db: Db, m: Member, project: ProjectId, pats: Patterns): Category
  {
    Classify(LabelsText(db, m.link.issue), TypeName(db, m.issue), Prefix(db, project), pats)
  }

  // ---- the breakdown -----------------------------------------------------

  /** The scope rows joined with their project: all of them when the
      project row exists, none otherwise. */
  function BreakdownScope(db: Db, cycleIds: set<CycleId>, project: ProjectId, f: Filter): seq<Member>
  {
    if project in db.projects then ScopeRows(db, cycleIds, project, f) else []
  }

  /** `Previsto` of a (cycle, category) pair, read from the scope. */
  function PlannedIn(db: Db, cycleIds: set<CycleId>, project: ProjectId, f: Filter, pats: Patterns,
                     cid: CycleId, cat: Category): set<IssueId>
  {
    set m | m in BreakdownScope(db, cycleIds, project, f) && m.link.cycle == cid && CategoryOf(db, m, project, pats) == cat
      :: m.link.issue
  }

  /** `Realizado` of a (cycle, category) pair, read from the scope. */
  function RealizedIn(db: Db, cycleIds: set<CycleId>, project: ProjectId, f: Filter, pats: Patterns,
                      cid: CycleId, cat: Category): set<IssueId>
  {
    set m | && m in BreakdownScope(db, cycleIds, project, f) && m.link.cycle == cid
            && CategoryOf(db, m, project, pats) == cat && DeliveredIn(m.issue.completedAt, m.cycle)
      :: m.link.issue
  }

  lemma RealizedWithinPlanned(db: Db, cycleIds: set<CycleId>, project: ProjectId, f: Filter, pats: Patterns,
                              cid: CycleId, cat: Category)
    ensures |RealizedIn(db, cycleIds, project, f, pats, cid, cat)| <= |PlannedIn(db, cycleIds, project, f, pats, cid, cat)|
  {
    SubsetCard(RealizedIn(db, cycleIds, project, f, pats, cid, cat), PlannedIn(db, cycleIds, project, f, pats, cid, cat));
  }

  /** One output row: cycle id, "Sprint", "LabelCat", "Previsto", "Realizado". */
  datatype BreakdownRow = BreakdownRow(cycle: CycleId, sprint: string, cat: Category, planned: nat, realized: nat)

  function RowForKey(db: Db, rows: seq<Member>, project: ProjectId, pats: Patterns,
                     cid: CycleId, c: Cycle, cat: Category): (r: BreakdownRow)
    ensures r.cycle == cid && r.cat == cat
  {
    var mine := Where(rows, (m: Member) => m.link.cycle == cid && CategoryOf(db, m, project, pats) == cat);
    BreakdownRow(cid, c.name, cat,
      |set m | m in mine :: m.link.issue|,
      |set m | m in mine && DeliveredIn(m.issue.completedAt, m.cycle) :: m.link.issue|)
  }

  /** `ORDER BY c.cycle_id, c.cycle_name, c.label_cat`. */
  predicate BreakdownLe(a: BreakdownRow, b: BreakdownRow)
  {
    || a.cycle < b.cycle
    || (a.cycle == b.cycle && a.sprint != b.sprint && LexLe(a.sprint, b.sprint))
    || (a.cycle == b.cycle && a.sprint == b.sprint && LexLe(CategoryName(a.cat), CategoryName(b.cat)))
  }

  lemma BreakdownLeTotal()
    ensures Total(BreakdownLe)
  {
    forall a: BreakdownRow, b: BreakdownRow
      ensures BreakdownLe(a, b) || BreakdownLe(b, a)
    {
      LexLeTotal(a.sprint, b.sprint);
      LexLeTotal(CategoryName(a.cat), CategoryName(b.cat));
    }
  }

  function GroupKeys(db: Db, rows: seq<Member>, project: ProjectId, pats: Patterns): seq<(CycleId, Cycle, Category)>
  {
    Distinct(MapSeq(rows, (m: Member) => (m.link.cycle, m.cycle, CategoryOf(db, m, project, pats))))
  }

  function Grouped(db: Db, rows: seq<Member>, project: ProjectId, pats: Patterns): seq<BreakdownRow>
  {
    MapSeq(GroupKeys(db, rows, project, pats),
      (k: (CycleId, Cycle, Category)) => RowForKey(db, rows, project, pats, k.0, k.1, k.2))
  }

  /** `compute_label_breakdown_for_cycles`: one row per (cycle, category)
      pair that has an in-scope issue, ordered by cycle then category. */
  function ComputeLabelBreakdown(db: Db, cycleIds: set<CycleId>, project: ProjectId, f: Filter, pats: Patterns): (r: seq<BreakdownRow>)
    ensures cycleIds == {} ==> r == []
    ensures Sorted(r, BreakdownLe)
    ensures forall k :: 0 <= k < |r| ==>
      && r[k].cycle in cycleIds
      && r[k].planned == |PlannedIn(db, cycleIds, project, f, pats, r[k].cycle, r[k].cat)| > 0
      && r[k].realized == |RealizedIn(db, cycleIds, project, f, pats, r[k].cycle, r[k].cat)|
      && r[k].realized <= r[k].planned
    ensures forall cid, cat :: PlannedIn(db, cycleIds, project, f, pats, cid, cat) != {} ==> HasRowFor(r, cid, cat)
    ensures forall i, j :: 0 <= i < j < |r| ==> (r[i].cycle, r[i].cat) != (r[j].cycle, r[j].cat)
  {
    if cycleIds == {} then []
    else
      var rows := BreakdownScope(db, cycleIds, project, f);
      BreakdownLeTotal();
      SortedBreakdownFacts(db, cycleIds, project, f, pats);
      SortedBreakdownCover(db, cycleIds, project, f, pats);
      GroupedDistinctPairs(db, cycleIds, project, f, pats);
      SortByKeepsKeysDistinct(Grouped(db, rows, project, pats), BreakdownLe, (x: BreakdownRow) => (x.cycle, x.cat));
      SortBy(Grouped(db, rows, project, pats), BreakdownLe)
  }

  predicate HasRowFor(r: seq<BreakdownRow>, cid: CycleId, cat: Category)
  {
    exists k :: 0 <= k < |r| && r[k].cycle == cid && r[k].cat == cat
  }

  /** Every grouping key comes from a joined, in-scope row. */
  lemma KeyFromRow(db: Db, cycleIds: set<CycleId>, project: ProjectId, f: Filter, pats: Patterns,
                   key: (CycleId, Cycle, Category))
    requires key in GroupKeys(db, BreakdownScope(db, cycleIds, project, f), project, pats)
    ensures key.0 in cycleIds && key.0 in db.cycles && key.1 == db.cycles[key.0]
    ensures PlannedIn(db, cycleIds, project, f, pats, key.0, key.2) != {}
  {
    var rows := BreakdownScope(db, cycleIds, project, f);
    var pairs := MapSeq(rows, (m: Member) => (m.link.cycle, m.cycle, CategoryOf(db, m, project, pats)));
    assert key in pairs;
    var j :| 0 <= j < |rows| && pairs[j] == key;
    assert rows[j] in Members(db);
    assert rows[j].link.issue in PlannedIn(db, cycleIds, project, f, pats, key.0, key.2);
  }

  lemma RowForKeyCounts(db: Db, cycleIds: set<CycleId>, project: ProjectId, f: Filter, pats: Patterns,
                        cid: CycleId, c: Cycle, cat: Category)
    requires PlannedIn(db, cycleIds, project, f, pats, cid, cat) != {}
    ensures var x := RowForKey(db, BreakdownScope(db, cycleIds, project, f), project, pats, cid, c, cat);
      && x.planned == |PlannedIn(db, cycleIds, project, f, pats, cid, cat)| > 0
      && x.realized == |RealizedIn(db, cycleIds, project, f, pats, cid, cat)|
      && x.realized <= x.planned
  {
    var rows := BreakdownScope(db, cycleIds, project, f);
    var mine := Where(rows, (m: Member) => m.link.cycle == cid && CategoryOf(db, m, project, pats) == cat);
    assert (set m | m in mine :: m.link.issue) == PlannedIn(db, cycleIds, project, f, pats, cid, cat);
    assert (set m | m in mine && DeliveredIn(m.issue.completedAt, m.cycle) :: m.link.issue)
        == RealizedIn(db, cycleIds, project, f, pats, cid, cat);
    RealizedWithinPlanned(db, cycleIds, project, f, pats, cid, cat);
  }

  lemma GroupedRowFacts(db: Db, cycleIds: set<CycleId>, project: ProjectId, f: Filter, pats: Patterns, x: BreakdownRow)
    requires x in Grouped(db, BreakdownScope(db, cycleIds, project, f), project, pats)
    ensures x.cycle in cycleIds
    ensures x.planned == |PlannedIn(db, cycleIds, project, f, pats, x.cycle, x.cat)| > 0
    ensures x.realized == |RealizedIn(db, cycleIds, project, f, pats, x.cycle, x.cat)|
    ensures x.realized <= x.planned
  {
    var rows := BreakdownScope(db, cycleIds, project, f);
    var keys := GroupKeys(db, rows, project, pats);
    var unsorted := Grouped(db, rows, project, pats);
    var i :| 0 <= i < |unsorted| && unsorted[i] == x;
    KeyFromRow(db, cycleIds, project, f, pats, keys[i]);
    RowForKeyCounts(db, cycleIds, project, f, pats, keys[i].0, keys[i].1, keys[i].2);
  }

  lemma GroupedCovers(db: Db, cycleIds: set<CycleId>, project: ProjectId, f: Filter, pats: Patterns,
                      cid: CycleId, cat: Category)
    requires PlannedIn(db, cycleIds, project, f, pats, cid, cat) != {}
    ensures exists x :: x in Grouped(db, BreakdownScope(db, cycleIds, project, f), project, pats)
                        && x.cycle == cid && x.cat == cat
  {
    var rows := BreakdownScope(db, cycleIds, project, f);
    var keys := GroupKeys(db, rows, project, pats);
    var pairs := MapSeq(rows, (m: Member) => (m.link.cycle, m.cycle, CategoryOf(db, m, project, pats)));
    var id :| id in PlannedIn(db, cycleIds, project, f, pats, cid, cat);
    var m :| m in rows && m.link.cycle == cid && CategoryOf(db, m, project, pats) == cat && m.link.issue == id;
    var j :| 0 <= j < |rows| && rows[j] == m;
    assert pairs[j] == (cid, m.cycle, cat);
    assert (cid, m.cycle, cat) in keys;
    var i :| 0 <= i < |keys| && keys[i] == (cid, m.cycle, cat);
    assert Grouped(db, rows, project, pats)[i].cycle == cid;
  }

  lemma GroupedDistinctPairs(db: Db, cycleIds: set<CycleId>, project: ProjectId, f: Filter, pats: Patterns)
    ensures var g := Grouped(db, BreakdownScope(db, cycleIds, project, f), project, pats);
      forall i, j :: 0 <= i < j < |g| ==> (g[i].cycle, g[i].cat) != (g[j].cycle, g[j].cat)
  {
    var rows := BreakdownScope(db, cycleIds, project, f);
    var keys := GroupKeys(db, rows, project, pats);
    forall i, j | 0 <= i < j < |keys|
      ensures (keys[i].0, keys[i].2) != (keys[j].0, keys[j].2)
    {
      KeyFromRow(db, cycleIds, project, f, pats, keys[i]);
      KeyFromRow(db, cycleIds, project, f, pats, keys[j]);
    }
  }

  lemma SortedBreakdownFacts(db: Db, cycleIds: set<CycleId>, project: ProjectId, f: Filter, pats: Patterns)
    requires Total(BreakdownLe)
    ensures var out := SortBy(Grouped(db, BreakdownScope(db, cycleIds, project, f), project, pats), BreakdownLe);
      forall k :: 0 <= k < |out| ==>
        && out[k].cycle in cycleIds
        && out[k].planned == |PlannedIn(db, cycleIds, project, f, pats, out[k].cycle, out[k].cat)| > 0
        && out[k].realized == |RealizedIn(db, cycleIds, project, f, pats, out[k].cycle, out[k].cat)|
        && out[k].realized <= out[k].planned
  {
    var unsorted := Grouped(db, BreakdownScope(db, cycleIds, project, f), project, pats);
    var out := SortBy(unsorted, BreakdownLe);
    forall k | 0 <= k < |out|
      ensures out[k].cycle in cycleIds
      ensures out[k].planned == |PlannedIn(db, cycleIds, project, f, pats, out[k].cycle, out[k].cat)| > 0
      ensures out[k].realized == |RealizedIn(db, cycleIds, project, f, pats, out[k].cycle, out[k].cat)|
      ensures out[k].realized <= out[k].planned
    {
      assert out[k] in unsorted;
      GroupedRowFacts(db, cycleIds, project, f, pats, out[k]);
    }
  }

  lemma SortedBreakdownCover(db: Db, cycleIds: set<CycleId>, project: ProjectId, f: Filter, pats: Patterns)
    requires Total(BreakdownLe)
    ensures var out := SortBy(Grouped(db, BreakdownScope(db, cycleIds, project, f), project, pats), BreakdownLe);
      forall cid, cat :: PlannedIn(db, cycleIds, project, f, pats, cid, cat) != {} ==> HasRowFor(out, cid, cat)
  {
    var unsorted := Grouped(db, BreakdownScope(db, cycleIds, project, f), project, pats);
    var out := SortBy(unsorted, BreakdownLe);
    forall cid, cat | PlannedIn(db, cycleIds, project, f, pats, cid, cat) != {}
      ensures HasRowFor(out, cid, cat)
    {
      GroupedCovers(db, cycleIds, project, f, pats, cid, cat);
      var x :| x in unsorted && x.cycle == cid && x.cat == cat;
      assert x in out;
      var k :| 0 <= k < |out| && out[k] == x;
    }
  }

  // ---- the categories partition a sprint's planned issues ---------------

  /** Rows of the same issue carry the same issue record, so an issue has
      one category per query. */
  lemma CategoryIsPerIssue(db: Db, m1: Member, m2: Member, project: ProjectId, pats: Patterns)
    requires m1 in Members(db) && m2 in Members(db)
    requires m1.link.issue == m2.link.issue
    ensures CategoryOf(db, m1, project, pats) == CategoryOf(db, m2, project, pats)
  {
  }

  lemma DisjointUnionCard<T>(a: set<T>, b: set<T>)
    requires a !! b
    ensures |a + b| == |a| + |b|
  {
  }

  function CategoryTotal(db: Db, cycleIds: set<CycleId>, project: ProjectId, f: Filter, pats: Patterns, cid: CycleId): nat
  {
    |PlannedIn(db, cycleIds, project, f, pats, cid, Unplanned)|
    + |PlannedIn(db, cycleIds, project, f, pats, cid, BugGlpi)|
    + |PlannedIn(db, cycleIds, project, f, pats, cid, Bug)|
    + |PlannedIn(db, cycleIds, project, f, pats, cid, Feature)|
    + |PlannedIn(db, cycleIds, project, f, pats, cid, Other)|
  }

  /** The five categories partition each cycle's planned issues: summing
      "Previsto" over a sprint's categories gives the sprint's "estimadas"
      (when the project row exists; otherwise the breakdown is empty). */
  lemma CategoriesPartitionSprint(db: Db, cycleIds: set<CycleId>, project: ProjectId, f: Filter, pats: Patterns, cid: CycleId)
    ensures project in db.projects ==>
      CategoryTotal(db, cycleIds, project, f, pats, cid) == |SprintMetrics.PlannedIssues(db, cycleIds, project, f, cid)|
    ensures project !in db.projects ==> CategoryTotal(db, cycleIds, project, f, pats, cid) == 0
  {
    CategoryTotalIsUnion(db, cycleIds, project, f, pats, cid);
    if project in db.projects {
      CategoriesCoverSprint(db, cycleIds, project, f, pats, cid);
    }
  }

  function CategoryUnion(db: Db, cycleIds: set<CycleId>, project: ProjectId, f: Filter, pats: Patterns, cid: CycleId): set<IssueId>
  {
    PlannedIn(db, cycleIds, project, f, pats, cid, Unplanned)
    + PlannedIn(db, cycleIds, project, f, pats, cid, BugGlpi)
    + PlannedIn(db, cycleIds, project, f, pats, cid, Bug)
    + PlannedIn(db, cycleIds, project, f, pats, cid, Feature)
    + PlannedIn(db, cycleIds, project, f, pats, cid, Other)
  }

  /** Without the project row every category is empty; with it, the
      categories together hold exactly the sprint's planned issues. */
  lemma CategoriesCoverSprint(db: Db, cycleIds: set<CycleId>, project: ProjectId, f: Filter, pats: Patterns, cid: CycleId)
    ensures project in db.projects ==>
      CategoryUnion(db, cycleIds, project, f, pats, cid) == SprintMetrics.PlannedIssues(db, cycleIds, project, f, cid)
    ensures project !in db.projects ==> CategoryUnion(db, cycleIds, project, f, pats, cid) == {}
  {
    if project in db.projects {
      var all := SprintMetrics.PlannedIssues(db, cycleIds, project, f, cid);
      forall id | id in all
        ensures id in CategoryUnion(db, cycleIds, project, f, pats, cid)
      {
        var m :| m in ScopeRows(db, cycleIds, project, f) && m.link.cycle == cid && m.link.issue == id;
        var cat := CategoryOf(db, m, project, pats);
        assert id in PlannedIn(db, cycleIds, project, f, pats, cid, cat);
      }
    }
  }

  lemma CategoryTotalIsUnion(db: Db, cycleIds: set<CycleId>, project: ProjectId, f: Filter, pats: Patterns, cid: CycleId)
    ensures CategoryTotal(db, cycleIds, project, f, pats, cid) == |CategoryUnion(db, cycleIds, project, f, pats, cid)|
  {
    var p1 := PlannedIn(db, cycleIds, project, f, pats, cid, Unplanned);
    var p2 := PlannedIn(db, cycleIds, project, f, pats, cid, BugGlpi);
    var p3 := PlannedIn(db, cycleIds, project, f, pats, cid, Bug);
    var p4 := PlannedIn(db, cycleIds, project, f, pats, cid, Feature);
    var p5 := PlannedIn(db, cycleIds, project, f, pats, cid, Other);
    CategoriesDisjoint(db, cycleIds, project, f, pats, cid, Unplanned, BugGlpi);
    CategoriesDisjoint(db, cycleIds, project, f, pats, cid, Unplanned, Bug);
    CategoriesDisjoint(db, cycleIds, project, f, pats, cid, Unplanned, Feature);
    CategoriesDisjoint(db, cycleIds, project, f, pats, cid, Unplanned, Other);
    CategoriesDisjoint(db, cycleIds, project, f, pats, cid, BugGlpi, Bug);
    CategoriesDisjoint(db, cycleIds, project, f, pats, cid, BugGlpi, Feature);
    CategoriesDisjoint(db, cycleIds, project, f, pats, cid, BugGlpi, Other);
    CategoriesDisjoint(db, cycleIds, project, f, pats, cid, Bug, Feature);
    CategoriesDisjoint(db, cycleIds, project, f, pats, cid, Bug, Other);
    CategoriesDisjoint(db, cycleIds, project, f, pats, cid, Feature, Other);
    DisjointUnionCard(p1, p2);
    DisjointUnionCard(p1 + p2, p3);
    DisjointUnionCard(p1 + p2 + p3, p4);
    DisjointUnionCard(p1 + p2 + p3 + p4, p5);
  }

  lemma CategoriesDisjoint(db: Db, cycleIds: set<CycleId>, project: ProjectId, f: Filter, pats: Patterns,
                           cid: CycleId, c1: Category, c2: Category)
    requires c1 != c2
    ensures PlannedIn(db, cycleIds, project, f, pats, cid, c1) !! PlannedIn(db, cycleIds, project, f, pats, cid, c2)
  {
    forall id | id in PlannedIn(db, cycleIds, project, f, pats, cid, c1)
      ensures id !in PlannedIn(db, cycleIds, project, f, pats, cid, c2)
    {
      var m1 :| m1 in BreakdownScope(db, cycleIds, project, f) && m1.link.cycle == cid
                && CategoryOf(db, m1, project, pats) == c1 && m1.link.issue == id;
      forall m2 | m2 in BreakdownScope(db, cycleIds, project, f) && m2.link.issue == id
        ensures CategoryOf(db, m2, project, pats) == c1
      {
        CategoryIsPerIssue(db, m1, m2, project, pats);
      }
    }
  }
}

=== FILE: member_metrics.dfy ===
/** Per-developer delivered counts and points (`compute_member_metrics_for_cycles`,
    its "Dev", "Realizado", "Pontos entregues" and "Pontos médios por issue"
    columns and its ordering). */
module MemberMetrics {
  import opened Base
  import opened Text
  import opened Store
  import opened Filters
  import opened Estimation
  import opened Delivery
  import opened Sorting

  /** The `base` rows: live membership rows of the selected cycles that pass
      the label and state filters. The assignee list is applied later, to
      the assignee rows. */
  predicate InMemberBase(db: Db, m: Member, cycleIds: set<CycleId>, project: ProjectId, f: Filter)
  {
    InCycles(m, cycleIds, project) && Live(m) && PassesTask(db, m.link.issue, m.issue, f)
  }

  function BaseRows(db: Db, cycleIds: set<CycleId>, project: ProjectId, f: Filter): (r: seq<Member>)
    ensures forall m :: m in r <==> m in Members(db) && InMemberBase(db, m, cycleIds, project, f)
  {
    Where(Members(db), (m: Member) => InMemberBase(db, m, cycleIds, project, f))
  }

  /** One row of the `delivered` CTE: a base row, one of its issue's assignee
      rows, and the assignee's display name (NULL when the user is missing). */
  datatype Credit = Credit(m: Member, ia: IssueAssignee, dev: Option<string>)

  /** `JOIN issue_assignees ia ON ia.issue_id = b.issue_id AND ia.deleted_at IS
      NULL [AND ia.assignee_id IN (...)] LEFT JOIN users u`. */
  predicate CreditFor(db: Db, c: Credit, f: Filter)
  {
    && c.ia in db.issueAssignees
    && c.ia.issue == c.m.link.issue
    && !c.ia.deleted
    && AssigneeAllowed(c.ia.assignee, f)
    && c.dev == DevName(db, c.ia.assignee)
  }

  /** The credits of one base row. */
  function CreditsOfRow(db: Db, m: Member, f: Filter): (r: seq<Credit>)
    ensures forall c :: c in r <==> c.m == m && CreditFor(db, c, f)
  {
    var links := Where(db.issueAssignees, (ia: IssueAssignee) =>
      ia.issue == m.link.issue && !ia.deleted && AssigneeAllowed(ia.assignee, f));
    var r := MapSeq(links, (ia: IssueAssignee) => Credit(m, ia, DevName(db, ia.assignee)));
    assert forall c :: c in r ==> c.ia in links && c == Credit(m, c.ia, DevName(db, c.ia.assignee)) by {
      forall c | c in r
        ensures c.ia in links && c == Credit(m, c.ia, DevName(db, c.ia.assignee))
      {
        var k :| 0 <= k < |r| && r[k] == c;
      }
    }
    assert forall ia :: ia in links ==> Credit(m, ia, DevName(db, ia.assignee)) in r by {
      forall ia | ia in links
        ensures Credit(m, ia, DevName(db, ia.assignee)) in r
      {
        var k :| 0 <= k < |links| && links[k] == ia;
        assert r[k] == Credit(m, ia, DevName(db, ia.assignee));
      }
    }
    r
  }

  /** The join of the base rows with their assignee rows. */
  function Credits(db: Db, rows: seq<Member>, f: Filter): (r: seq<Credit>)
    ensures forall c :: c in r <==> c.m in rows && CreditFor(db, c, f)
  {
    if |rows| == 0 then []
    else
      var head := CreditsOfRow(db, rows[0], f);
      var tail := Credits(db, rows[1..], f);
      assert forall m :: m in rows <==> m == rows[0] || m in rows[1..];
      head + tail
  }

  function AllCredits(db: Db, cycleIds: set<CycleId>, project: ProjectId, f: Filter): seq<Credit>
  {
    Credits(db, BaseRows(db, cycleIds, project, f), f)
  }

  /** The `FILTER (WHERE ...)` of every aggregate: delivered in the window of
      the base row's cycle. */
  predicate CreditDelivered(c: Credit)
  {
    DeliveredIn(c.m.issue.completedAt, c.m.cycle)
  }

  /** The delivered credits of one developer group. */
  function DeliveredOf(credits: seq<Credit>, dev: Option<string>): seq<Credit>
  {
    Where(credits, (c: Credit) => c.dev == dev && CreditDelivered(c))
  }

  /** The issues a developer group delivered, stated directly on the tables:
      a delivered base row of the issue and a live, allowed assignee row of
      the issue whose user shows as `dev`. */
  function DevDeliveries(db: Db, cycleIds: set<CycleId>, project: ProjectId, f: Filter, dev: Option<string>): set<IssueId>
  {
    set m, ia | && m in Members(db) && InMemberBase(db, m, cycleIds, project, f)
                && DeliveredIn(m.issue.completedAt, m.cycle)
                && ia in db.issueAssignees && ia.issue == m.link.issue && !ia.deleted
                && AssigneeAllowed(ia.assignee, f) && DevName(db, ia.assignee) == dev
      :: m.link.issue
  }

  /** One output row: "Dev", "Realizado", "Pontos entregues",
      "Pontos médios por issue". */
  datatype MemberRow = MemberRow(dev: Option<string>, realized: nat, points: int, avgPoints: real)

  /** `d.point` of a credit: the effective points of its issue. */
  function CreditPoints(db: Db): Credit -> int
  {
    (c: Credit) => PointsOr0(db, c.m.issue)
  }

  function PointsSample(db: Db, cs: seq<Credit>): seq<real>
  {
    MapSeq(cs, (c: Credit) => PointsOr0(db, c.m.issue) as real)
  }

  /** `COUNT(DISTINCT d.issue_id)`: none exactly when there is no credit. */
  function IssuesOf(cs: seq<Credit>): (r: set<IssueId>)
    ensures forall c :: c in cs ==> c.m.link.issue in r
    ensures r == {} <==> cs == []
  {
    NoMemberEmpty(cs);
    set c | c in cs :: c.m.link.issue
  }

  function RowForDev(db: Db, credits: seq<Credit>, dev: Option<string>): (r: MemberRow)
    ensures r.dev == dev
  {
    var mine := DeliveredOf(credits, dev);
    MemberRow(
      dev,
      |IssuesOf(mine)|,
      SumOf(mine, CreditPoints(db)),
      Mean(PointsSample(db, mine)))
  }

  /** `d.dev_name` ascending with NULLs last (PostgreSQL's default). */
  predicate DevLe(a: Option<string>, b: Option<string>)
  {
    match (a, b)
    case (Some(x), Some(y)) => LexLe(x, y)
    case (Some(_), None) => true
    case (None, None) => true
    case (None, Some(_)) => false
  }

  /** `ORDER BY "Pontos entregues" DESC, "Realizado" DESC, d.dev_name`. */
  predicate MemberRowLe(a: MemberRow, b: MemberRow)
  {
    || a.points > b.points
    || (a.points == b.points && a.realized > b.realized)
    || (a.points == b.points && a.realized == b.realized && DevLe(a.dev, b.dev))
  }

  lemma MemberRowLeTotal()
    ensures Total(MemberRowLe)
  {
    forall a: MemberRow, b: MemberRow
      ensures MemberRowLe(a, b) || MemberRowLe(b, a)
    {
      if a.dev.Some? && b.dev.Some? {
        LexLeTotal(a.dev.value, b.dev.value);
      }
    }
  }

  /** The estimate of a delivered credit cannot be cast: the query aborts. */
  predicate CreditCastFailure(db: Db, credits: seq<Credit>)
  {
    exists c :: c in credits && CreditDelivered(c) && !Resolvable(db, c.m.issue)
  }

  /** The developer groups: every name (or NULL) that some credit shows. */
  function DevKeys(credits: seq<Credit>): (r: seq<Option<string>>)
    ensures NoDup(r)
    ensures forall d :: d in r <==> exists c :: c in credits && c.dev == d
  {
    var all := MapSeq(credits, (c: Credit) => c.dev);
    assert forall c :: c in credits ==> c.dev in all by {
      forall c | c in credits
        ensures c.dev in all
      {
        var k :| 0 <= k < |credits| && credits[k] == c;
        assert all[k] == c.dev;
      }
    }
    Distinct(all)
  }

  /** The unsorted result: one aggregate row per developer group. */
  function GroupRows(db: Db, credits: seq<Credit>): (rows: seq<MemberRow>)
    ensures |rows| == |DevKeys(credits)|
    ensures forall i :: 0 <= i < |rows| ==> rows[i] == RowForDev(db, credits, DevKeys(credits)[i])
  {
    MapSeq(DevKeys(credits), (d: Option<string>) => RowForDev(db, credits, d))
  }

  /** `compute_member_metrics_for_cycles`, the columns above. */
  function ComputeMemberMetrics(db: Db, cycleIds: set<CycleId>, project: ProjectId, f: Filter): (r: Result<seq<MemberRow>>)
    ensures cycleIds == {} ==> r == Ok([])
    ensures r.Fail? <==> cycleIds != {} && CreditCastFailure(db, AllCredits(db, cycleIds, project, f))
    ensures r.Ok? ==> Sorted(r.value, MemberRowLe)
    ensures r.Ok? ==> forall i, j :: 0 <= i < j < |r.value| ==> r.value[i].dev != r.value[j].dev
    ensures r.Ok? ==> forall k :: 0 <= k < |r.value| ==>
      && r.value[k].dev in DevKeys(AllCredits(db, cycleIds, project, f))
      && r.value[k].realized == |DevDeliveries(db, cycleIds, project, f, r.value[k].dev)|
      && (r.value[k].realized == 0 ==> r.value[k].points == 0 && r.value[k].avgPoints == 0.0)
      && r.value[k].points == SumOf(DeliveredOf(AllCredits(db, cycleIds, project, f), r.value[k].dev), CreditPoints(db))
      && AverageOf(r.value[k].avgPoints, DeliveredOf(AllCredits(db, cycleIds, project, f), r.value[k].dev), CreditPoints(db))
    ensures r.Ok? && cycleIds != {} ==> forall c :: c in AllCredits(db, cycleIds, project, f) ==>
      exists k :: 0 <= k < |r.value| && r.value[k].dev == c.dev
  {
    if cycleIds == {} then Ok([])
    else
      var credits := AllCredits(db, cycleIds, project, f);
      if CreditCastFailure(db, credits) then Fail(CastFailure)
      else
        MemberRowLeTotal();
        MemberTableFacts(db, cycleIds, project, f);
        Ok(SortBy(GroupRows(db, credits), MemberRowLe))
  }

  /** The ordered group rows: distinct developer names, each row its
      group's aggregate, and a row for every credit's name. */
  lemma MemberTableFacts(db: Db, cycleIds: set<CycleId>, project: ProjectId, f: Filter)
    requires Total(MemberRowLe)
    ensures var credits := AllCredits(db, cycleIds, project, f);
      var out := SortBy(GroupRows(db, credits), MemberRowLe);
      && (forall i, j :: 0 <= i < j < |out| ==> out[i].dev != out[j].dev)
      && (forall k :: 0 <= k < |out| ==>
            && out[k].dev in DevKeys(credits)
            && out[k].realized == |DevDeliveries(db, cycleIds, project, f, out[k].dev)|
            && (out[k].realized == 0 ==> out[k].points == 0 && out[k].avgPoints == 0.0)
            && out[k].points == SumOf(DeliveredOf(credits, out[k].dev), CreditPoints(db))
            && AverageOf(out[k].avgPoints, DeliveredOf(credits, out[k].dev), CreditPoints(db)))
      && (forall c :: c in credits ==> exists k :: 0 <= k < |out| && out[k].dev == c.dev)
  {
    var credits := AllCredits(db, cycleIds, project, f);
    var rows := GroupRows(db, credits);
    var out := SortBy(rows, MemberRowLe);
    MemberRowsFacts(db, cycleIds, project, f, rows);
    SortByKeepsKeysDistinct(rows, MemberRowLe, (x: MemberRow) => x.dev);
    SortedRowsAreGroupRows(db, cycleIds, project, f, rows);
    RowsCoverCredits(credits, rows, out);
    forall k | 0 <= k < |out|
      ensures out[k].dev in DevKeys(credits)
      ensures out[k].realized == |DevDeliveries(db, cycleIds, project, f, out[k].dev)|
      ensures out[k].realized == 0 ==> out[k].points == 0 && out[k].avgPoints == 0.0
      ensures out[k].points == SumOf(DeliveredOf(credits, out[k].dev), CreditPoints(db))
      ensures AverageOf(out[k].avgPoints, DeliveredOf(credits, out[k].dev), CreditPoints(db))
    {
      assert GroupRow(db, cycleIds, project, f, out[k]);
    }
  }

  /** `x` is the aggregate row of a developer group that some credit shows:
      "Realizado" counts the group's distinct delivered issues, "Pontos
      entregues" sums the points of its delivered credits (one term per
      credit) and "Pontos médios por issue" averages them, both 0 when
      nothing was delivered. */
  predicate GroupRow(db: Db, cycleIds: set<CycleId>, project: ProjectId, f: Filter, x: MemberRow)
  {
    var mine := DeliveredOf(AllCredits(db, cycleIds, project, f), x.dev);
    && x.dev in DevKeys(AllCredits(db, cycleIds, project, f))
    && x.realized == |DevDeliveries(db, cycleIds, project, f, x.dev)|
    && (x.realized == 0 ==> x.points == 0 && x.avgPoints == 0.0)
    && x.points == SumOf(mine, CreditPoints(db))
    && AverageOf(x.avgPoints, mine, CreditPoints(db))
  }

  /** The points columns of a group's row sum and average the points of the
      group's delivered credits. */
  lemma RowForDevPoints(db: Db, credits: seq<Credit>, dev: Option<string>)
    ensures RowForDev(db, credits, dev).points == SumOf(DeliveredOf(credits, dev), CreditPoints(db))
    ensures AverageOf(RowForDev(db, credits, dev).avgPoints, DeliveredOf(credits, dev), CreditPoints(db))
  {
    var mine := DeliveredOf(credits, dev);
    MeanOfInts(mine, CreditPoints(db), PointsSample(db, mine));
  }

  /** The unsorted rows: one per developer group, with the group's counts. */
  lemma MemberRowsFacts(db: Db, cycleIds: set<CycleId>, project: ProjectId, f: Filter, rows: seq<MemberRow>)
    requires rows == GroupRows(db, AllCredits(db, cycleIds, project, f))
    ensures forall i, j :: 0 <= i < j < |rows| ==> rows[i].dev != rows[j].dev
    ensures forall x :: x in rows ==> GroupRow(db, cycleIds, project, f, x)
    ensures forall c :: c in AllCredits(db, cycleIds, project, f) ==> exists x :: x in rows && x.dev == c.dev
  {
    var credits := AllCredits(db, cycleIds, project, f);
    GroupRowsShape(db, credits, rows);
    forall x | x in rows
      ensures GroupRow(db, cycleIds, project, f, x)
    {
      RealizedIsDevDeliveries(db, cycleIds, project, f, x.dev);
      NothingRealizedNoPoints(db, credits, x.dev);
      RowForDevPoints(db, credits, x.dev);
    }
  }

  /** The grouped rows carry distinct developer names, each row is its
      group's aggregate, and every credit's name has a row. */
  lemma GroupRowsShape(db: Db, credits: seq<Credit>, rows: seq<MemberRow>)
    requires rows == GroupRows(db, credits)
    ensures forall i, j :: 0 <= i < j < |rows| ==> rows[i].dev != rows[j].dev
    ensures forall x :: x in rows ==> x == RowForDev(db, credits, x.dev)
    ensures forall c :: c in credits ==> exists x :: x in rows && x.dev == c.dev
  {
    GroupRowsAt(db, credits, rows);
    GroupRowsDistinct(rows, DevKeys(credits));
    GroupRowsCover(db, credits, rows);
  }

  lemma GroupRowsDistinct(rows: seq<MemberRow>, keys: seq<Option<string>>)
    requires NoDup(keys)
    requires |rows| == |keys|
    requires forall i :: 0 <= i < |rows| ==> rows[i].dev == keys[i]
    ensures forall i, j :: 0 <= i < j < |rows| ==> rows[i].dev != rows[j].dev
  {
  }

  lemma GroupRowsCover(db: Db, credits: seq<Credit>, rows: seq<MemberRow>)
    requires |rows| == |DevKeys(credits)|
    requires forall i :: 0 <= i < |rows| ==> rows[i] == RowForDev(db, credits, DevKeys(credits)[i])
    requires forall i :: 0 <= i < |rows| ==> rows[i].dev == DevKeys(credits)[i]
    ensures forall x :: x in rows ==> x == RowForDev(db, credits, x.dev)
    ensures forall c :: c in credits ==> exists x :: x in rows && x.dev == c.dev
  {
    var keys := DevKeys(credits);
    forall x | x in rows
      ensures x == RowForDev(db, credits, x.dev)
    {
      var k :| 0 <= k < |rows| && rows[k] == x;
    }
    forall c | c in credits
      ensures exists x :: x in rows && x.dev == c.dev
    {
      assert c.dev in keys;
      var k :| 0 <= k < |keys| && keys[k] == c.dev;
      assert rows[k] in rows;
    }
  }

  lemma GroupRowsAt(db: Db, credits: seq<Credit>, rows: seq<MemberRow>)
    requires rows == GroupRows(db, credits)
    ensures |rows| == |DevKeys(credits)|
    ensures forall i :: 0 <= i < |rows| ==> rows[i] == RowForDev(db, credits, DevKeys(credits)[i])
    ensures forall i :: 0 <= i < |rows| ==> rows[i].dev == DevKeys(credits)[i]
  {
  }

  lemma SortedRowsAreGroupRows(db: Db, cycleIds: set<CycleId>, project: ProjectId, f: Filter, rows: seq<MemberRow>)
    requires Total(MemberRowLe)
    requires forall x :: x in rows ==> GroupRow(db, cycleIds, project, f, x)
    ensures var out := SortBy(rows, MemberRowLe);
      forall k :: 0 <= k < |out| ==> GroupRow(db, cycleIds, project, f, out[k])
  {
    var out := SortBy(rows, MemberRowLe);
    forall k | 0 <= k < |out|
      ensures GroupRow(db, cycleIds, project, f, out[k])
    {
      assert out[k] in rows;
    }
  }

  /** Rearranging the rows keeps a row for every credit's name. */
  lemma RowsCoverCredits(credits: seq<Credit>, rows: seq<MemberRow>, out: seq<MemberRow>)
    requires forall c :: c in credits ==> exists x :: x in rows && x.dev == c.dev
    requires forall x :: x in rows ==> x in out
    ensures forall c :: c in credits ==> exists k :: 0 <= k < |out| && out[k].dev == c.dev
  {
    forall c | c in credits
      ensures exists k :: 0 <= k < |out| && out[k].dev == c.dev
    {
      var x :| x in rows && x.dev == c.dev;
      var k :| 0 <= k < |out| && out[k] == x;
    }
  }

  /** "Realizado" of a group is the number of distinct issues the group's
      developer delivered, as read directly from the tables. */
  lemma RealizedIsDevDeliveries(db: Db, cycleIds: set<CycleId>, project: ProjectId, f: Filter, dev: Option<string>)
    ensures RowForDev(db, AllCredits(db, cycleIds, project, f), dev).realized
            == |DevDeliveries(db, cycleIds, project, f, dev)|
  {
    var credits := AllCredits(db, cycleIds, project, f);
    var mine := DeliveredOf(credits, dev);
    var lhs := IssuesOf(mine);
    var rhs := DevDeliveries(db, cycleIds, project, f, dev);
    forall id | id in lhs
      ensures id in rhs
    {
      var c :| c in mine && c.m.link.issue == id;
      assert c in credits;
    }
    forall id | id in rhs
      ensures id in lhs
    {
      var m, ia :| && m in Members(db) && InMemberBase(db, m, cycleIds, project, f)
                   && DeliveredIn(m.issue.completedAt, m.cycle)
                   && ia in db.issueAssignees && ia.issue == m.link.issue && !ia.deleted
                   && AssigneeAllowed(ia.assignee, f) && DevName(db, ia.assignee) == dev
                   && m.link.issue == id;
      var c := Credit(m, ia, DevName(db, ia.assignee));
      assert c in credits;
      assert c in mine;
    }
    assert lhs == rhs;
  }

  /** A group with no delivered issue has no delivered points either. */
  lemma NothingRealizedNoPoints(db: Db, credits: seq<Credit>, dev: Option<string>)
    ensures RowForDev(db, credits, dev).realized == 0 ==>
      RowForDev(db, credits, dev).points == 0 && RowForDev(db, credits, dev).avgPoints == 0.0
  {
    var mine := DeliveredOf(credits, dev);
    assert |IssuesOf(mine)| == 0 ==> mine == [];
  }

  /** With non-negative estimates every group's delivered points are
      non-negative. */
  lemma MemberPointsNonNegative(db: Db, cycleIds: set<CycleId>, project: ProjectId, f: Filter, k: int)
    requires forall m :: m in Members(db) ==> PointsOr0(db, m.issue) >= 0
    ensures var r := ComputeMemberMetrics(db, cycleIds, project, f);
      r.Ok? && 0 <= k < |r.value| ==> r.value[k].points >= 0 && r.value[k].avgPoints >= 0.0
  {
    var r := ComputeMemberMetrics(db, cycleIds, project, f);
    if r.Ok? && 0 <= k < |r.value| {
      var credits := AllCredits(db, cycleIds, project, f);
      forall c | c in credits
        ensures PointsOr0(db, c.m.issue) >= 0
      {
        assert c.m in BaseRows(db, cycleIds, project, f);
      }
      GroupRowsNonNegative(db, credits);
      MemberRowLeTotal();
      assert r.value[k] in GroupRows(db, credits);
    }
  }

  lemma GroupRowsNonNegative(db: Db, credits: seq<Credit>)
    requires forall c :: c in credits ==> PointsOr0(db, c.m.issue) >= 0
    ensures forall x :: x in GroupRows(db, credits) ==> x.points >= 0 && x.avgPoints >= 0.0
  {
    var rows := GroupRows(db, credits);
    forall x | x in rows
      ensures x.points >= 0 && x.avgPoints >= 0.0
    {
      var i :| 0 <= i < |rows| && rows[i] == x;
      GroupPointsNonNegative(db, credits, DevKeys(credits)[i]);
    }
  }

  lemma GroupPointsNonNegative(db: Db, credits: seq<Credit>, dev: Option<string>)
    requires forall c :: c in credits ==> PointsOr0(db, c.m.issue) >= 0
    ensures RowForDev(db, credits, dev).points >= 0
    ensures RowForDev(db, credits, dev).avgPoints >= 0.0
  {
    var mine := DeliveredOf(credits, dev);
    SumWhereLe(credits, (c: Credit) => c.dev == dev && CreditDelivered(c), CreditPoints(db));
    var sample := PointsSample(db, mine);
    forall j | 0 <= j < |sample|
      ensures 0.0 <= sample[j]
    {
      assert mine[j] in mine;
    }
    MeanNonNegative(sample);
  }

  /** The groups are keyed by name, not by user: two assignees who show the
      same name are one row, and all users missing from the users table share
      the NULL row. */
  lemma SameNameOneGroup(db: Db, cycleIds: set<CycleId>, project: ProjectId, f: Filter, c1: Credit, c2: Credit)
    requires cycleIds != {}
    requires c1 in AllCredits(db, cycleIds, project, f) && c2 in AllCredits(db, cycleIds, project, f)
    requires c1.dev == c2.dev
    ensures var r := ComputeMemberMetrics(db, cycleIds, project, f);
      r.Ok? ==> exists k :: 0 <= k < |r.value| && r.value[k].dev == c1.dev && r.value[k].dev == c2.dev
  {
  }
}

=== FILE: productivity.dfy ===
/** Average delivered tasks and average delivered points per assignee
    (`compute_productivity_avg_per_member`, `compute_points_avg_per_member`).
    Both work in two stages: first the set of issues delivered in the
    selected cycles under the label and state filters; then the assignee rows
    of those issues, narrowed by the assignee filter, grouped per assignee. */
module Productivity {
  import opened Base
  import opened Store
  import opened Filters
  import opened Estimation
  import opened Delivery

  /** A live membership row of a selected cycle whose issue was completed in
      that cycle's window and passes the label and state filters. */
  predicate DeliveredRow(db: Db, m: Member, cycleIds: set<CycleId>, project: ProjectId, f: Filter)
  {
    && InCycles(m, cycleIds, project)
    && Live(m)
    && DeliveredIn(m.issue.completedAt, m.cycle)
    && PassesTask(db, m.link.issue, m.issue, f)
  }

  /** The `delivered` CTE: distinct issue ids. */
  function DeliveredSet(db: Db, cycleIds: set<CycleId>, project: ProjectId, f: Filter): set<IssueId>
  {
    set m | m in Members(db) && DeliveredRow(db, m, cycleIds, project, f) :: m.link.issue
  }

  /** The live assignee rows of delivered issues that the assignee filter
      lets through: the rows the per-assignee groups are built from. */
  function CreditRows(db: Db, delivered: set<IssueId>, f: Filter): (r: seq<IssueAssignee>)
    ensures forall ia :: ia in r <==>
      ia in db.issueAssignees && !ia.deleted && ia.issue in delivered && AssigneeAllowed(ia.assignee, f)
  {
    Where(db.issueAssignees, (ia: IssueAssignee) => !ia.deleted && ia.issue in delivered && AssigneeAllowed(ia.assignee, f))
  }

  /** The groups of `GROUP BY ia.assignee_id`, once each. */
  function Credited(rows: seq<IssueAssignee>): (r: seq<UserId>)
    ensures NoDup(r)
    ensures forall a :: a in r <==> exists ia :: ia in rows && ia.assignee == a
  {
    var all := MapSeq(rows, (ia: IssueAssignee) => ia.assignee);
    assert forall ia :: ia in rows ==> ia.assignee in all by {
      forall ia | ia in rows ensures ia.assignee in all {
        var k :| 0 <= k < |rows| && rows[k] == ia;
        assert all[k] == ia.assignee;
      }
    }
    Distinct(all)
  }

  /** `COUNT(DISTINCT ia.issue_id)` of one group. */
  function TasksOf(rows: seq<IssueAssignee>, a: UserId): set<IssueId>
  {
    set ia | ia in rows && ia.assignee == a :: ia.issue
  }

  /** The group keys of `GROUP BY ia.assignee_id`, as a set. */
  function Assignees(rows: seq<IssueAssignee>): set<UserId>
  {
    set ia | ia in rows :: ia.assignee
  }

  /** `r` is the average, over the distinct assignees of `rows`, of the
      per-group value `g`: `r` times the number of groups is the sum of `g`
      over the groups (vacuous without rows, where `COALESCE` gives 0). */
  predicate GroupAverage(r: real, rows: seq<IssueAssignee>, g: UserId -> real)
  {
    rows != [] ==> r * (|Assignees(rows)| as real) == SetSum(Assignees(rows), g)
  }

  /** `cnt` of each group, as a function of the group key. */
  function GroupTasks(rows: seq<IssueAssignee>): UserId -> real
  {
    (a: UserId) => |TasksOf(rows, a)| as real
  }

  function TaskCounts(rows: seq<IssueAssignee>, users: seq<UserId>): (r: seq<real>)
    ensures |r| == |users|
    ensures forall k :: 0 <= k < |users| ==> r[k] == |TasksOf(rows, users[k])| as real
  {
    MapSeq(users, (a: UserId) => |TasksOf(rows, a)| as real)
  }

  /** `COALESCE(AVG(cnt), 0)` over the groups of the given credited rows:
      the distinct-task counts of the assignees, averaged. */
  function MeanTasks(rows: seq<IssueAssignee>, delivered: set<IssueId>): (r: real)
    requires forall ia :: ia in rows ==> ia.issue in delivered
    ensures rows == [] ==> r == 0.0
    ensures GroupAverage(r, rows, GroupTasks(rows))
    ensures rows != [] ==> 1.0 <= r <= |delivered| as real
  {
    TaskCountBounds(rows, Credited(rows), delivered);
    TasksGroupMean(rows);
    Mean(TaskCounts(rows, Credited(rows)))
  }

  lemma TasksGroupMean(rows: seq<IssueAssignee>)
    ensures GroupAverage(Mean(TaskCounts(rows, Credited(rows))), rows, GroupTasks(rows))
  {
    var users := Credited(rows);
    var counts := TaskCounts(rows, users);
    assert forall k :: 0 <= k < |users| ==> counts[k] == GroupTasks(rows)(users[k]);
    GroupMean(rows, users, GroupTasks(rows), counts);
  }

  /** `compute_productivity_avg_per_member`: 0 when no cycle is selected and
      when no assignee row survives; otherwise the mean, over the credited
      assignees, of their distinct delivered tasks, so at least one task and
      at most every delivered task. */
  function AvgTasksPerMember(db: Db, cycleIds: set<CycleId>, project: ProjectId, f: Filter): (r: real)
    ensures cycleIds == {} ==> r == 0.0
    ensures CreditRows(db, DeliveredSet(db, cycleIds, project, f), f) == [] ==> r == 0.0
    ensures var rows := CreditRows(db, DeliveredSet(db, cycleIds, project, f), f);
      GroupAverage(r, rows, GroupTasks(rows))
    ensures CreditRows(db, DeliveredSet(db, cycleIds, project, f), f) != [] ==>
              1.0 <= r <= |DeliveredSet(db, cycleIds, project, f)| as real
  {
    if cycleIds == {} then
      NoCyclesNoCredit(db, cycleIds, project, f);
      0.0
    else
      var delivered := DeliveredSet(db, cycleIds, project, f);
      MeanTasks(CreditRows(db, delivered, f), delivered)
  }

  /** The average over the groups of a per-group value, times the number of
      groups, is the sum of that value over the distinct assignees. */
  lemma GroupMean(rows: seq<IssueAssignee>, users: seq<UserId>, g: UserId -> real, sample: seq<real>)
    requires NoDup(users)
    requires forall a :: a in users <==> exists ia :: ia in rows && ia.assignee == a
    requires |sample| == |users|
    requires forall k :: 0 <= k < |users| ==> sample[k] == g(users[k])
    ensures GroupAverage(Mean(sample), rows, g)
  {
    NoRowsNoGroups(rows, users);
    if rows != [] {
      assert Elems(users) == Assignees(rows);
      MeanOverKeys(users, g, sample);
    }
  }

  /** Every group counts between one task and all delivered tasks. */
  lemma TaskCountBounds(rows: seq<IssueAssignee>, users: seq<UserId>, delivered: set<IssueId>)
    requires forall ia :: ia in rows ==> ia.issue in delivered
    requires forall a :: a in users <==> exists ia :: ia in rows && ia.assignee == a
    ensures rows == [] ==> Mean(TaskCounts(rows, users)) == 0.0
    ensures rows != [] ==> 1.0 <= Mean(TaskCounts(rows, users)) <= |delivered| as real
  {
    var counts := TaskCounts(rows, users);
    NoRowsNoGroups(rows, users);
    if rows != [] {
      assert rows[0] in rows;
      assert rows[0].assignee in users;
      forall k | 0 <= k < |counts|
        ensures 1.0 <= counts[k] <= |delivered| as real
      {
        var a := users[k];
        assert a in users;
        var ia :| ia in rows && ia.assignee == a;
        assert ia.issue in TasksOf(rows, a);
        assert TasksOf(rows, a) <= delivered;
        SubsetCard(TasksOf(rows, a), delivered);
      }
      MeanBounds(counts, 1.0, |delivered| as real);
    }
  }

  /** Only allowed assignees form groups, and each group has a delivered
      issue: the assignee filter narrows the groups, not the delivered set. */
  lemma GroupsAreAllowedAssignees(db: Db, cycleIds: set<CycleId>, project: ProjectId, f: Filter, a: UserId)
    requires a in Credited(CreditRows(db, DeliveredSet(db, cycleIds, project, f), f))
    ensures AssigneeAllowed(a, f)
    ensures TasksOf(CreditRows(db, DeliveredSet(db, cycleIds, project, f), f), a) != {}
    ensures TasksOf(CreditRows(db, DeliveredSet(db, cycleIds, project, f), f), a) <= DeliveredSet(db, cycleIds, project, f)
  {
    var rows := CreditRows(db, DeliveredSet(db, cycleIds, project, f), f);
    var ia :| ia in rows && ia.assignee == a;
    assert ia.issue in TasksOf(rows, a);
  }

  /** With the assignee filter set to one person who delivered something, the
      average is that person's delivered-task count (A with 3 deliveries and
      B with 1, filtered to {A}, gives 3.0). */
  lemma SingleAssigneeAverage(db: Db, cycleIds: set<CycleId>, project: ProjectId, f: Filter, a: UserId)
    requires cycleIds != {}
    requires f.assignees == {a}
    requires TasksOf(CreditRows(db, DeliveredSet(db, cycleIds, project, f), f), a) != {}
    ensures AvgTasksPerMember(db, cycleIds, project, f)
            == |TasksOf(CreditRows(db, DeliveredSet(db, cycleIds, project, f), f), a)| as real
  {
    var rows := CreditRows(db, DeliveredSet(db, cycleIds, project, f), f);
    var users := Credited(rows);
    OnlyOneGroup(rows, users, a);
    var counts := TaskCounts(rows, users);
    assert counts == [|TasksOf(rows, a)| as real];
    assert SumReal(counts) == counts[0] + SumReal([]);
  }

  /** When every row belongs to `a` and there is one, the groups are `[a]`. */
  lemma OnlyOneGroup(rows: seq<IssueAssignee>, users: seq<UserId>, a: UserId)
    requires forall ia :: ia in rows ==> ia.assignee == a
    requires TasksOf(rows, a) != {}
    requires NoDup(users)
    requires forall b :: b in users <==> exists ia :: ia in rows && ia.assignee == b
    ensures users == [a]
  {
    var id :| id in TasksOf(rows, a);
    assert a in users;
    forall x | x in users
      ensures x == a
    {
      var ia :| ia in rows && ia.assignee == x;
    }
    assert Elems(users) == {a};
    NoDupCard(users);
    assert |users| == 1;
    assert users[0] in users;
    assert users == [users[0]];
  }

  /** There is a group exactly when there is a row. */
  lemma NoRowsNoGroups(rows: seq<IssueAssignee>, users: seq<UserId>)
    requires forall a :: a in users <==> exists ia :: ia in rows && ia.assignee == a
    ensures rows == [] <==> users == []
  {
    NoMemberEmpty(rows);
    NoMemberEmpty(users);
    forall ia | ia in rows
      ensures ia.assignee in users
    {
    }
  }

  /** Without selected cycles nothing is delivered and no row is credited. */
  lemma NoCyclesNoCredit(db: Db, cycleIds: set<CycleId>, project: ProjectId, f: Filter)
    requires cycleIds == {}
    ensures DeliveredSet(db, cycleIds, project, f) == {}
    ensures CreditRows(db, DeliveredSet(db, cycleIds, project, f), f) == []
  {
    NoMemberEmpty(CreditRows(db, DeliveredSet(db, cycleIds, project, f), f));
  }

  /** With no assignee row for any delivered issue (or nothing delivered),
      the average is 0. */
  lemma NoCreditNoAverage(db: Db, cycleIds: set<CycleId>, project: ProjectId, f: Filter)
    requires forall ia :: ia in db.issueAssignees && !ia.deleted ==>
               ia.issue !in DeliveredSet(db, cycleIds, project, f)
    ensures AvgTasksPerMember(db, cycleIds, project, f) == 0.0
  {
    NoMemberEmpty(CreditRows(db, DeliveredSet(db, cycleIds, project, f), f));
  }

  /** Selecting more cycles or widening the label and state filters can only
      add delivered issues. */
  lemma DeliveredSetMonotone(db: Db, cs: set<CycleId>, ds: set<CycleId>, project: ProjectId, f: Filter, g: Filter)
    requires cs <= ds
    requires Widens(f, g)
    ensures DeliveredSet(db, cs, project, f) <= DeliveredSet(db, ds, project, g)
  {
    forall id | id in DeliveredSet(db, cs, project, f)
      ensures id in DeliveredSet(db, ds, project, g)
    {
      var m :| m in Members(db) && DeliveredRow(db, m, cs, project, f) && m.link.issue == id;
      assert f.labels != {} && g.labels != {} ==> f.labels <= g.labels;
      if g.labels != {} {
        var il :| il in db.issueLabels && il.issue == id && !il.deleted && il.labelId in f.labels;
        assert il.labelId in g.labels;
      }
    }
  }

  // ---- points ---------------------------------------------------------

  /** The issue behind an assignee row resolves its estimate (the inner join
      on issues has a row for every delivered id). */
  predicate IdResolvable(db: Db, id: IssueId)
  {
    id in db.issues ==> Resolvable(db, db.issues[id])
  }

  function IdPoints(db: Db, id: IssueId): int
  {
    if id in db.issues then PointsOr0(db, db.issues[id]) else 0
  }

  /** `SUM(points)` of one group: one term per assignee row, so a duplicated
      assignee row counts its issue twice. */
  function PointsOfAssignee(db: Db, rows: seq<IssueAssignee>, a: UserId): int
  {
    SumOf(Where(rows, (ia: IssueAssignee) => ia.assignee == a), (ia: IssueAssignee) => IdPoints(db, ia.issue))
  }

  /** `points_sum` of each group, as a function of the group key. */
  function GroupPoints(db: Db, rows: seq<IssueAssignee>): UserId -> real
  {
    (a: UserId) => PointsOfAssignee(db, rows, a) as real
  }

  function PointSums(db: Db, rows: seq<IssueAssignee>, users: seq<UserId>): (r: seq<real>)
    ensures |r| == |users|
    ensures forall k :: 0 <= k < |users| ==> r[k] == PointsOfAssignee(db, rows, users[k]) as real
  {
    MapSeq(users, (a: UserId) => PointsOfAssignee(db, rows, a) as real)
  }

  /** `COALESCE(AVG(points_sum), 0)`. The estimate cast is evaluated for every
      credited row, so one row whose estimate text is not a number aborts the
      query. */
  function AvgPointsPerMember(db: Db, cycleIds: set<CycleId>, project: ProjectId, f: Filter): (r: Result<real>)
    ensures cycleIds == {} ==> r == Ok(0.0)
    ensures r.Fail? <==> (cycleIds != {} &&
      exists ia :: ia in CreditRows(db, DeliveredSet(db, cycleIds, project, f), f) && !IdResolvable(db, ia.issue))
    ensures r.Ok? && CreditRows(db, DeliveredSet(db, cycleIds, project, f), f) == [] ==> r.value == 0.0
    ensures var rows := CreditRows(db, DeliveredSet(db, cycleIds, project, f), f);
      r.Ok? ==> GroupAverage(r.value, rows, GroupPoints(db, rows))
  {
    if cycleIds == {} then
      NoCyclesNoCredit(db, cycleIds, project, f);
      Ok(0.0)
    else
      var rows := CreditRows(db, DeliveredSet(db, cycleIds, project, f), f);
      if exists ia :: ia in rows && !IdResolvable(db, ia.issue) then Fail(CastFailure)
      else Ok(MeanPoints(db, rows))
  }

  /** `COALESCE(AVG(points_sum), 0)` over the groups of the given credited
      rows: the assignees' summed points, averaged. */
  function MeanPoints(db: Db, rows: seq<IssueAssignee>): (r: real)
    ensures rows == [] ==> r == 0.0
    ensures GroupAverage(r, rows, GroupPoints(db, rows))
  {
    NoRowsNoGroups(rows, Credited(rows));
    PointsGroupMean(db, rows);
    Mean(PointSums(db, rows, Credited(rows)))
  }

  lemma PointsGroupMean(db: Db, rows: seq<IssueAssignee>)
    ensures GroupAverage(Mean(PointSums(db, rows, Credited(rows))), rows, GroupPoints(db, rows))
  {
    var users := Credited(rows);
    var sums := PointSums(db, rows, users);
    assert forall k :: 0 <= k < |users| ==> sums[k] == GroupPoints(db, rows)(users[k]);
    GroupMean(rows, users, GroupPoints(db, rows), sums);
  }

  /** The points average of a single filtered assignee is that assignee's
      summed points. */
  lemma SingleAssigneePoints(db: Db, cycleIds: set<CycleId>, project: ProjectId, f: Filter, a: UserId)
    requires cycleIds != {}
    requires f.assignees == {a}
    requires TasksOf(CreditRows(db, DeliveredSet(db, cycleIds, project, f), f), a) != {}
    requires AvgPointsPerMember(db, cycleIds, project, f).Ok?
    ensures AvgPointsPerMember(db, cycleIds, project, f).value
            == PointsOfAssignee(db, CreditRows(db, DeliveredSet(db, cycleIds, project, f), f), a) as real
  {
    var rows := CreditRows(db, DeliveredSet(db, cycleIds, project, f), f);
    var users := Credited(rows);
    OnlyOneGroup(rows, users, a);
    var sums := PointSums(db, rows, users);
    MeanOfOne(sums);
    assert AvgPointsPerMember(db, cycleIds, project, f).value == MeanPoints(db, rows);
  }

  /** Non-negative estimates give a non-negative points average. */
  lemma PointsAverageNonNegative(db: Db, cycleIds: set<CycleId>, project: ProjectId, f: Filter)
    requires AvgPointsPerMember(db, cycleIds, project, f).Ok?
    requires forall id :: IdPoints(db, id) >= 0
    ensures AvgPointsPerMember(db, cycleIds, project, f).value >= 0.0
  {
    if cycleIds != {} {
      var rows := CreditRows(db, DeliveredSet(db, cycleIds, project, f), f);
      var users := Credited(rows);
      var sums := PointSums(db, rows, users);
      forall k | 0 <= k < |sums|
        ensures 0.0 <= sums[k]
      {
        SumWhereLe(rows, (ia: IssueAssignee) => ia.assignee == users[k], (ia: IssueAssignee) => IdPoints(db, ia.issue));
      }
      MeanNonNegative(sums);
    }
  }
}

=== FILE: rollover.dfy ===
/** The rolled-over task count (`compute_rolled_tasks_count`): distinct issues
    of the selected cycles that were not delivered in a base cycle's window and
    were carried into a later-starting cycle of the same project. */
module Rollover {
  import opened Base
  import opened Store
  import opened Filters
  import opened Delivery

  /** The base rows: membership rows of the selected cycles of the project,
      with a live cycle (that has a start date) and a live issue that pass the
      filters. The membership row's own soft-delete marker is not checked. */
  predicate InBase(db: Db, m: Member, cycleIds: set<CycleId>, project: ProjectId, f: Filter)
  {
    && InCycles(m, cycleIds, project)
    && !m.cycle.deleted
    && !m.issue.deleted
    && m.cycle.start.Some?
    && Passes(db, m.link.issue, m.issue, f)
  }

  /** A live membership of issue `id`, in the project, in a live cycle whose
      start is strictly later than `start`. The later cycle need not be one of
      the selected cycles. */
  predicate HasLaterCycle(db: Db, id: IssueId, project: ProjectId, start: Instant)
  {
    exists ci2 :: ci2 in db.cycleIssues && LaterMembership(db, ci2, id, project, start)
  }

  predicate LaterMembership(db: Db, ci2: CycleIssue, id: IssueId, project: ProjectId, start: Instant)
  {
    && ci2.issue == id
    && ci2.project == project
    && !ci2.deleted
    && ci2.cycle in db.cycles
    && !db.cycles[ci2.cycle].deleted
    && db.cycles[ci2.cycle].start.Some?
    && db.cycles[ci2.cycle].start.value > start
  }

  /** A base row that rolled over: not delivered in its cycle (the query's
      own three-way test) and present in a later cycle. */
  predicate RolledRow(db: Db, m: Member, project: ProjectId)
  {
    && m.cycle.start.Some?
    && UndeliveredAsWritten(m.issue.completedAt, m.cycle)
    && HasLaterCycle(db, m.link.issue, project, m.cycle.start.value)
  }

  /** The distinct issues of the base rows. */
  function BaseIssues(db: Db, cycleIds: set<CycleId>, project: ProjectId, f: Filter): set<IssueId>
  {
    set m | m in Members(db) && InBase(db, m, cycleIds, project, f) :: m.link.issue
  }

  /** The distinct rolled-over issues. */
  function RolledIssues(db: Db, cycleIds: set<CycleId>, project: ProjectId, f: Filter): set<IssueId>
  {
    set m | m in Members(db) && InBase(db, m, cycleIds, project, f) && RolledRow(db, m, project) :: m.link.issue
  }

  /** `rolled_count`: each rolled issue once (so never more than the
      distinct issues of the base), and 0 when no cycle is selected. */
  function RolledCount(db: Db, cycleIds: set<CycleId>, project: ProjectId, f: Filter): (n: nat)
    ensures n == |RolledIssues(db, cycleIds, project, f)|
    ensures cycleIds == {} ==> n == 0
    ensures n <= |BaseIssues(db, cycleIds, project, f)|
    ensures n == 0 <==> forall m :: m in Members(db) && InBase(db, m, cycleIds, project, f) ==> !RolledRow(db, m, project)
  {
    if cycleIds == {} then
      assert RolledIssues(db, cycleIds, project, f) == {};
      RolledEmpty(db, cycleIds, project, f);
      0
    else
      var rolled := RolledIssues(db, cycleIds, project, f);
      SubsetCard(rolled, BaseIssues(db, cycleIds, project, f));
      RolledEmpty(db, cycleIds, project, f);
      |rolled|
  }

  lemma RolledEmpty(db: Db, cycleIds: set<CycleId>, project: ProjectId, f: Filter)
    ensures RolledIssues(db, cycleIds, project, f) == {} <==>
      forall m :: m in Members(db) && InBase(db, m, cycleIds, project, f) ==> !RolledRow(db, m, project)
  {
    forall m | m in Members(db) && InBase(db, m, cycleIds, project, f) && RolledRow(db, m, project)
      ensures m.link.issue in RolledIssues(db, cycleIds, project, f)
    {
    }
  }

  /** The rollover rule in terms of the shared delivery predicate: an issue
      rolled over exactly when some base row of it has a started cycle, was
      not delivered in that cycle's window, and the issue has a live
      membership of the project in a live cycle starting strictly later. */
  lemma RolledIff(db: Db, cycleIds: set<CycleId>, project: ProjectId, f: Filter, id: IssueId)
    ensures id in RolledIssues(db, cycleIds, project, f) <==>
      exists m :: && m in Members(db) && m.link.issue == id
                  && m.link.cycle in cycleIds && m.link.project == project
                  && !m.cycle.deleted && !m.issue.deleted
                  && Passes(db, id, m.issue, f)
                  && m.cycle.start.Some?
                  && !DeliveredIn(m.issue.completedAt, m.cycle)
                  && HasLaterCycle(db, id, project, m.cycle.start.value)
  {
  }

  /** A soft-deleted membership row still places an issue in the base: only
      the later-cycle test looks at membership deletion. */
  lemma DeletedLinkStillInBase(db: Db, cycleIds: set<CycleId>, project: ProjectId, f: Filter, m: Member)
    requires m in Members(db) && m.link.deleted
    requires InCycles(m, cycleIds, project) && !m.cycle.deleted && !m.issue.deleted
    requires m.cycle.start.Some? && Passes(db, m.link.issue, m.issue, f)
    ensures m.link.issue in BaseIssues(db, cycleIds, project, f)
    ensures !DeliveredIn(m.issue.completedAt, m.cycle) && HasLaterCycle(db, m.link.issue, project, m.cycle.start.value)
            ==> m.link.issue in RolledIssues(db, cycleIds, project, f)
  {
  }

  /** A deleted membership row never witnesses a later cycle. */
  lemma DeletedLinkNotLater(db: Db, ci2: CycleIssue, id: IssueId, project: ProjectId, start: Instant)
    requires ci2.deleted
    ensures !LaterMembership(db, ci2, id, project, start)
  {
  }

  /** Selecting more cycles or widening the filter can only add rolled
      issues. */
  lemma RolledMonotone(db: Db, cs: set<CycleId>, ds: set<CycleId>, project: ProjectId, f: Filter, g: Filter)
    requires cs <= ds
    requires Widens(f, g)
    ensures RolledIssues(db, cs, project, f) <= RolledIssues(db, ds, project, g)
    ensures RolledCount(db, cs, project, f) <= RolledCount(db, ds, project, g)
  {
    forall id | id in RolledIssues(db, cs, project, f)
      ensures id in RolledIssues(db, ds, project, g)
    {
      var m :| m in Members(db) && InBase(db, m, cs, project, f) && RolledRow(db, m, project) && m.link.issue == id;
      WidenedFilterAdmits(db, m.link.issue, m.issue, f, g);
    }
    SubsetCard(RolledIssues(db, cs, project, f), RolledIssues(db, ds, project, g));
  }

  /** An issue of a started cycle S1 that was not delivered in S1 and also
      sits in a cycle S2 starting later counts, whatever other (earlier)
      cycles it belongs to. */
  lemma RolledIntoLaterSprint(db: Db, cycleIds: set<CycleId>, project: ProjectId, f: Filter, m: Member, ci2: CycleIssue)
    requires m in Members(db) && InBase(db, m, cycleIds, project, f)
    requires !DeliveredIn(m.issue.completedAt, m.cycle)
    requires ci2 in db.cycleIssues && LaterMembership(db, ci2, m.link.issue, project, m.cycle.start.value)
    ensures m.link.issue in RolledIssues(db, cycleIds, project, f)
    ensures RolledCount(db, cycleIds, project, f) >= 1
  {
    assert RolledRow(db, m, project);
  }
}

=== FILE: rows.dfy ===
/** The three detail lenses (`load_issues_for_cycles`,
    `load_issues_for_current_sprint`, `load_backlog_issues`): their estimate,
    start-of-work, alert and delivery columns, their row order, and the
    Entregue / Não entregue / Com alerta row filter the page applies to them. */
module Rows {
  import opened Base
  import opened Text
  import opened Store
  import opened Filters
  import opened Estimation
  import opened Delivery
  import opened Sorting
  import opened Selection
  import opened Alerts
  import SprintMetrics

  // ---- dates ---------------------------------------------------------------

  /** `::date` keeps the order of instants. */
  lemma DayOfMonotone(t1: Instant, t2: Instant)
    requires t1 <= t2
    ensures DayOf(t1) <= DayOf(t2)
  {
  }

  /** `MIN(t)::date`: the day of the earliest instant, which is the earliest
      of their days. */
  function FirstDay(ts: seq<Instant>): (r: Option<Day>)
    ensures r.None? <==> ts == []
    ensures r.Some? ==> (exists t :: t in ts && DayOf(t) == r.value) && forall t :: t in ts ==> r.value <= DayOf(t)
  {
    match MinOf(ts)
    case None => None
    case Some(t) =>
      forall u | u in ts
        ensures DayOf(t) <= DayOf(u)
      {
        DayOfMonotone(t, u);
      }
      Some(DayOf(t))
  }

  function Coalesce<T>(a: Option<T>, b: Option<T>): Option<T>
  {
    if a.Some? then a else b
  }

  /** A live state-change activity of issue `id` into a state of the
      'started' group. */
  predicate StartedActivity(db: Db, a: IssueActivity, id: IssueId)
  {
    && a.issue == id && !a.deleted && a.field == Some("state")
    && a.newIdentifier.Some? && a.newIdentifier.value in db.states
    && db.states[a.newIdentifier.value].group == Started
  }

  /** A live saved version of issue `id` in a state of the 'started' group. */
  predicate StartedVersion(db: Db, v: IssueVersion, id: IssueId)
  {
    v.issue == id && !v.deleted && v.state.Some? && v.state.value in db.states && db.states[v.state.value].group == Started
  }

  function FirstStartedActivity(db: Db, id: IssueId): Option<Day>
  {
    FirstDay(MapSeq(Where(db.activities, a => StartedActivity(db, a, id)), (a: IssueActivity) => a.createdAt))
  }

  function FirstStartedVersion(db: Db, id: IssueId): Option<Day>
  {
    FirstDay(MapSeq(Where(db.versions, v => StartedVersion(db, v, id)), (v: IssueVersion) => v.lastSavedAt))
  }

  /** The state group of an issue through `LEFT JOIN states`. */
  predicate InGroup(db: Db, issue: Issue, g: StateGroup)
  {
    StateOf(db, issue).Some? && StateOf(db, issue).value.group == g
  }

  /** "Iniciada em" of the sprint lenses: for a started or completed issue,
      the first move into a started state, else the first saved version in a
      started state, else the issue's start date; NULL otherwise. */
  function StartedOn(db: Db, id: IssueId, issue: Issue): Option<Day>
  {
    if InGroup(db, issue, Started) || InGroup(db, issue, Completed)
    then Coalesce(FirstStartedActivity(db, id), Coalesce(FirstStartedVersion(db, id), issue.startDate))
    else None
  }

  /** The fallback order of "Iniciada em", and its silence outside the
      started and completed groups. */
  lemma StartedOnPrecedence(db: Db, id: IssueId, issue: Issue)
    ensures !InGroup(db, issue, Started) && !InGroup(db, issue, Completed) ==> StartedOn(db, id, issue).None?
    ensures (InGroup(db, issue, Started) || InGroup(db, issue, Completed))
            && (exists a :: a in db.activities && StartedActivity(db, a, id)) ==>
      && StartedOn(db, id, issue).Some?
      && (exists a :: a in db.activities && StartedActivity(db, a, id) && DayOf(a.createdAt) == StartedOn(db, id, issue).value)
      && (forall a :: a in db.activities && StartedActivity(db, a, id) ==> StartedOn(db, id, issue).value <= DayOf(a.createdAt))
    ensures (InGroup(db, issue, Started) || InGroup(db, issue, Completed))
            && (forall a :: a in db.activities ==> !StartedActivity(db, a, id))
            && (forall v :: v in db.versions ==> !StartedVersion(db, v, id)) ==>
      StartedOn(db, id, issue) == issue.startDate
  {
    var acts := Where(db.activities, a => StartedActivity(db, a, id));
    var ts := MapSeq(acts, (a: IssueActivity) => a.createdAt);
    forall t | t in ts
      ensures exists a :: a in acts && a.createdAt == t
    {
      var k :| 0 <= k < |ts| && ts[k] == t;
      assert acts[k] in acts;
    }
    forall a | a in acts
      ensures a.createdAt in ts
    {
      var k :| 0 <= k < |acts| && acts[k] == a;
      assert ts[k] == a.createdAt;
    }
    var vs := Where(db.versions, v => StartedVersion(db, v, id));
    NoMemberEmpty(acts);
    NoMemberEmpty(vs);
  }

  /** "Iniciada em" of the backlog lens: only a started issue has one, taken
      from its versions, else its start date. */
  function BacklogStartedOn(db: Db, id: IssueId, issue: Issue): Option<Day>
  {
    if InGroup(db, issue, Started) then Coalesce(FirstStartedVersion(db, id), issue.startDate) else None
  }

  // ---- the assignee column -------------------------------------------------

  /** `COALESCE(u.display_name, u.username)` of the live assignee rows of the
      issue that join a user, in row order. */
  function AssigneeNames(db: Db, ias: seq<IssueAssignee>, id: IssueId): (r: seq<string>)
    ensures |r| <= |ias|
  {
    if |ias| == 0 then []
    else
      var ia := ias[0];
      var rest := AssigneeNames(db, ias[1..], id);
      if ia.issue == id && !ia.deleted && DevName(db, ia.assignee).Some? then [DevName(db, ia.assignee).value] + rest
      else rest
  }

  /** "Responsáveis": the names joined by ", ", NULL without any. */
  function AssigneesText(db: Db, id: IssueId): Option<string>
  {
    var names := AssigneeNames(db, db.issueAssignees, id);
    if names == [] then None else Some(Join(names, ", "))
  }

  // ---- the sprint lenses ---------------------------------------------------

  const DeliveredText: string := "Entregue"
  const UndeliveredText: string := "Não entregue"

  /** The estimate column: the chain without its final 0 default (read only
      where it resolves; otherwise the whole query aborts). */
  function EstimateColumn(db: Db, issue: Issue): Option<int>
  {
    match EstimateOf(db, issue)
    case Ok(e) => e
    case Fail(_) => None
  }

  /** One row of a sprint lens. `sprintStart` and `issue` are the sort keys. */
  datatype IssueRow = IssueRow(
    sprint: string,
    sprintStart: Option<Instant>,
    issue: IssueId,
    name: string,
    stateName: Option<string>,
    createdOn: Day,
    startedOn: Option<Day>,
    completedOn: Option<Day>,
    estimate: Option<int>,
    priority: Option<string>,
    alerts: string,
    delivery: string,
    assignees: Option<string>)

  function StateName(db: Db, issue: Issue): Option<string>
  {
    if StateOf(db, issue).Some? then Some(StateOf(db, issue).value.name) else None
  }

  function CompletedOn(issue: Issue): Option<Day>
  {
    if issue.completedAt.Some? then Some(DayOf(issue.completedAt.value)) else None
  }

  function SprintRowOf(db: Db, m: Member): IssueRow
  {
    var est := EstimateColumn(db, m.issue);
    IssueRow(
      m.cycle.name, m.cycle.start, m.link.issue, m.issue.name, StateName(db, m.issue),
      DayOf(m.issue.createdAt), StartedOn(db, m.link.issue, m.issue), CompletedOn(m.issue),
      est, m.issue.priority, AlertText(est, m.issue.priority),
      if DeliveredIn(m.issue.completedAt, m.cycle) then DeliveredText else UndeliveredText,
      AssigneesText(db, m.link.issue))
  }

  /** The columns of a row whose estimate resolves: the estimate follows the
      chain, the alert text is empty exactly when the issue is not an alert,
      and the delivery text reflects delivery inside the row's own cycle. */
  lemma SprintRowColumns(db: Db, m: Member)
    requires Resolvable(db, m.issue)
    ensures SprintRowOf(db, m).issue == m.link.issue
    ensures SprintRowOf(db, m).estimate == EstimateOf(db, m.issue).value
    ensures m.issue.point.Some? ==> SprintRowOf(db, m).estimate == m.issue.point
    ensures SprintRowOf(db, m).alerts == "" <==> !IsAlert(db, m.issue)
    ensures SprintRowOf(db, m).delivery == DeliveredText <==> DeliveredIn(m.issue.completedAt, m.cycle)
    ensures SprintRowOf(db, m).delivery == UndeliveredText <==> !DeliveredIn(m.issue.completedAt, m.cycle)
  {
    AlertTextCases(EstimateColumn(db, m.issue), m.issue.priority);
  }

  /** `ORDER BY c.start_date NULLS FIRST, c.name, i.id`. */
  predicate IssueRowLe(a: IssueRow, b: IssueRow)
  {
    || SprintMetrics.StartsBefore(a.sprintStart, b.sprintStart)
    || (a.sprintStart == b.sprintStart && a.sprint != b.sprint && LexLe(a.sprint, b.sprint))
    || (a.sprintStart == b.sprintStart && a.sprint == b.sprint && a.issue <= b.issue)
  }

  lemma IssueRowLeTotal()
    ensures Total(IssueRowLe)
  {
    forall a: IssueRow, b: IssueRow
      ensures IssueRowLe(a, b) || IssueRowLe(b, a)
    {
      LexLeTotal(a.sprint, b.sprint);
    }
  }

  lemma IssueRowLeTransitive(a: IssueRow, b: IssueRow, c: IssueRow)
    requires IssueRowLe(a, b) && IssueRowLe(b, c)
    ensures IssueRowLe(a, c)
  {
    if a.sprintStart == b.sprintStart == c.sprintStart && a.sprint != b.sprint && b.sprint != c.sprint {
      LexLeTransitive(a.sprint, b.sprint, c.sprint);
      if a.sprint == c.sprint {
        LexLeAntisymmetric(a.sprint, b.sprint);
      }
    }
  }

  /** `ORDER BY` order is a total preorder on the detail rows. */
  lemma IssueRowOrder()
    ensures Total(IssueRowLe)
    ensures forall a, b, c :: IssueRowLe(a, b) && IssueRowLe(b, c) ==> IssueRowLe(a, c)
  {
    IssueRowLeTotal();
    forall a, b, c | IssueRowLe(a, b) && IssueRowLe(b, c)
      ensures IssueRowLe(a, c)
    {
      IssueRowLeTransitive(a, b, c);
    }
  }

  /** The detail row of each membership row, in the rows' order. */
  function SprintRows(db: Db, rows: seq<Member>): (r: seq<IssueRow>)
    ensures |r| == |rows|
    ensures forall k :: 0 <= k < |rows| ==> r[k] == SprintRowOf(db, rows[k])
  {
    MapSeq(rows, (m: Member) => SprintRowOf(db, m))
  }

  /** A sprint lens over the given membership rows: one output row per
      membership row, in ORDER BY order; a single estimate text that does not
      cast aborts the query. */
  function SprintLens(db: Db, rows: seq<Member>): (r: Result<seq<IssueRow>>)
    ensures r.Fail? <==> ScopeHasCastFailure(db, rows)
    ensures r.Ok? ==> Sorted(r.value, IssueRowLe)
    ensures r.Ok? ==> |r.value| == |rows|
    ensures r.Ok? ==> multiset(r.value) == multiset(SprintRows(db, rows))
    ensures r.Ok? ==> forall x :: x in r.value <==> exists m :: m in rows && x == SprintRowOf(db, m)
  {
    if ScopeHasCastFailure(db, rows) then Fail(CastFailure)
    else
      var out := SprintRows(db, rows);
      IssueRowLeTotal();
      ImageMembership(db, rows, out);
      Ok(SortBy(out, IssueRowLe))
  }

  lemma ImageMembership(db: Db, rows: seq<Member>, out: seq<IssueRow>)
    requires |out| == |rows| && forall k :: 0 <= k < |rows| ==> out[k] == SprintRowOf(db, rows[k])
    ensures forall x :: x in out <==> exists m :: m in rows && x == SprintRowOf(db, m)
  {
    forall m | m in rows
      ensures SprintRowOf(db, m) in out
    {
      var k :| 0 <= k < |rows| && rows[k] == m;
      assert out[k] == SprintRowOf(db, m);
    }
  }

  /** `load_issues_for_cycles`: the empty table without selected cycles. */
  function CycleLens(db: Db, cycleIds: set<CycleId>, project: ProjectId, f: Filter): (r: Result<seq<IssueRow>>)
    ensures cycleIds == {} ==> r == Ok([])
    ensures cycleIds != {} ==> r == SprintLens(db, ScopeRows(db, cycleIds, project, f))
  {
    if cycleIds == {} then Ok([]) else SprintLens(db, ScopeRows(db, cycleIds, project, f))
  }

  /** `load_issues_for_current_sprint`, with the clock a parameter. */
  function CurrentLens(db: Db, project: ProjectId, f: Filter, now: Instant): Result<seq<IssueRow>>
  {
    SprintLens(db, CurrentRows(db, project, f, now))
  }

  /** The current-sprint lens is the cycles lens on the cycles running at
      `now`, row for row. */
  lemma CurrentLensIsActiveCycles(db: Db, project: ProjectId, f: Filter, now: Instant)
    ensures CurrentLens(db, project, f, now) == CycleLens(db, ActiveCycles(db, now), project, f)
  {
    CurrentRowsAreActiveScope(db, project, f, now);
    if ActiveCycles(db, now) == {} {
      NoMemberEmpty(CurrentRows(db, project, f, now));
    }
  }

  // ---- the row filter ------------------------------------------------------

  datatype RowChoice = AllRows | DeliveredOnly | UndeliveredOnly | WithAlerts

  /** The session-state filter value; anything else shows every row. */
  function ChoiceOf(s: string): RowChoice
  {
    if s == "Entregue" then DeliveredOnly
    else if s == "Não entregue" then UndeliveredOnly
    else if s == "Com alerta" then WithAlerts
    else AllRows
  }

  /** `Entrega == ...` or `Alertas.fillna("").str.strip() != ""`. */
  predicate Keeps(choice: RowChoice, x: IssueRow)
  {
    match choice
    case AllRows => true
    case DeliveredOnly => x.delivery == DeliveredText
    case UndeliveredOnly => x.delivery == UndeliveredText
    case WithAlerts => PyStrip(x.alerts) != ""
  }

  /** `Keeps` as the row mask of one choice. */
  function KeepsChoice(choice: RowChoice): IssueRow -> bool
  {
    (x: IssueRow) => Keeps(choice, x)
  }

  /** The page's boolean mask: the kept rows in their order, each as often
      as it occurs; "all" keeps the lens as it is. */
  function FilterRows(rows: seq<IssueRow>, choice: RowChoice): (r: seq<IssueRow>)
    ensures forall x :: x in r <==> x in rows && Keeps(choice, x)
    ensures forall x :: multiset(r)[x] == if Keeps(choice, x) then multiset(rows)[x] else 0
    ensures Sorted(rows, IssueRowLe) ==> Sorted(r, IssueRowLe)
    ensures choice == AllRows ==> r == rows
  {
    var r := Where(rows, KeepsChoice(choice));
    WhereMultiset(rows, KeepsChoice(choice));
    FilterKeepsOrder(rows, KeepsChoice(choice));
    if choice == AllRows then
      WhereAll(rows, KeepsChoice(choice));
      r
    else r
  }

  /** A mask over rows in `ORDER BY` order leaves them in that order. */
  lemma FilterKeepsOrder(rows: seq<IssueRow>, keep: IssueRow -> bool)
    ensures Sorted(rows, IssueRowLe) ==> Sorted(Where(rows, keep), IssueRowLe)
  {
    if Sorted(rows, IssueRowLe) {
      IssueRowOrder();
      forall i, j | 0 <= i < j < |rows|
        ensures IssueRowLe(rows[i], rows[j])
      {
        SortedAll(rows, IssueRowLe, i, j);
      }
      WherePairwise(rows, keep, IssueRowLe);
      var w := Where(rows, keep);
      forall i | 0 < i < |w|
        ensures IssueRowLe(w[i - 1], w[i])
      {
      }
    }
  }

  /** "Com alerta" keeps a row exactly when its issue is an alert. */
  lemma AlertChoiceIsAlert(db: Db, m: Member)
    requires Resolvable(db, m.issue)
    ensures Keeps(WithAlerts, SprintRowOf(db, m)) <==> IsAlert(db, m.issue)
  {
    SprintRowColumns(db, m);
    AlertTextNeverBlank(EstimateColumn(db, m.issue), m.issue.priority);
    assert PyStrip("") == "";
  }

  /** The "Com alerta" rows of the cycles lens name exactly the issues the
      alert counter counts, so the card and the table agree. */
  lemma AlertRowsMatchCounter(db: Db, cycleIds: set<CycleId>, project: ProjectId, f: Filter)
    requires CycleLens(db, cycleIds, project, f).Ok?
    ensures AlertsForCycles(db, cycleIds, project, f).Ok?
    ensures |set x | x in FilterRows(CycleLens(db, cycleIds, project, f).value, WithAlerts) :: x.issue|
            == AlertsForCycles(db, cycleIds, project, f).value
  {
    var lens := CycleLens(db, cycleIds, project, f).value;
    var shown := set x | x in FilterRows(lens, WithAlerts) :: x.issue;
    if cycleIds == {} {
      assert shown == {};
    } else {
      var rows := ScopeRows(db, cycleIds, project, f);
      forall id | id in shown
        ensures id in AlertIssues(db, rows)
      {
        var x :| x in FilterRows(lens, WithAlerts) && x.issue == id;
        var m :| m in rows && x == SprintRowOf(db, m);
        AlertChoiceIsAlert(db, m);
        SprintRowColumns(db, m);
      }
      forall id | id in AlertIssues(db, rows)
        ensures id in shown
      {
        var m :| m in rows && IsAlert(db, m.issue) && m.link.issue == id;
        AlertChoiceIsAlert(db, m);
        SprintRowColumns(db, m);
        assert SprintRowOf(db, m) in FilterRows(lens, WithAlerts);
      }
      assert shown == AlertIssues(db, rows);
    }
  }

  /** "Entregue" and "Não entregue" split a sprint lens between them. */
  lemma {:induction false} DeliveryChoicesPartition(rows: seq<IssueRow>)
    requires forall x :: x in rows ==> x.delivery == DeliveredText || x.delivery == UndeliveredText
    ensures |FilterRows(rows, DeliveredOnly)| + |FilterRows(rows, UndeliveredOnly)| == |rows|
  {
    if |rows| > 0 {
      assert rows[0] in rows;
      assert forall x :: x in rows[1..] ==> x in rows;
      DeliveryChoicesPartition(rows[1..]);
    }
  }

  /** Every row a sprint lens produces carries one of the two delivery texts. */
  lemma SprintLensDeliveryTexts(db: Db, rows: seq<Member>)
    ensures SprintLens(db, rows).Ok? ==>
      forall x :: x in SprintLens(db, rows).value ==> x.delivery == DeliveredText || x.delivery == UndeliveredText
  {
  }

  // ---- the backlog lens ----------------------------------------------------

  /** `i.project_id = %s AND i.deleted_at IS NULL AND s."group" = 'backlog'`
      and the filters. */
  predicate InBacklog(db: Db, id: IssueId, issue: Issue, project: ProjectId, f: Filter)
  {
    issue.project == project && !issue.deleted && InGroup(db, issue, Backlog) && Passes(db, id, issue, f)
  }

  function BacklogIds(db: Db, project: ProjectId, f: Filter): set<IssueId>
  {
    set id | id in db.issues && InBacklog(db, id, db.issues[id], project, f)
  }

  datatype BacklogRow = BacklogRow(
    issue: IssueId,
    name: string,
    stateName: Option<string>,
    createdOn: Day,
    startedOn: Option<Day>,
    completedOn: Option<Day>,
    estimate: Option<int>,
    priority: Option<string>,
    alerts: string,
    assignees: Option<string>)

  function BacklogRowOf(db: Db, id: IssueId, issue: Issue): BacklogRow
  {
    var est := EstimateColumn(db, issue);
    BacklogRow(
      id, issue.name, StateName(db, issue), DayOf(issue.createdAt), BacklogStartedOn(db, id, issue),
      CompletedOn(issue), est, issue.priority, AlertText(est, issue.priority), AssigneesText(db, id))
  }

  function BacklogRowsOf(db: Db, ids: seq<IssueId>): (r: seq<BacklogRow>)
    requires forall k :: 0 <= k < |ids| ==> ids[k] in db.issues
    ensures |r| == |ids|
    ensures forall k :: 0 <= k < |ids| ==> r[k] == BacklogRowOf(db, ids[k], db.issues[ids[k]])
  {
    if |ids| == 0 then [] else [BacklogRowOf(db, ids[0], db.issues[ids[0]])] + BacklogRowsOf(db, ids[1..])
  }

  /** `load_backlog_issues`: one row per backlog issue of the project, in
      descending id order; a single estimate text that does not cast aborts
      the query.
      No backlog row has a start-of-work date: the lens only shows one for a
      started issue, and it lists backlog issues only. */
  function BacklogLens(db: Db, project: ProjectId, f: Filter): (r: Result<seq<BacklogRow>>)
    ensures r.Fail? <==> exists id :: id in BacklogIds(db, project, f) && !Resolvable(db, db.issues[id])
    ensures r.Ok? ==> forall i, j :: 0 <= i < j < |r.value| ==> r.value[i].issue > r.value[j].issue
    ensures r.Ok? ==> forall id :: id in BacklogIds(db, project, f) <==> exists k :: 0 <= k < |r.value| && r.value[k].issue == id
    ensures r.Ok? ==> forall k :: 0 <= k < |r.value| ==> r.value[k].startedOn.None?
    ensures r.Ok? ==> forall k :: 0 <= k < |r.value| ==>
      r.value[k].issue in db.issues && r.value[k] == BacklogRowOf(db, r.value[k].issue, db.issues[r.value[k].issue])
  {
    if exists id :: id in BacklogIds(db, project, f) && !Resolvable(db, db.issues[id]) then Fail(CastFailure)
    else
      BacklogTableOrder(db, project, f);
      BacklogTableIssues(db, project, f);
      BacklogTableRows(db, project, f);
      Ok(BacklogRowsOf(db, BacklogIdList(db, project, f)))
  }

  /** The backlog rows come in descending id order. */
  lemma BacklogTableOrder(db: Db, project: ProjectId, f: Filter)
    ensures var out := BacklogRowsOf(db, BacklogIdList(db, project, f));
      forall i, j :: 0 <= i < j < |out| ==> out[i].issue > out[j].issue
  {
    var ids := BacklogIdList(db, project, f);
    var out := BacklogRowsOf(db, ids);
    forall i, j | 0 <= i < j < |out|
      ensures out[i].issue > out[j].issue
    {
      assert out[i].issue == ids[i] && out[j].issue == ids[j];
    }
  }

  /** The backlog rows are about exactly the backlog issues. */
  lemma BacklogTableIssues(db: Db, project: ProjectId, f: Filter)
    ensures var out := BacklogRowsOf(db, BacklogIdList(db, project, f));
      forall id :: id in BacklogIds(db, project, f) <==> exists k :: 0 <= k < |out| && out[k].issue == id
  {
    var ids := BacklogIdList(db, project, f);
    var out := BacklogRowsOf(db, ids);
    forall id | id in BacklogIds(db, project, f)
      ensures exists k :: 0 <= k < |out| && out[k].issue == id
    {
      var k :| 0 <= k < |ids| && ids[k] == id;
      assert out[k].issue == id;
    }
    forall k | 0 <= k < |out|
      ensures out[k].issue in BacklogIds(db, project, f)
    {
      assert out[k].issue == ids[k];
    }
  }

  /** Each backlog row is its issue's row and shows no start of work. */
  lemma BacklogTableRows(db: Db, project: ProjectId, f: Filter)
    ensures var out := BacklogRowsOf(db, BacklogIdList(db, project, f));
      forall k :: 0 <= k < |out| ==>
        && out[k].startedOn.None?
        && out[k].issue in db.issues
        && out[k] == BacklogRowOf(db, out[k].issue, db.issues[out[k].issue])
  {
    var ids := BacklogIdList(db, project, f);
    var out := BacklogRowsOf(db, ids);
    assert forall k :: 0 <= k < |out| ==> out[k].issue == ids[k];
  }

  /** The backlog issue ids in descending order, each once. */
  function BacklogIdList(db: Db, project: ProjectId, f: Filter): (ids: seq<IssueId>)
    ensures forall k :: 0 <= k < |ids| ==> ids[k] in db.issues && InBacklog(db, ids[k], db.issues[ids[k]], project, f)
    ensures forall id :: id in BacklogIds(db, project, f) <==> exists k :: 0 <= k < |ids| && ids[k] == id
    ensures forall i, j :: 0 <= i < j < |ids| ==> ids[i] > ids[j]
  {
    var ids := IdsDescending(BacklogIds(db, project, f));
    assert forall k :: 0 <= k < |ids| ==> ids[k] in BacklogIds(db, project, f) by {
      forall k | 0 <= k < |ids|
        ensures ids[k] in BacklogIds(db, project, f)
      {
        assert ids[k] in ids;
      }
    }
    assert forall id :: id in BacklogIds(db, project, f) ==> exists k :: 0 <= k < |ids| && ids[k] == id;
    ids
  }

  /** The backlog mask of "Com alerta": a non-blank alert text. */
  function BacklogAlerting(): BacklogRow -> bool
  {
    (x: BacklogRow) => PyStrip(x.alerts) != ""
  }

  /** The backlog's "Com alerta" button, which keeps the order and each kept
      row once per occurrence; every other value shows all rows. */
  function FilterBacklog(rows: seq<BacklogRow>, choice: RowChoice): (r: seq<BacklogRow>)
    ensures choice != WithAlerts ==> r == rows
    ensures choice == WithAlerts ==> forall x :: x in r <==> x in rows && PyStrip(x.alerts) != ""
    ensures choice == WithAlerts ==>
      forall x :: multiset(r)[x] == if PyStrip(x.alerts) != "" then multiset(rows)[x] else 0
    ensures (forall i, j :: 0 <= i < j < |rows| ==> rows[i].issue > rows[j].issue) ==>
      forall i, j :: 0 <= i < j < |r| ==> r[i].issue > r[j].issue
  {
    if choice == WithAlerts then
      WhereMultiset(rows, BacklogAlerting());
      BacklogFilterKeepsOrder(rows, BacklogAlerting());
      Where(rows, BacklogAlerting())
    else rows
  }

  /** `a` comes before `b` under `ORDER BY i.id DESC`. */
  predicate HigherId(a: BacklogRow, b: BacklogRow)
  {
    a.issue > b.issue
  }

  /** A mask over backlog rows in descending id order keeps that order. */
  lemma BacklogFilterKeepsOrder(rows: seq<BacklogRow>, keep: BacklogRow -> bool)
    ensures (forall i, j :: 0 <= i < j < |rows| ==> rows[i].issue > rows[j].issue) ==>
      forall i, j :: 0 <= i < j < |Where(rows, keep)| ==> Where(rows, keep)[i].issue > Where(rows, keep)[j].issue
  {
    if forall i, j :: 0 <= i < j < |rows| ==> rows[i].issue > rows[j].issue {
      assert forall i, j :: 0 <= i < j < |rows| ==> HigherId(rows[i], rows[j]);
      WherePairwise(rows, keep, HigherId);
    }
  }

  /** The saved filter text: only the three button labels filter the sprint
      tables, and only "Com alerta" filters the backlog; any other text,
      "Todas" included, shows every row. */
  lemma ChoiceTextFilters(s: string, rows: seq<IssueRow>, backlog: seq<BacklogRow>)
    ensures ChoiceOf(s) == AllRows <==> s !in {"Entregue", "Não entregue", "Com alerta"}
    ensures ChoiceOf(s) == WithAlerts <==> s == "Com alerta"
    ensures s !in {"Entregue", "Não entregue", "Com alerta"} ==> FilterRows(rows, ChoiceOf(s)) == rows
    ensures s != "Com alerta" ==> FilterBacklog(backlog, ChoiceOf(s)) == backlog
  {
  }

  /** The backlog filter keeps a row exactly when its issue is an alert. */
  lemma BacklogAlertChoiceIsAlert(db: Db, id: IssueId, issue: Issue)
    requires Resolvable(db, issue)
    ensures PyStrip(BacklogRowOf(db, id, issue).alerts) != "" <==> IsAlert(db, issue)
  {
    AlertTextCases(EstimateColumn(db, issue), issue.priority);
    AlertTextNeverBlank(EstimateColumn(db, issue), issue.priority);
    assert PyStrip("") == "";
  }
}

=== FILE: selection.dfy ===
/** Which cycles the page looks at: the "current sprint" window test, the
    rows of the current-sprint queries, and the fallback to the three most
    recently started sprints when the user picks none. */
module Selection {
  import opened Base
  import opened Store
  import opened Filters
  import opened Sorting

  /** `c.start_date IS NOT NULL AND c.start_date <= NOW() AND
      (c.end_date IS NULL OR c.end_date >= NOW())`, with the clock passed in. */
  predicate InCurrentWindow(c: Cycle, now: Instant)
  {
    c.start.Some? && c.start.value <= now && (c.end.None? || now <= c.end.value)
  }

  /** The cycles whose window holds `now`. */
  function ActiveCycles(db: Db, now: Instant): set<CycleId>
  {
    set cid | cid in db.cycles && InCurrentWindow(db.cycles[cid], now)
  }

  /** The WHERE clause of the current-sprint queries: live rows of the
      project whose cycle is running at `now`, passing the filters. */
  predicate InCurrentScope(db: Db, m: Member, project: ProjectId, f: Filter, now: Instant)
  {
    m.link.project == project && Live(m) && InCurrentWindow(m.cycle, now) && Passes(db, m.link.issue, m.issue, f)
  }

  function CurrentRows(db: Db, project: ProjectId, f: Filter, now: Instant): (r: seq<Member>)
    ensures forall m :: m in r <==> m in Members(db) && InCurrentScope(db, m, project, f, now)
  {
    Where(Members(db), m => InCurrentScope(db, m, project, f, now))
  }

  /** The current-sprint queries are the cycle-scoped queries run on the
      cycles active at `now`: the very same rows, in the same order. */
  lemma CurrentRowsAreActiveScope(db: Db, project: ProjectId, f: Filter, now: Instant)
    ensures CurrentRows(db, project, f, now) == ScopeRows(db, ActiveCycles(db, now), project, f)
  {
    var active := ActiveCycles(db, now);
    forall m | m in Members(db)
      ensures InCurrentScope(db, m, project, f, now) <==> InScope(db, m, active, project, f)
    {
    }
    WhereCongruent(Members(db), m => InCurrentScope(db, m, project, f, now), m => InScope(db, m, active, project, f));
  }

  // ---- the default selection ---------------------------------------------

  /** `load_cycles`: the live cycles of the project. */
  predicate ListedCycle(db: Db, cid: CycleId, project: ProjectId)
  {
    cid in db.cycles && db.cycles[cid].project == project && !db.cycles[cid].deleted
  }

  /** The listed cycles that survive `dropna(subset=["start_date"])`. */
  function StartedCycles(db: Db, project: ProjectId): set<CycleId>
  {
    set cid | cid in db.cycles && ListedCycle(db, cid, project) && db.cycles[cid].start.Some?
  }

  function StartOf(db: Db, cid: CycleId): Instant
  {
    if cid in db.cycles && db.cycles[cid].start.Some? then db.cycles[cid].start.value else 0
  }

  /** A (cycle id, start) pair of the fallback ranking. */
  datatype Ranked = Ranked(cycle: CycleId, start: Instant)

  /** `sort_values("start_date", ascending=False)`; ties in any order. */
  predicate LaterFirst(a: Ranked, b: Ranked)
  {
    a.start >= b.start
  }

  lemma LaterFirstOrder()
    ensures Total(LaterFirst)
    ensures forall a, b, c :: LaterFirst(a, b) && LaterFirst(b, c) ==> LaterFirst(a, c)
  {
  }

  /** The started cycles as ranking pairs, in descending id order. */
  function Candidates(db: Db, project: ProjectId): (r: seq<Ranked>)
    ensures |r| == |StartedCycles(db, project)|
    ensures forall x :: x in r <==> x.cycle in StartedCycles(db, project) && x.start == StartOf(db, x.cycle)
    ensures forall i, j :: 0 <= i < j < |r| ==> r[i].cycle != r[j].cycle
  {
    var ids := IdsDescending(StartedCycles(db, project));
    IdsCount(StartedCycles(db, project), ids);
    var pairs := MapSeq(ids, (cid: CycleId) => Ranked(cid, StartOf(db, cid)));
    assert forall cid :: cid in ids ==> Ranked(cid, StartOf(db, cid)) in pairs by {
      forall cid | cid in ids
        ensures Ranked(cid, StartOf(db, cid)) in pairs
      {
        var k :| 0 <= k < |ids| && ids[k] == cid;
        assert pairs[k] == Ranked(cid, StartOf(db, cid));
      }
    }
    pairs
  }

  /** The started cycles, latest start first. */
  function Ranking(db: Db, project: ProjectId): (r: seq<Ranked>)
    ensures |r| == |StartedCycles(db, project)|
    ensures forall x :: x in r <==> x.cycle in StartedCycles(db, project) && x.start == StartOf(db, x.cycle)
    ensures forall i, j :: 0 <= i < j < |r| ==> r[i].cycle != r[j].cycle
    ensures Sorted(r, LaterFirst)
  {
    var pairs := Candidates(db, project);
    LaterFirstOrder();
    SortByKeepsKeysDistinct(pairs, LaterFirst, (x: Ranked) => x.cycle);
    SortBy(pairs, LaterFirst)
  }

  /** A strictly decreasing listing of a set has exactly its size. */
  lemma IdsCount(s: set<nat>, ids: seq<nat>)
    requires forall x :: x in ids <==> x in s
    requires forall i, j :: 0 <= i < j < |ids| ==> ids[i] > ids[j]
    ensures |ids| == |s|
  {
    assert Elems(ids) == s;
    NoDupCard(ids);
  }

  /** The effective cycle selection: the user's choice when there is one,
      otherwise (`head(3)`) the three listed cycles with the latest start
      dates, latest first. */
  function DefaultCycles(db: Db, project: ProjectId, chosen: seq<CycleId>): (r: seq<CycleId>)
    ensures chosen != [] ==> r == chosen
    ensures chosen == [] ==> |r| == if |StartedCycles(db, project)| < 3 then |StartedCycles(db, project)| else 3
    ensures chosen == [] ==> forall k :: 0 <= k < |r| ==> r[k] in StartedCycles(db, project)
    ensures chosen == [] ==> NoDup(r)
    ensures chosen == [] ==> forall i, j :: 0 <= i < j < |r| ==> StartOf(db, r[i]) >= StartOf(db, r[j])
    ensures chosen == [] ==> forall cid, k :: cid in StartedCycles(db, project) && cid !in r && 0 <= k < |r| ==>
      StartOf(db, cid) <= StartOf(db, r[k])
  {
    if chosen != [] then chosen
    else
      var ranked := Ranking(db, project);
      var n := if |ranked| < 3 then |ranked| else 3;
      var r := MapSeq(ranked[..n], (x: Ranked) => x.cycle);
      TopFacts(db, project, ranked, n, r);
      r
  }

  lemma TopFacts(db: Db, project: ProjectId, ranked: seq<Ranked>, n: nat, r: seq<CycleId>)
    requires ranked == Ranking(db, project)
    requires n <= |ranked|
    requires |r| == n && forall k :: 0 <= k < n ==> r[k] == ranked[k].cycle
    ensures forall k :: 0 <= k < |r| ==> r[k] in StartedCycles(db, project)
    ensures NoDup(r)
    ensures forall i, j :: 0 <= i < j < |r| ==> StartOf(db, r[i]) >= StartOf(db, r[j])
    ensures forall cid, k :: cid in StartedCycles(db, project) && cid !in r && 0 <= k < |r| ==>
      StartOf(db, cid) <= StartOf(db, r[k])
  {
    forall k | 0 <= k < |r|
      ensures r[k] in StartedCycles(db, project)
    {
      assert ranked[k] in ranked;
    }
    TopOrdered(db, project, ranked, n, r);
    TopBeatsRest(db, project, ranked, n, r);
  }

  /** The head of the ranking is itself latest first. */
  lemma TopOrdered(db: Db, project: ProjectId, ranked: seq<Ranked>, n: nat, r: seq<CycleId>)
    requires ranked == Ranking(db, project)
    requires n <= |ranked|
    requires |r| == n && forall k :: 0 <= k < n ==> r[k] == ranked[k].cycle
    ensures forall i, j :: 0 <= i < j < |r| ==> StartOf(db, r[i]) >= StartOf(db, r[j])
  {
    LaterFirstOrder();
    forall k | 0 <= k < |r|
      ensures ranked[k].start == StartOf(db, r[k])
    {
      assert ranked[k] in ranked;
    }
    forall i, j | 0 <= i < j < |r|
      ensures StartOf(db, r[i]) >= StartOf(db, r[j])
    {
      SortedAll(ranked, LaterFirst, i, j);
    }
  }

  /** No started cycle left out of the head starts later than one in it. */
  lemma TopBeatsRest(db: Db, project: ProjectId, ranked: seq<Ranked>, n: nat, r: seq<CycleId>)
    requires ranked == Ranking(db, project)
    requires n <= |ranked|
    requires |r| == n && forall k :: 0 <= k < n ==> r[k] == ranked[k].cycle
    ensures forall cid, k :: cid in StartedCycles(db, project) && cid !in r && 0 <= k < |r| ==>
      StartOf(db, cid) <= StartOf(db, r[k])
  {
    LaterFirstOrder();
    forall cid, k | cid in StartedCycles(db, project) && cid !in r && 0 <= k < |r|
      ensures StartOf(db, cid) <= StartOf(db, r[k])
    {
      assert ranked[k] in ranked;
      assert Ranked(cid, StartOf(db, cid)) in ranked;
      var j :| 0 <= j < |ranked| && ranked[j] == Ranked(cid, StartOf(db, cid));
      assert j >= n;
      SortedAll(ranked, LaterFirst, k, j);
    }
  }
}

=== FILE: sorting.dfy ===
/** ORDER BY: a stable-enough insertion sort over a total comparison. SQL
    leaves the order of tied rows unspecified, so what the queries promise is
    exactly "a permutation of the rows, sorted by the key", which is what
    `SortBy` guarantees. */
module Sorting {
  import Base

  /** Any two values are comparable. */
  ghost predicate Total<T(!new)>(le: (T, T) -> bool)
  {
    forall a, b :: le(a, b) || le(b, a)
  }

  /** Each row is ordered with respect to the next. */
  predicate Sorted<T>(s: seq<T>, le: (T, T) -> bool)
  {
    forall i :: 0 < i < |s| ==> le(s[i - 1], s[i])
  }

  function Insert<T(!new)>(x: T, s: seq<T>, le: (T, T) -> bool): (r: seq<T>)
    requires Total(le)
    requires Sorted(s, le)
    ensures |r| == |s| + 1
    ensures Sorted(r, le)
    ensures multiset(r) == multiset(s) + multiset{x}
    ensures r[0] == x || (|s| > 0 && r[0] == s[0])
  {
    if |s| == 0 then [x]
    else if le(x, s[0]) then [x] + s
    else
      assert s == [s[0]] + s[1..];
      [s[0]] + Insert(x, s[1..], le)
  }

  /** The rows of `s`, rearranged into `le` order. */
  function SortBy<T(!new)>(s: seq<T>, le: (T, T) -> bool): (r: seq<T>)
    requires Total(le)
    ensures |r| == |s|
    ensures Sorted(r, le)
    ensures multiset(r) == multiset(s)
    ensures forall x :: x in r <==> x in s
  {
    if |s| == 0 then []
    else
      assert s == [s[0]] + s[1..];
      var r := Insert(s[0], SortBy(s[1..], le), le);
      assert forall x :: x in r <==> x in multiset(r);
      assert forall x :: x in s <==> x in multiset(s);
      r
  }

  /** With a transitive comparison, adjacent order is global order. */
  lemma SortedAll<T(!new)>(s: seq<T>, le: (T, T) -> bool, i: int, j: int)
    requires Sorted(s, le)
    requires forall a, b, c :: le(a, b) && le(b, c) ==> le(a, c)
    requires 0 <= i <= j < |s|
    requires Total(le)
    ensures le(s[i], s[j])
    decreases j - i
  {
    if i < j {
      SortedAll(s, le, i, j - 1);
    }
  }

  /** A sequence has no repeated value exactly when no value occurs twice in
      its multiset. */
  lemma {:induction false} NoDupMultiset<T>(s: seq<T>)
    ensures Base.NoDup(s) <==> forall x :: multiset(s)[x] <= 1
  {
    if |s| > 0 {
      NoDupMultiset(s[1..]);
      assert s == [s[0]] + s[1..];
      if Base.NoDup(s) {
        assert Base.NoDup(s[1..]);
        assert s[0] !in s[1..];
      }
      if forall x :: multiset(s)[x] <= 1 {
        assert forall x :: multiset(s[1..])[x] <= multiset(s)[x];
        assert multiset(s[1..])[s[0]] == 0;
        forall i, j | 0 <= i < j < |s|
          ensures s[i] != s[j]
        {
          if i == 0 {
            assert s[j] in s[1..];
          } else {
            assert s[1..][i - 1] == s[i] && s[1..][j - 1] == s[j];
          }
        }
      }
    }
  }

  /** Sorting neither creates nor removes duplicates. */
  lemma SortByNoDup<T(!new)>(s: seq<T>, le: (T, T) -> bool)
    requires Total(le)
    requires Base.NoDup(s)
    ensures Base.NoDup(SortBy(s, le))
  {
    NoDupMultiset(s);
    NoDupMultiset(SortBy(s, le));
  }

  /** Sorting keeps elements with pairwise distinct keys pairwise distinct. */
  lemma SortByKeepsKeysDistinct<T(!new), K>(s: seq<T>, le: (T, T) -> bool, key: T -> K)
    requires Total(le)
    requires forall i, j :: 0 <= i < j < |s| ==> key(s[i]) != key(s[j])
    ensures forall i, j :: 0 <= i < j < |SortBy(s, le)| ==> key(SortBy(s, le)[i]) != key(SortBy(s, le)[j])
  {
    var out := SortBy(s, le);
    assert Base.NoDup(s) by {
      forall i, j | 0 <= i < j < |s|
        ensures s[i] != s[j]
      {
        assert key(s[i]) != key(s[j]);
      }
    }
    SortByNoDup(s, le);
    forall i, j | 0 <= i < j < |out|
      ensures key(out[i]) != key(out[j])
    {
      assert out[i] in s && out[j] in s;
      var a :| 0 <= a < |s| && s[a] == out[i];
      var b :| 0 <= b < |s| && s[b] == out[j];
      assert out[i] != out[j];
      if a > b {
        assert key(s[b]) != key(s[a]);
      }
    }
  }
}

=== FILE: sprint_metrics.dfy ===
/** Per-sprint planned versus delivered counts and points
    (`compute_sprint_metrics`). */
module SprintMetrics {
  import opened Base
  import opened Text
  import opened Store
  import opened Filters
  import opened Estimation
  import opened Delivery
  import opened Sorting

  /** One output row: cycle id, name and start, `estimadas`, `entregues`,
      `pontos_estimados`, `pontos_entregues`. */
  datatype SprintRow = SprintRow(
    cycle: CycleId,
    name: string,
    start: Option<Instant>,
    estimated: nat,
    delivered: nat,
    pointsEstimated: int,
    pointsDelivered: int)

  /** A membership row whose issue was completed inside that row's cycle. */
  predicate Delivered(m: Member)
  {
    DeliveredIn(m.issue.completedAt, m.cycle)
  }

  /** The distinct issues of the in-scope rows of one cycle. */
  function PlannedIssues(db: Db, cycleIds: set<CycleId>, project: ProjectId, f: Filter, cid: CycleId): set<IssueId>
  {
    set m | m in ScopeRows(db, cycleIds, project, f) && m.link.cycle == cid :: m.link.issue
  }

  /** The distinct issues of one cycle delivered inside its window. */
  function DeliveredIssues(db: Db, cycleIds: set<CycleId>, project: ProjectId, f: Filter, cid: CycleId): set<IssueId>
  {
    set m | m in ScopeRows(db, cycleIds, project, f) && m.link.cycle == cid && Delivered(m) :: m.link.issue
  }

  /** `pontos_estimados` of one cycle: the effective points summed over its
      in-scope rows, one term per row. */
  function PlannedPoints(db: Db, cycleIds: set<CycleId>, project: ProjectId, f: Filter, cid: CycleId): int
  {
    PointsSum(db, RowsOfCycle(ScopeRows(db, cycleIds, project, f), cid))
  }

  /** `pontos_entregues` of one cycle: the same sum over the in-scope rows
      of that cycle delivered inside its window. */
  function DeliveredPoints(db: Db, cycleIds: set<CycleId>, project: ProjectId, f: Filter, cid: CycleId): int
  {
    PointsSum(db, Where(ScopeRows(db, cycleIds, project, f), DeliveredInCycle(cid)))
  }

  function DeliveredInCycle(cid: CycleId): Member -> bool
  {
    (m: Member) => m.link.cycle == cid && Delivered(m)
  }

  /** Every delivered issue of a cycle is one of its planned issues, so
      `entregues <= estimadas`. */
  lemma DeliveredWithinPlanned(db: Db, cycleIds: set<CycleId>, project: ProjectId, f: Filter, cid: CycleId)
    ensures DeliveredIssues(db, cycleIds, project, f, cid) <= PlannedIssues(db, cycleIds, project, f, cid)
    ensures |DeliveredIssues(db, cycleIds, project, f, cid)| <= |PlannedIssues(db, cycleIds, project, f, cid)|
  {
    SubsetCard(DeliveredIssues(db, cycleIds, project, f, cid), PlannedIssues(db, cycleIds, project, f, cid));
  }

  function InCycle(cid: CycleId): Member -> bool
  {
    (m: Member) => m.link.cycle == cid
  }

  function RowsOfCycle(rows: seq<Member>, cid: CycleId): seq<Member>
  {
    Where(rows, InCycle(cid))
  }

  function PointsSum(db: Db, rows: seq<Member>): int
  {
    SumOf(rows, (m: Member) => PointsOr0(db, m.issue))
  }

  /** The aggregate row of one cycle, over the in-scope rows `rows`. */
  function RowFor(db: Db, rows: seq<Member>, cid: CycleId, c: Cycle): SprintRow
  {
    var mine := RowsOfCycle(rows, cid);
    SprintRow(
      cid, c.name, c.start,
      |set m | m in mine :: m.link.issue|,
      |set m | m in mine && Delivered(m) :: m.link.issue|,
      PointsSum(db, mine),
      PointsSum(db, Where(mine, Delivered)))
  }

  /** `c.start_date NULLS FIRST`, strictly. */
  predicate StartsBefore(a: Option<Instant>, b: Option<Instant>)
  {
    (a.None? && b.Some?) || (a.Some? && b.Some? && a.value < b.value)
  }

  /** `ORDER BY c.start_date NULLS FIRST, c.name`. */
  predicate SprintRowLe(a: SprintRow, b: SprintRow)
  {
    StartsBefore(a.start, b.start) || (a.start == b.start && LexLe(a.name, b.name))
  }

  lemma SprintRowLeTotal()
    ensures Total(SprintRowLe)
  {
    forall a: SprintRow, b: SprintRow
      ensures SprintRowLe(a, b) || SprintRowLe(b, a)
    {
      LexLeTotal(a.name, b.name);
    }
  }

  /** `compute_sprint_metrics`: one row per selected cycle that has at least
      one in-scope issue, ordered by start (NULLs first) then name. */
  function ComputeSprintMetrics(db: Db, cycleIds: set<CycleId>, project: ProjectId, f: Filter): (r: Result<seq<SprintRow>>)
    ensures cycleIds == {} ==> r == Ok([])
    ensures r.Fail? <==> cycleIds != {} && ScopeHasCastFailure(db, ScopeRows(db, cycleIds, project, f))
    ensures r.Ok? ==> Sorted(r.value, SprintRowLe)
    ensures r.Ok? ==> forall k :: 0 <= k < |r.value| ==>
      && r.value[k].cycle in cycleIds
      && r.value[k].estimated == |PlannedIssues(db, cycleIds, project, f, r.value[k].cycle)| > 0
      && r.value[k].delivered == |DeliveredIssues(db, cycleIds, project, f, r.value[k].cycle)|
      && r.value[k].delivered <= r.value[k].estimated
      && r.value[k].cycle in db.cycles
      && r.value[k].name == db.cycles[r.value[k].cycle].name
      && r.value[k].start == db.cycles[r.value[k].cycle].start
      && r.value[k].pointsEstimated == PlannedPoints(db, cycleIds, project, f, r.value[k].cycle)
      && r.value[k].pointsDelivered == DeliveredPoints(db, cycleIds, project, f, r.value[k].cycle)
    ensures r.Ok? ==> forall cid :: PlannedIssues(db, cycleIds, project, f, cid) != {} ==>
      HasRowFor(r.value, cid)
    ensures r.Ok? ==> forall i, j :: 0 <= i < j < |r.value| ==> r.value[i].cycle != r.value[j].cycle
  {
    if cycleIds == {} then Ok([])
    else
      var rows := ScopeRows(db, cycleIds, project, f);
      if ScopeHasCastFailure(db, rows) then Fail(CastFailure)
      else
        SprintRowLeTotal();
        SortByFacts(db, cycleIds, project, f);
        Ok(SortBy(Grouped(db, rows), SprintRowLe))
  }

  /** The grouping keys: one (cycle id, cycle) pair per cycle present in the
      scope rows. */
  function GroupKeys(rows: seq<Member>): seq<(CycleId, Cycle)>
  {
    Distinct(MapSeq(rows, (m: Member) => (m.link.cycle, m.cycle)))
  }

  /** The rows before ordering: one aggregate per grouping key. */
  function Grouped(db: Db, rows: seq<Member>): seq<SprintRow>
  {
    MapSeq(GroupKeys(rows), (kk: (CycleId, Cycle)) => RowFor(db, rows, kk.0, kk.1))
  }

  /** Every grouping key comes from a joined membership row. */
  lemma KeyFromRow(db: Db, cycleIds: set<CycleId>, project: ProjectId, f: Filter, key: (CycleId, Cycle))
    requires key in GroupKeys(ScopeRows(db, cycleIds, project, f))
    ensures key.0 in cycleIds && key.0 in db.cycles && key.1 == db.cycles[key.0]
    ensures key.0 in (set m | m in ScopeRows(db, cycleIds, project, f) :: m.link.cycle)
  {
    var rows := ScopeRows(db, cycleIds, project, f);
    var pairs := MapSeq(rows, (m: Member) => (m.link.cycle, m.cycle));
    assert key in pairs;
    var j :| 0 <= j < |rows| && pairs[j] == key;
    assert rows[j] in Members(db);
  }

  /** The aggregate of one cycle counts exactly its planned and delivered
      issues. */
  lemma RowForCounts(db: Db, cycleIds: set<CycleId>, project: ProjectId, f: Filter, cid: CycleId, c: Cycle)
    requires cid in (set m | m in ScopeRows(db, cycleIds, project, f) :: m.link.cycle)
    ensures var x := RowFor(db, ScopeRows(db, cycleIds, project, f), cid, c);
      && x.estimated == |PlannedIssues(db, cycleIds, project, f, cid)| > 0
      && x.delivered == |DeliveredIssues(db, cycleIds, project, f, cid)|
      && x.delivered <= x.estimated
  {
    var rows := ScopeRows(db, cycleIds, project, f);
    var mine := RowsOfCycle(rows, cid);
    assert (set n | n in mine :: n.link.issue) == PlannedIssues(db, cycleIds, project, f, cid);
    assert (set n | n in mine && Delivered(n) :: n.link.issue) == DeliveredIssues(db, cycleIds, project, f, cid);
    var m :| m in rows && m.link.cycle == cid;
    assert m.link.issue in PlannedIssues(db, cycleIds, project, f, cid);
    DeliveredWithinPlanned(db, cycleIds, project, f, cid);
  }

  /** Bridges the grouped row of one cycle to the per-cycle sums: the
      estimated half unfolds the definition, and the delivered half fuses
      the cycle filter with the delivery filter. */
  lemma RowForPoints(db: Db, cycleIds: set<CycleId>, project: ProjectId, f: Filter, cid: CycleId, c: Cycle)
    ensures var x := RowFor(db, ScopeRows(db, cycleIds, project, f), cid, c);
      && x.pointsEstimated == PlannedPoints(db, cycleIds, project, f, cid)
      && x.pointsDelivered == DeliveredPoints(db, cycleIds, project, f, cid)
  {
    WhereWhere(ScopeRows(db, cycleIds, project, f), InCycle(cid), Delivered, DeliveredInCycle(cid));
  }

  /** Each grouped row describes a selected cycle with its true counts. */
  lemma GroupedRowFacts(db: Db, cycleIds: set<CycleId>, project: ProjectId, f: Filter, x: SprintRow)
    requires x in Grouped(db, ScopeRows(db, cycleIds, project, f))
    ensures x.cycle in cycleIds && x.cycle in db.cycles
    ensures x == RowFor(db, ScopeRows(db, cycleIds, project, f), x.cycle, db.cycles[x.cycle])
    ensures x.estimated == |PlannedIssues(db, cycleIds, project, f, x.cycle)| > 0
    ensures x.delivered == |DeliveredIssues(db, cycleIds, project, f, x.cycle)|
    ensures x.delivered <= x.estimated
    ensures x.name == db.cycles[x.cycle].name && x.start == db.cycles[x.cycle].start
    ensures x.pointsEstimated == PlannedPoints(db, cycleIds, project, f, x.cycle)
    ensures x.pointsDelivered == DeliveredPoints(db, cycleIds, project, f, x.cycle)
  {
    var rows := ScopeRows(db, cycleIds, project, f);
    var keys := GroupKeys(rows);
    var unsorted := Grouped(db, rows);
    var i :| 0 <= i < |unsorted| && unsorted[i] == x;
    KeyFromRow(db, cycleIds, project, f, keys[i]);
    RowForCounts(db, cycleIds, project, f, keys[i].0, keys[i].1);
    RowForPoints(db, cycleIds, project, f, keys[i].0, keys[i].1);
  }

  /** Every cycle with a planned issue has a grouped row. */
  lemma GroupedCoversCycles(db: Db, cycleIds: set<CycleId>, project: ProjectId, f: Filter, cid: CycleId)
    requires PlannedIssues(db, cycleIds, project, f, cid) != {}
    ensures exists x :: x in Grouped(db, ScopeRows(db, cycleIds, project, f)) && x.cycle == cid
  {
    var rows := ScopeRows(db, cycleIds, project, f);
    var keys := GroupKeys(rows);
    var pairs := MapSeq(rows, (m: Member) => (m.link.cycle, m.cycle));
    var id :| id in PlannedIssues(db, cycleIds, project, f, cid);
    var m :| m in rows && m.link.cycle == cid && m.link.issue == id;
    var j :| 0 <= j < |rows| && rows[j] == m;
    assert pairs[j] == (cid, m.cycle);
    assert (cid, m.cycle) in keys;
    var i :| 0 <= i < |keys| && keys[i] == (cid, m.cycle);
    assert Grouped(db, rows)[i].cycle == cid;
  }

  /** Grouped rows belong to distinct cycles. */
  lemma GroupedDistinctCycles(db: Db, cycleIds: set<CycleId>, project: ProjectId, f: Filter)
    ensures forall i, j :: 0 <= i < j < |Grouped(db, ScopeRows(db, cycleIds, project, f))| ==>
      Grouped(db, ScopeRows(db, cycleIds, project, f))[i].cycle != Grouped(db, ScopeRows(db, cycleIds, project, f))[j].cycle
  {
    var rows := ScopeRows(db, cycleIds, project, f);
    var keys := GroupKeys(rows);
    forall i, j | 0 <= i < j < |keys|
      ensures keys[i].0 != keys[j].0
    {
      KeyFromRow(db, cycleIds, project, f, keys[i]);
      KeyFromRow(db, cycleIds, project, f, keys[j]);
    }
  }

  /** The ordered result keeps the grouped rows' facts. */
  lemma SortByFacts(db: Db, cycleIds: set<CycleId>, project: ProjectId, f: Filter)
    requires Total(SprintRowLe)
    ensures var out := SortBy(Grouped(db, ScopeRows(db, cycleIds, project, f)), SprintRowLe);
      && (forall k :: 0 <= k < |out| ==>
            && out[k].cycle in cycleIds
            && out[k].estimated == |PlannedIssues(db, cycleIds, project, f, out[k].cycle)| > 0
            && out[k].delivered == |DeliveredIssues(db, cycleIds, project, f, out[k].cycle)|
            && out[k].delivered <= out[k].estimated
            && out[k].cycle in db.cycles
            && out[k].name == db.cycles[out[k].cycle].name
            && out[k].start == db.cycles[out[k].cycle].start
            && out[k].pointsEstimated == PlannedPoints(db, cycleIds, project, f, out[k].cycle)
            && out[k].pointsDelivered == DeliveredPoints(db, cycleIds, project, f, out[k].cycle))
      && (forall cid :: PlannedIssues(db, cycleIds, project, f, cid) != {} ==>
            HasRowFor(out, cid))
      && (forall i, j :: 0 <= i < j < |out| ==> out[i].cycle != out[j].cycle)
  {
    SortedRowsFacts(db, cycleIds, project, f);
    SortedRowsCover(db, cycleIds, project, f);
    SortedRowsDistinct(db, cycleIds, project, f);
  }

  lemma SortedRowsFacts(db: Db, cycleIds: set<CycleId>, project: ProjectId, f: Filter)
    requires Total(SprintRowLe)
    ensures var out := SortBy(Grouped(db, ScopeRows(db, cycleIds, project, f)), SprintRowLe);
      forall k :: 0 <= k < |out| ==>
        && out[k].cycle in cycleIds
        && out[k].estimated == |PlannedIssues(db, cycleIds, project, f, out[k].cycle)| > 0
        && out[k].delivered == |DeliveredIssues(db, cycleIds, project, f, out[k].cycle)|
        && out[k].delivered <= out[k].estimated
        && out[k].cycle in db.cycles
        && out[k].name == db.cycles[out[k].cycle].name
        && out[k].start == db.cycles[out[k].cycle].start
        && out[k].pointsEstimated == PlannedPoints(db, cycleIds, project, f, out[k].cycle)
        && out[k].pointsDelivered == DeliveredPoints(db, cycleIds, project, f, out[k].cycle)
  {
    var unsorted := Grouped(db, ScopeRows(db, cycleIds, project, f));
    var out := SortBy(unsorted, SprintRowLe);
    forall k | 0 <= k < |out|
      ensures out[k].cycle in cycleIds
      ensures out[k].estimated == |PlannedIssues(db, cycleIds, project, f, out[k].cycle)| > 0
      ensures out[k].delivered == |DeliveredIssues(db, cycleIds, project, f, out[k].cycle)|
      ensures out[k].delivered <= out[k].estimated
      ensures out[k].cycle in db.cycles
      ensures out[k].name == db.cycles[out[k].cycle].name
      ensures out[k].start == db.cycles[out[k].cycle].start
      ensures out[k].pointsEstimated == PlannedPoints(db, cycleIds, project, f, out[k].cycle)
      ensures out[k].pointsDelivered == DeliveredPoints(db, cycleIds, project, f, out[k].cycle)
    {
      assert out[k] in unsorted;
      GroupedRowFacts(db, cycleIds, project, f, out[k]);
    }
  }

  /** Some row of `out` is about cycle `cid`. */
  predicate HasRowFor(out: seq<SprintRow>, cid: CycleId)
  {
    exists k :: 0 <= k < |out| && out[k].cycle == cid
  }

  lemma SortedRowsCover(db: Db, cycleIds: set<CycleId>, project: ProjectId, f: Filter)
    requires Total(SprintRowLe)
    ensures var out := SortBy(Grouped(db, ScopeRows(db, cycleIds, project, f)), SprintRowLe);
      forall cid :: PlannedIssues(db, cycleIds, project, f, cid) != {} ==> HasRowFor(out, cid)
  {
    var unsorted := Grouped(db, ScopeRows(db, cycleIds, project, f));
    var out := SortBy(unsorted, SprintRowLe);
    forall cid | PlannedIssues(db, cycleIds, project, f, cid) != {}
      ensures HasRowFor(out, cid)
    {
      GroupedCoversCycles(db, cycleIds, project, f, cid);
      var x :| x in unsorted && x.cycle == cid;
      RowSurvivesSort(unsorted, x);
    }
  }

  lemma SortedRowsDistinct(db: Db, cycleIds: set<CycleId>, project: ProjectId, f: Filter)
    requires Total(SprintRowLe)
    ensures var out := SortBy(Grouped(db, ScopeRows(db, cycleIds, project, f)), SprintRowLe);
      forall i, j :: 0 <= i < j < |out| ==> out[i].cycle != out[j].cycle
  {
    var unsorted := Grouped(db, ScopeRows(db, cycleIds, project, f));
    GroupedDistinctCycles(db, cycleIds, project, f);
    SortByKeepsKeysDistinct(unsorted, SprintRowLe, (x: SprintRow) => x.cycle);
  }

  /** Every row before sorting is at some position after it. */
  lemma RowSurvivesSort(unsorted: seq<SprintRow>, x: SprintRow)
    requires Total(SprintRowLe)
    requires x in unsorted
    ensures HasRowFor(SortBy(unsorted, SprintRowLe), x.cycle)
  {
    var out := SortBy(unsorted, SprintRowLe);
    assert x in out;
    var k :| 0 <= k < |out| && out[k] == x;
  }

  /** With non-negative effective points, the delivered points of a cycle
      never exceed its planned points: the delivered rows are a selection of
      the cycle's rows. */
  lemma PointsDeliveredWithinEstimated(db: Db, cycleIds: set<CycleId>, project: ProjectId, f: Filter, k: int)
    requires forall m :: m in ScopeRows(db, cycleIds, project, f) ==> PointsOr0(db, m.issue) >= 0
    ensures var r := ComputeSprintMetrics(db, cycleIds, project, f);
      r.Ok? && 0 <= k < |r.value| ==> 0 <= r.value[k].pointsDelivered <= r.value[k].pointsEstimated
  {
    var r := ComputeSprintMetrics(db, cycleIds, project, f);
    if r.Ok? && 0 <= k < |r.value| {
      var rows := ScopeRows(db, cycleIds, project, f);
      var x := r.value[k];
      SprintRowLeTotal();
      assert x in Grouped(db, rows);
      GroupedRowFacts(db, cycleIds, project, f, x);
      var mine := RowsOfCycle(rows, x.cycle);
      SumWhereLe(mine, Delivered, (m: Member) => PointsOr0(db, m.issue));
    }
  }
}

=== FILE: store.dfy ===
/** The project-management tables the dashboard reads. Entity tables are maps
    keyed by their primary key; association and history tables are sequences,
    because the queries see (and sum over) every row of them, duplicates
    included. Every row carries its soft-delete marker as `deleted`. */
module Store {
  import opened Base

  /** A point in time, in seconds since the epoch (UTC). */
  type Instant = int
  /** A calendar date, in days since the epoch. */
  type Day = int

  const SecondsPerDay: int := 86400

  /** The `::date` cast: the calendar day an instant falls on. */
  function DayOf(t: Instant): (d: Day)
    ensures d * SecondsPerDay <= t < (d + 1) * SecondsPerDay
  {
    t / SecondsPerDay
  }

  type ProjectId = nat
  type CycleId = nat
  type IssueId = nat
  type EstimateId = nat
  type StateId = nat
  type LabelId = nat
  type UserId = nat
  type TypeId = nat

  datatype Project = Project(name: string, identifier: string, deleted: bool)

  /** A sprint. A missing bound leaves that side of its window open. */
  datatype Cycle = Cycle(
    name: string,
    project: ProjectId,
    start: Option<Instant>,
    end: Option<Instant>,
    deleted: bool)

  /** An issue. `point` is the direct estimate; `estimatePoint` refers to an
      estimate-scale entry; `completedAt` is None while the issue is open. */
  datatype Issue = Issue(
    name: string,
    project: ProjectId,
    state: Option<StateId>,
    issueType: Option<TypeId>,
    createdAt: Instant,
    completedAt: Option<Instant>,
    startDate: Option<Day>,
    priority: Option<string>,
    point: Option<int>,
    estimatePoint: Option<EstimateId>,
    deleted: bool)

  /** An entry of an estimate scale: a numeric key and/or a text value. */
  datatype EstimatePoint = EstimatePoint(key: Option<int>, value: Option<string>, deleted: bool)

  datatype StateGroup = Backlog | Unstarted | Started | Completed | Cancelled

  datatype State = State(name: string, group: StateGroup, deleted: bool)

  /** A label; `project` is None for a workspace-wide label. */
  datatype Label = Label(name: string, project: Option<ProjectId>, deleted: bool)

  datatype User = User(displayName: Option<string>, username: string, deleted: bool)

  datatype IssueType = IssueType(name: string, deleted: bool)

  /** Membership of an issue in a cycle, with the project copied onto it and
      the moment the issue was committed to the cycle. */
  datatype CycleIssue = CycleIssue(
    cycle: CycleId,
    issue: IssueId,
    project: ProjectId,
    createdAt: Instant,
    deleted: bool)

  datatype IssueAssignee = IssueAssignee(issue: IssueId, assignee: UserId, deleted: bool)

  datatype IssueLabel = IssueLabel(issue: IssueId, labelId: LabelId, deleted: bool)

  /** A saved snapshot of an issue. */
  datatype IssueVersion = IssueVersion(
    issue: IssueId,
    startDate: Option<Day>,
    state: Option<StateId>,
    lastSavedAt: Instant,
    deleted: bool)

  /** One change in an issue's history; for a state change `newIdentifier`
      holds the id of the new state. */
  datatype IssueActivity = IssueActivity(
    issue: IssueId,
    field: Option<string>,
    newIdentifier: Option<nat>,
    createdAt: Instant,
    deleted: bool)

  datatype Db = Db(
    projects: map<ProjectId, Project>,
    cycles: map<CycleId, Cycle>,
    issues: map<IssueId, Issue>,
    estimatePoints: map<EstimateId, EstimatePoint>,
    states: map<StateId, State>,
    labels: map<LabelId, Label>,
    users: map<UserId, User>,
    issueTypes: map<TypeId, IssueType>,
    cycleIssues: seq<CycleIssue>,
    issueAssignees: seq<IssueAssignee>,
    issueLabels: seq<IssueLabel>,
    versions: seq<IssueVersion>,
    activities: seq<IssueActivity>)

  /** One row of `cycle_issues ci JOIN cycles c JOIN issues i`. */
  datatype Member = Member(link: CycleIssue, cycle: Cycle, issue: Issue)

  /** The inner join of the given membership rows with their cycle and issue:
      a membership row whose cycle or issue is missing produces no row. */
  function JoinLinks(db: Db, links: seq<CycleIssue>): (r: seq<Member>)
    ensures forall m :: m in r <==>
      && m.link in links
      && m.link.cycle in db.cycles && m.cycle == db.cycles[m.link.cycle]
      && m.link.issue in db.issues && m.issue == db.issues[m.link.issue]
  {
    if |links| == 0 then []
    else
      var ci := links[0];
      var head := if ci.cycle in db.cycles && ci.issue in db.issues
                  then [Member(ci, db.cycles[ci.cycle], db.issues[ci.issue])] else [];
      head + JoinLinks(db, links[1..])
  }

  function Members(db: Db): seq<Member>
  {
    JoinLinks(db, db.cycleIssues)
  }

  /** `LEFT JOIN estimate_points ep ON ep.id = i.estimate_point_id`. */
  function EstimatePointOf(db: Db, issue: Issue): Option<EstimatePoint>
  {
    if issue.estimatePoint.Some? && issue.estimatePoint.value in db.estimatePoints
    then Some(db.estimatePoints[issue.estimatePoint.value])
    else None
  }

  /** `LEFT JOIN states s ON s.id = i.state_id`. */
  function StateOf(db: Db, issue: Issue): Option<State>
  {
    if issue.state.Some? && issue.state.value in db.states
    then Some(db.states[issue.state.value])
    else None
  }

  /** `COALESCE(u.display_name, u.username)` through a LEFT JOIN on users:
      None when the user row is missing. */
  function DevName(db: Db, u: UserId): Option<string>
  {
    if u !in db.users then None
    else if db.users[u].displayName.Some? then db.users[u].displayName
    else Some(db.users[u].username)
  }
}

=== FILE: text.dfy ===
/** The few string operations the queries and the page use: PostgreSQL's
    LOWER and TRIM, Python's str.strip, CONCAT_WS/STRING_AGG joining, and a
    code-point lexicographic order standing in for the database collation. */
module Text {

  /** LOWER for the Latin letters the dashboard's placeholder texts and label
      names use: ASCII A-Z and the Latin-1 capitals (U+00C0-U+00DE except the
      multiplication sign U+00D7). */
  function LowerChar(c: char): char
  {
    if 'A' <= c <= 'Z' then (c as int + 32) as char
    else if '\U{C0}' <= c <= '\U{DE}' && c != '\U{D7}' then (c as int + 32) as char
    else c
  }

  function Lower(s: string): (r: string)
    ensures |r| == |s|
    ensures forall k :: 0 <= k < |s| ==> r[k] == LowerChar(s[k])
  {
    seq(|s|, k requires 0 <= k < |s| => LowerChar(s[k]))
  }

  /** The number of leading characters of `s` that are blank. */
  function LeadingBlanks(s: string, isBlank: char -> bool): (n: nat)
    ensures n <= |s|
    ensures forall k :: 0 <= k < n ==> isBlank(s[k])
    ensures n == |s| || !isBlank(s[n])
  {
    if |s| > 0 && isBlank(s[0]) then 1 + LeadingBlanks(s[1..], isBlank) else 0
  }

  /** The number of trailing characters of `s` that are blank. */
  function TrailingBlanks(s: string, isBlank: char -> bool): (n: nat)
    ensures n <= |s|
    ensures forall k :: |s| - n <= k < |s| ==> isBlank(s[k])
    ensures n == |s| || !isBlank(s[|s| - n - 1])
  {
    if |s| > 0 && isBlank(s[|s| - 1]) then 1 + TrailingBlanks(s[..|s| - 1], isBlank) else 0
  }

  function TrimLeft(s: string, isBlank: char -> bool): string
  {
    s[LeadingBlanks(s, isBlank)..]
  }

  function TrimRight(s: string, isBlank: char -> bool): string
  {
    s[..|s| - TrailingBlanks(s, isBlank)]
  }

  predicate IsSpace(c: char)
  {
    c == ' '
  }

  /** PostgreSQL TRIM(x): strips the space character (only) at both ends. */
  function Trim(s: string): string
  {
    TrimRight(TrimLeft(s, IsSpace), IsSpace)
  }

  /** LOWER is idempotent: a lowered text has no capitals left. */
  lemma LowerIdempotent(s: string)
    ensures Lower(Lower(s)) == Lower(s)
  {
  }

  /** Appending a character moves the first non-blank only when all of `s`
      is blank. */
  lemma {:induction false} LeadingBlanksAppend(s: string, c: char, isBlank: char -> bool)
    ensures LeadingBlanks(s + [c], isBlank) ==
      if LeadingBlanks(s, isBlank) == |s| && isBlank(c) then |s| + 1 else LeadingBlanks(s, isBlank)
  {
    if |s| > 0 {
      assert (s + [c])[1..] == s[1..] + [c];
      if isBlank(s[0]) {
        LeadingBlanksAppend(s[1..], c, isBlank);
      }
    }
  }

  /** TRIM ignores a leading space. */
  lemma TrimLeadingSpace(s: string)
    ensures Trim(" " + s) == Trim(s)
  {
    assert (" " + s)[1..] == s;
    assert LeadingBlanks(" " + s, IsSpace) == 1 + LeadingBlanks(s, IsSpace);
    assert TrimLeft(" " + s, IsSpace) == TrimLeft(s, IsSpace);
  }

  /** TRIM ignores a trailing space. */
  lemma TrimTrailingSpace(s: string)
    ensures Trim(s + " ") == Trim(s)
  {
    LeadingBlanksAppend(s, ' ', IsSpace);
    var t := TrimLeft(s, IsSpace);
    if LeadingBlanks(s, IsSpace) < |s| {
      assert TrimLeft(s + " ", IsSpace) == t + " ";
      assert (t + " ")[..|t|] == t;
      assert TrailingBlanks(t + " ", IsSpace) == 1 + TrailingBlanks(t, IsSpace);
    } else {
      assert TrimLeft(s + " ", IsSpace) == [];
      assert t == [];
    }
  }

  /** The characters Python's str.isspace accepts. */
  predicate IsPyWhitespace(c: char)
  {
    || c == ' ' || '\t' <= c <= '\r' || '\U{1C}' <= c <= '\U{1F}'
    || c == '\U{85}' || c == '\U{A0}' || c == '\U{1680}'
    || '\U{2000}' <= c <= '\U{200A}' || c == '\U{2028}' || c == '\U{2029}'
    || c == '\U{202F}' || c == '\U{205F}' || c == '\U{3000}'
  }

  /** Python's str.strip() with no argument. */
  function PyStrip(s: string): string
  {
    TrimRight(TrimLeft(s, IsPyWhitespace), IsPyWhitespace)
  }

  /** A string survives stripping as non-empty exactly when it holds a
      non-whitespace character. */
  lemma PyStripEmpty(s: string)
    ensures PyStrip(s) == "" <==> forall k :: 0 <= k < |s| ==> IsPyWhitespace(s[k])
  {
  }

  /** Joins the parts with the separator between consecutive parts, as
      CONCAT_WS and STRING_AGG do with their non-NULL arguments. */
  function Join(parts: seq<string>, sep: string): (r: string)
    ensures parts == [] ==> r == ""
    ensures |parts| == 1 ==> r == parts[0]
  {
    if |parts| == 0 then ""
    else if |parts| == 1 then parts[0]
    else parts[0] + sep + Join(parts[1..], sep)
  }

  /** Lexicographic order on code points; a proper prefix sorts first. */
  predicate LexLe(a: string, b: string)
  {
    |a| == 0 || (|b| > 0 && (a[0] < b[0] || (a[0] == b[0] && LexLe(a[1..], b[1..]))))
  }

  lemma {:induction false} LexLeTotal(a: string, b: string)
    ensures LexLe(a, b) || LexLe(b, a)
  {
    if |a| > 0 && |b| > 0 && a[0] == b[0] {
      LexLeTotal(a[1..], b[1..]);
    }
  }

  lemma {:induction false} LexLeTransitive(a: string, b: string, c: string)
    requires LexLe(a, b) && LexLe(b, c)
    ensures LexLe(a, c)
  {
    if |a| > 0 && |b| > 0 && |c| > 0 && a[0] == b[0] == c[0] {
      LexLeTransitive(a[1..], b[1..], c[1..]);
    }
  }

  lemma {:induction false} LexLeAntisymmetric(a: string, b: string)
    requires LexLe(a, b) && LexLe(b, a)
    ensures a == b
  {
    if |a| > 0 && |b| > 0 {
      LexLeAntisymmetric(a[1..], b[1..]);
      assert a == [a[0]] + a[1..];
      assert b == [b[0]] + b[1..];
    }
  }
}

=== FILE: time_metrics.dfy ===
/** Average lead time and cycle time, in whole days, of the issues delivered
    in the selected cycles (`compute_time_metrics_for_cycles`). */
module TimeMetrics {
  import opened Base
  import opened Store
  import opened Filters
  import opened Delivery

  /** A live saved version of issue `id` that carries a start date. */
  predicate DatedVersion(v: IssueVersion, id: IssueId)
  {
    v.issue == id && !v.deleted && v.startDate.Some?
  }

  /** `MIN(iv.start_date)` over the live versions of the issue; NULL start
      dates are ignored, and the minimum is NULL when no version has one. */
  function EarliestVersionStart(vs: seq<IssueVersion>, id: IssueId): (r: Option<Day>)
    ensures r.Some? <==> exists v :: v in vs && DatedVersion(v, id)
    ensures r.Some? ==> exists v :: v in vs && DatedVersion(v, id) && v.startDate.value == r.value
    ensures r.Some? ==> forall v :: v in vs && DatedVersion(v, id) ==> r.value <= v.startDate.value
  {
    if |vs| == 0 then None
    else
      var rest := EarliestVersionStart(vs[1..], id);
      assert forall v :: v in vs[1..] ==> v in vs;
      assert forall v :: v in vs ==> v == vs[0] || v in vs[1..];
      if !DatedVersion(vs[0], id) then rest
      else if rest.None? || vs[0].startDate.value <= rest.value then vs[0].startDate
      else rest
  }

  /** Start of work for the cycle time: the earliest version start date, else
      the issue's own start date, else the day the issue joined the cycle. */
  function StartOfWork(db: Db, m: Member): Day
  {
    match EarliestVersionStart(db.versions, m.link.issue)
    case Some(d) => d
    case None =>
      match m.issue.startDate
      case Some(d) => d
      case None => DayOf(m.link.createdAt)
  }

  /** The fallback order of `StartOfWork`. */
  lemma StartOfWorkPrecedence(db: Db, m: Member)
    ensures (exists v :: v in db.versions && DatedVersion(v, m.link.issue)) ==>
      && (exists v :: v in db.versions && DatedVersion(v, m.link.issue) && v.startDate.value == StartOfWork(db, m))
      && (forall v :: v in db.versions && DatedVersion(v, m.link.issue) ==> StartOfWork(db, m) <= v.startDate.value)
    ensures (forall v :: v in db.versions ==> !DatedVersion(v, m.link.issue)) && m.issue.startDate.Some? ==>
      StartOfWork(db, m) == m.issue.startDate.value
    ensures (forall v :: v in db.versions ==> !DatedVersion(v, m.link.issue)) && m.issue.startDate.None? ==>
      StartOfWork(db, m) == DayOf(m.link.createdAt)
  {
  }

  /** The rows averaged: the scope rows (all filters) delivered in their
      cycle's window, one per membership row. */
  function TimeRows(db: Db, cycleIds: set<CycleId>, project: ProjectId, f: Filter): (r: seq<Member>)
    ensures forall m :: m in r <==>
      m in ScopeRows(db, cycleIds, project, f) && DeliveredIn(m.issue.completedAt, m.cycle)
  {
    Where(ScopeRows(db, cycleIds, project, f), (m: Member) => DeliveredIn(m.issue.completedAt, m.cycle))
  }

  /** Days from the completion day back to `from`. */
  function DaysBefore(m: Member, from: Day): int
  {
    match m.issue.completedAt
    case Some(t) => DayOf(t) - from
    case None => 0
  }

  /** `completed_at::date - created_at::date`. */
  function LeadDays(m: Member): int
  {
    DaysBefore(m, DayOf(m.issue.createdAt))
  }

  /** `completed_at::date - COALESCE(iv_started_on, issue_start_date, committed_at::date)`. */
  function CycleDays(db: Db, m: Member): int
  {
    DaysBefore(m, StartOfWork(db, m))
  }

  /** `CycleDays` against one store, as a function of the row. */
  function CycleDaysIn(db: Db): Member -> int
  {
    (m: Member) => CycleDays(db, m)
  }

  function LeadSample(rows: seq<Member>): (r: seq<real>)
    ensures |r| == |rows|
    ensures forall k :: 0 <= k < |rows| ==> r[k] == LeadDays(rows[k]) as real
  {
    MapSeq(rows, (m: Member) => LeadDays(m) as real)
  }

  function CycleSample(db: Db, rows: seq<Member>): (r: seq<real>)
    ensures |r| == |rows|
    ensures forall k :: 0 <= k < |rows| ==> r[k] == CycleDays(db, rows[k]) as real
  {
    MapSeq(rows, (m: Member) => CycleDays(db, m) as real)
  }

  /** `(lead_days_avg, cycle_days_avg)`: the averages of the lead and cycle
      days over the delivered rows, and (0, 0) without selected cycles or
      without delivered rows. Work that started no earlier than the issue was
      created makes every cycle time at most its lead time, and so the
      averages too; completions on or after creation make the lead average
      non-negative. */
  function ComputeTimeMetrics(db: Db, cycleIds: set<CycleId>, project: ProjectId, f: Filter): (r: (real, real))
    ensures cycleIds == {} ==> r == (0.0, 0.0)
    ensures TimeRows(db, cycleIds, project, f) == [] ==> r == (0.0, 0.0)
    ensures AverageOf(r.0, TimeRows(db, cycleIds, project, f), LeadDays)
    ensures AverageOf(r.1, TimeRows(db, cycleIds, project, f), CycleDaysIn(db))
    ensures (forall m :: m in TimeRows(db, cycleIds, project, f) ==> DayOf(m.issue.createdAt) <= StartOfWork(db, m))
            ==> r.1 <= r.0
    ensures (forall m :: m in TimeRows(db, cycleIds, project, f) ==> LeadDays(m) >= 0) ==> r.0 >= 0.0
  {
    if cycleIds == {} then
      NoCyclesNoTimeRows(db, cycleIds, project, f);
      (0.0, 0.0)
    else
      var rows := TimeRows(db, cycleIds, project, f);
      CycleWithinLead(db, rows);
      LeadNonNegative(rows);
      MeanOfInts(rows, LeadDays, LeadSample(rows));
      MeanOfInts(rows, CycleDaysIn(db), CycleSample(db, rows));
      (Mean(LeadSample(rows)), Mean(CycleSample(db, rows)))
  }

  lemma NoCyclesNoTimeRows(db: Db, cycleIds: set<CycleId>, project: ProjectId, f: Filter)
    requires cycleIds == {}
    ensures TimeRows(db, cycleIds, project, f) == []
  {
    NoMemberEmpty(TimeRows(db, cycleIds, project, f));
  }

  /** Row by row, a later start of work means a shorter cycle time. */
  lemma CycleWithinLead(db: Db, rows: seq<Member>)
    ensures (forall m :: m in rows ==> DayOf(m.issue.createdAt) <= StartOfWork(db, m))
            ==> Mean(CycleSample(db, rows)) <= Mean(LeadSample(rows))
  {
    if forall m :: m in rows ==> DayOf(m.issue.createdAt) <= StartOfWork(db, m) {
      forall k | 0 <= k < |rows|
        ensures CycleSample(db, rows)[k] <= LeadSample(rows)[k]
      {
        assert rows[k] in rows;
      }
      MeanMonotone(CycleSample(db, rows), LeadSample(rows));
    }
  }

  lemma LeadNonNegative(rows: seq<Member>)
    ensures (forall m :: m in rows ==> LeadDays(m) >= 0) ==> Mean(LeadSample(rows)) >= 0.0
  {
    if forall m :: m in rows ==> LeadDays(m) >= 0 {
      forall k | 0 <= k < |rows|
        ensures 0.0 <= LeadSample(rows)[k]
      {
        assert rows[k] in rows;
      }
      MeanNonNegative(LeadSample(rows));
    }
  }

  /** Lead time is in whole calendar days: an issue created and completed on
      the same day has lead time 0, however many seconds apart. */
  lemma SameDayLeadIsZero(m: Member)
    requires m.issue.completedAt.Some?
    requires DayOf(m.issue.completedAt.value) == DayOf(m.issue.createdAt)
    ensures LeadDays(m) == 0
  {
  }
}
